=== FILE: README.md ===
# Interview UI skill trees, modelled in Dafny

This project models the pure core of an interview-assistant web app. In the app, an interviewer picks a job, sees the job's skill tree drawn as a graph, uploads a candidate's resume, and watches the tree's skill nodes change colour. Nodes change colour as the candidate's skills are matched to the job's and as the interview transcript mentions them.

Underneath the browser, Flask and language-model glue sit a few pure functions over one recursive skill-tree shape. The model states those functions in Dafny and proves what they promise.

| module | file | what it models |
|---|---|---|
| `Wrappers` | `wrappers.dfy` | `Option`, for missing JSON fields and absent values |
| `Text` | `text.dfy` | ASCII lower-casing, substring search, `strip`, `split`/`join`, title-casing, decimal digits |
| `SkillNode` | `skill_node.dfy` | the tree `Node(name, kind, children)`; the skill extraction used by the front end (a lower-case set) and by the backend (a pre-order lower-case list) |
| `Overlay` | `overlay.dfy` | the visualization's `update`, the node fill-colour rule, the progress bar, zoom scale arithmetic |
| `Progress` | `progress.dfy` | the progress map: initialisation, clamping, increments, the transcript keyword rules |
| `Questions` | `questions.dfy` | the question list: actions, the visible filter, the fallback questions, the panel view, `formatTime` |
| `Session` | `session.dfy` | the front end's `state` object and the handlers that change it (job selection, tree loading, progress, transcript, questions, upload, recording timer, zoom, reset layout), each a pure transition |
| `Backend` | `backend.dfy` | `allowed_file`, API-key quote stripping, the fallback questions of `generate_questions`, markdown-fence stripping, `list_jobs` |
| `Matching` | `matching.dfy` | `find_skill_similarities_simple`, as loops and as a functional reference |
| `SkillTree` | `tree.dfy` | `build_skill_tree` and `_render_tree_html` |
| `Resume` | `resume.dfy` | the keyword fallback of the resume analyser, key resolution, `generate_skill_tree` |

Conventions:
- A node's JSON `type` becomes `kind: Option<Kind>`, where `Kind` is `Skill` or `Requirement`. Any other `type` string behaves like an absent one, because the code only ever compares against those two strings.
- Lower-casing is ASCII.
- A node without a `name` carries the name "", as the backend's `get('name', '')` reads it. The front end does not handle that case (see "## Left out").
- Whatever came over the network is a parameter of the handler that receives it: a fetched tree, the question endpoint's reply, the upload reply. The same goes for the clock values stamped on history entries.
- JavaScript truthiness is written out where the code relies on it. An empty `matches` array is present, not missing. A missing or empty title falls back to the default.

Where the code and the written description of the app disagree, the model follows the code:
- An OK reply from the question endpoint without a `questions` array keeps the previous question list (`static/js/app.js:448-457`). It does not fall back to generated questions.

## Model

| member | source | states |
|---|---|---|
| SkillNode.ExtractSetMembers | static/js/skill-tree.js:113-121 | a name is in the extracted set iff some `skill` or `requirement` node at any depth lower-cases to it; group nodes contribute nothing |
| SkillNode.ExtractSetAllMembers | static/js/skill-tree.js:113-121 | the same membership characterisation, for every name at once |
| SkillNode.SkillNodeExtracted | static/js/skill-tree.js:113-121 | every skill or requirement node of the tree has its lower-cased name in the extracted set |
| SkillNode.ExtractSetSpec | static/js/skill-tree.js:113-121 | the front end's set holds exactly the elements of the backend's pre-order list |
| SkillNode.ExtractListSpec | app.py:306-318 | the backend's list is the pre-order list of skill-node names, each lower-cased, duplicates kept |
| SkillNode.SkillNamesSpec | static/js/app.js:420-428 | the names collected for question generation are the original-case names of the skill and requirement nodes of the pre-order walk |
| Overlay.Update | static/js/skill-tree.js:77-92 | `update` rebuilds the job set from the drawn tree and the candidate set from the candidate tree (empty without one), stores the similarity data verbatim and keeps the zoom |
| Overlay.UpdateFromScratch | static/js/skill-tree.js:82-92 | the result of `update` does not depend on the sets of the previous render, and updating twice with the same arguments is the same as once |
| Overlay.ProgressFill | static/js/skill-tree.js:196-199 | progress 100 is complete, any other positive value partial, zero or less not started |
| Overlay.Classify | static/js/skill-tree.js:157-202 | group nodes are neutral; a skill node is matched iff the match rule holds, candidate-only iff the match rule fails and the candidate-only rule holds, and otherwise takes its progress colour |
| Overlay.SimilarityOverridesSets | static/js/skill-tree.js:163-189 | when similarity data carries both fields, the job and candidate sets play no part in the colour |
| Overlay.SimilarityMatchWins | static/js/skill-tree.js:163-172 | a node named case-insensitively by some match's job skill is matched, whatever its progress or the candidate-only list say |
| Overlay.NaiveRules | static/js/skill-tree.js:173-199 | without similarity data: in both sets means matched, in the candidate set only means candidate-only, absent from the candidate set means the progress colour |
| Overlay.CandidateOnlyFallbackUnreachable | static/js/skill-tree.js:182-193 | without a `candidate_only` field no node of the drawn tree is ever candidate-only, because the job set is extracted from that same tree |
| Overlay.NoCandidateMeansProgress | static/js/skill-tree.js:85-89 | with neither candidate tree nor similarity data every skill node shows its progress colour |
| Overlay.ClassifyReadsOwnProgress | static/js/skill-tree.js:196 | a node's colour depends on its own progress entry only |
| Overlay.ProgressBar | static/js/skill-tree.js:239-269 | a bar exists iff the node is a skill with positive progress; its width is 40·p/100, so positive, at most 40 for progress up to 100, and exactly 40 and complete-coloured at 100 |
| Overlay.ProgressBarGrows | static/js/skill-tree.js:259-262 | a skill with more progress draws a strictly wider bar |
| Overlay.NewViz | static/js/skill-tree.js:3-55 | a new visualization draws the given tree at a scale within the zoom bounds |
| Overlay.ZoomIn | static/js/skill-tree.js:316-318 | zooming in never exceeds 3, never shrinks a scale in [0, 3], and keeps [0.1, 3] |
| Overlay.ZoomOut | static/js/skill-tree.js:297-299 | zooming out never goes below 0.1, never grows a scale of at least 0.1, and keeps [0.1, 3] |
| Overlay.ZoomInOutRoundTrip | static/js/skill-tree.js:297-318 | away from the upper clamp, zooming in then out returns to the same scale |
| Overlay.ZoomOutInRoundTrip | static/js/skill-tree.js:297-318 | away from the lower clamp, zooming out then in returns to the same scale |
| Overlay.DefaultZoomRoundTrip | static/js/skill-tree.js:10-10 | the default 0.7 lies within the bounds, and one step in either direction is undone by the opposite step |
| Overlay.ZoomInViz | static/js/skill-tree.js:316-333 | the zoom-in button changes only the scale and keeps it within bounds |
| Overlay.ZoomOutViz | static/js/skill-tree.js:297-314 | the zoom-out button changes only the scale and keeps it within bounds |
| Overlay.ResetZoom | static/js/skill-tree.js:57-75 | resetting changes only the scale and lands within bounds |
| Overlay.ScenarioNaiveMatch | static/js/skill-tree.js:173-199 | job React and CSS3, candidate React, no similarity data: React is matched and CSS3 at progress 0 is not started |
| Overlay.ScenarioSimilarityOverride | static/js/skill-tree.js:163-189 | the same trees with similarity data `{matches: [], candidate_only: ["React"]}`: React is candidate-only, the data beating the naive match |
| Overlay.ScenarioComplete | static/js/skill-tree.js:196-197 | an unmatched skill at progress 100 is complete |
| Progress.Clamp | static/js/app.js:671-671 | the result lies in [0, 100], equals the input inside that range and the nearer bound outside it |
| Progress.SetProgress | static/js/app.js:670-672 | the clamped value is stored under the name, every other key keeps its value, and an in-range map stays in range |
| Progress.Increment | static/js/app.js:681-684 | a missing key counts as 0; the new value is the clamped sum; no other key changes |
| Progress.IncrementSaturates | static/js/app.js:681-684 | enough positive increments reach exactly 100 and stay there |
| Progress.DefaultIncrementSteps | static/js/app.js:681-681 | with the default amount of 25 a fresh skill reaches 75 after three increments and 100 after four |
| Progress.InitProgressSpec | static/js/app.js:397-404 | initialising adds exactly the original-case names of the tree's skill and requirement nodes, each at 0, and leaves every other key as it was |
| Progress.FreshProgress | static/js/app.js:309-310 | the map made for a newly loaded tree has exactly the skill-node names as keys, all at 0 |
| Progress.RuleUpdatesMembers | static/js/app.js:698-712 | a skill receives an update iff one of its rule's keywords occurs in the lower-cased text |
| Progress.RuleUpdatesDistinct | static/js/app.js:700-712 | no skill receives more than one update per transcript entry |
| Progress.ApplyUpdatesEffect | static/js/app.js:714-718 | each updated skill ends at its clamped sum; every other key keeps its presence and value |
| Progress.TranscriptEffect | static/js/app.js:698-718 | a transcript entry raises a skill by 20 (clamped) iff it mentions one of that skill's keywords, and leaves it unchanged otherwise |
| Progress.TranscriptExample | static/js/app.js:698-712 | "I use React and CSS" yields React +20 then CSS3 +20 and nothing for TypeScript or JavaScript |
| Questions.Visible | static/js/app.js:522-522 | the shown questions are exactly those neither asked nor skipped |
| Questions.VisibleAppend | static/js/app.js:522-522 | the filter keeps the original order: filtering a concatenation is concatenating the filtered parts |
| Questions.FindById | static/js/app.js:575-575 | the lookup finds the first question with the id, or reports that none has it |
| Questions.HandleAction | static/js/app.js:574-590 | an unknown id changes nothing; otherwise only the first question with the id changes, `ask` marks it asked and appends one history entry with its text, `skip` marks it skipped and leaves the history alone |
| Questions.HandleActionAt | static/js/app.js:574-590 | with unique ids, acting on a question replaces exactly that question by its marked copy |
| Questions.HandleActionCards | static/js/app.js:574-590 | acting on a shown question removes exactly that card from the shown list and keeps the others in order; acting on a hidden one changes nothing shown |
| Questions.HistoryGrowth | static/js/app.js:577-583 | the history grows by one exactly when a known question is asked |
| Questions.Numbered | static/js/app.js:451-456 | received texts become shown questions with ids 1..n in order |
| Questions.NumberedAllShown | static/js/app.js:451-456 | every freshly received question is shown |
| Questions.SkillFallback | static/js/app.js:460-465 | on a non-OK reply, one experience question per skill among the first five, with ids 1..n in order |
| Questions.Generate | static/js/app.js:448-488 | the reply decides the list: the received texts, the previous list when an OK reply has no array, the skill questions on a non-OK reply, the three fixed texts on an error |
| Questions.FallbackFromTree | static/js/app.js:419-465 | the fallback asks about the first at most five skill nodes of the tree, in pre-order |
| Questions.PanelView | static/js/app.js:497-541 | the panel shows the generate button iff nothing was generated, the empty message iff no question is shown, and otherwise the shown cards, with a timer exactly while recording |
| Questions.FormatTime | static/js/app.js:102-106 | the text is minutes, a colon and two zero-padded digits whose values are `s div 60` and `s mod 60`, so minutes·60 + seconds gives back the input |
| Questions.FormatTimeInjective | static/js/app.js:102-106 | different second counts never print the same |
| Questions.FormatTimeExamples | static/js/app.js:102-106 | 0 prints `0:00`, 65 prints `1:05`, 600 prints `10:00` |
| Session.Init | static/js/app.js:2-26 | the page starts with no tree, no visualization, an empty progress map and no questions, in a synchronised state |
| Session.RenderTree | static/js/app.js:619-657 | rendering always makes a new visualization of the given tree at the default zoom, already up to date with the candidate tree and similarity data |
| Session.LoadSkillTree | static/js/app.js:259-331 | without a job id or without a fetched tree the session is cleared (the visualization instance is left as it was); otherwise the tree is stored, progress starts fresh, similarity and questions reset, and a new visualization shows the tree; the session stays synchronised |
| Session.SelectJob | static/js/app.js:236-249 | clicking a job drops the visualization and loads the job's tree: on failure nothing is loaded and no visualization exists; on success the tree is shown fresh at the default zoom; either way the session is synchronised |
| Session.FailedSelectionDrawsNothing | static/js/app.js:246-248 | after a job whose tree failed to load, a progress update only stores the clamped value: there is still no tree and no visualization |
| Session.Redraw | static/js/app.js:674-678 | an existing visualization redraws its own tree at its own zoom; without one a loaded tree gets a new one |
| Session.UpdateSkillProgress | static/js/app.js:670-679 | the clamped value is stored, other keys keep their values, only progress and the drawing change, and the session stays synchronised |
| Session.IncrementSkillProgress | static/js/app.js:681-684 | the progress map changes exactly as `Progress.Increment` says and nothing else but the drawing changes |
| Session.IncrementAll | static/js/app.js:714-718 | the updates are applied in order to the progress map alone |
| Session.ProcessTranscript | static/js/app.js:687-721 | with unread entries while recording, the read index moves to the end, the recording flag takes the recorder's current state and, if still recording, the last entry's updates are applied; otherwise nothing changes |
| Session.QuestionAction | static/js/app.js:574-590 | a question action changes the questions and history as `Questions.HandleAction` says and nothing else |
| Session.RequestFor | static/js/app.js:430-445 | the question request carries the tree's title or "Software Engineer", its location or "", the first ten skill names joined by ", ", the job tree and the candidate tree |
| Session.RequestFallbackQuestions | static/js/app.js:420-445 | for skill names without commas or surrounding whitespace, the backend's fallback for the request the front end sends asks the good-fit question for its title and one experience question about each of the tree's first three skills, by name |
| Session.GenerateQuestions | static/js/app.js:407-494 | without a loaded tree nothing happens; otherwise the panel is marked generated and the list is what `Questions.Generate` gives for the tree's skills |
| Session.ResumeUploaded | static/js/app.js:781-833 | a non-PDF or failed upload changes nothing; a successful one stores the candidate tree and similarity data and redraws a loaded tree at the default zoom |
| Session.ResetLayout | static/js/app.js:836-846 | with a tree and a visualization, progress starts fresh and the zoom returns to default; otherwise nothing changes |
| Session.TimerCountsTicks | static/js/app.js:130-152 | n seconds after recording starts, whatever the timer read before, it reads n and recording is still on |
| Session.StoppedTimerFrozen | static/js/app.js:141-163 | after recording stops, any number of interval ticks changes nothing |
| Session.TimerShown | static/js/app.js:536-541 | while recording, the question panel's timer shows the seconds since recording started, formatted as `m:ss` |
| Session.ZoomInButton | static/js/skill-tree.js:316-333 | zooming touches only the visualization and keeps the session synchronised |
| Session.ZoomOutButton | static/js/skill-tree.js:297-314 | zooming touches only the visualization and keeps the session synchronised |
| Session.SyncedColours | static/js/app.js:619-657 | in a synchronised session the naive candidate-only branch never fires for a node of the loaded tree, and without candidate or similarity data every skill shows its progress colour |
| Session.LoadedTreeStartsBlank | static/js/app.js:303-313 | right after a tree loads, with no candidate tree, every skill node of it is not started |
| Session.ResetLayoutIdempotent | static/js/app.js:836-846 | pressing reset layout twice is the same as once |
| Session.TranscriptTick | static/js/app.js:687-719 | a tick while recording raises exactly the skills the last new entry mentions, each by 20 clamped |
| Session.TickAfterStop | static/js/app.js:692-693 | if recording stops before the delayed rule check, the entries are marked read and no progress changes |
| Session.TranscriptProcessedOnce | static/js/app.js:688-690 | an entry is processed at most once: a second tick without new entries changes nothing |
| Backend.Extension | app.py:39-39 | the extension is the text after the last dot, absent iff there is no dot |
| Backend.AllowedFileIff | app.py:38-39 | a file is allowed iff its name ends in a dot followed by three characters that lower-case to `pdf` |
| Backend.AllowedFileAccepts | app.py:38-39 | `cv.pdf` and `CV.PDF` are accepted |
| Backend.AllowedFileRejects | app.py:38-39 | `pdf` (no dot) and `a.pdf.exe` are rejected |
| Backend.Unquote | app.py:18-23 | a missing key stays missing, a key not starting with a quote is kept, and one starting with a quote loses every leading and trailing quote character: the result is an infix with only quotes around it, and it neither starts nor ends with a quote |
| Backend.UnquoteIdempotent | app.py:18-23 | stripping the quotes twice is the same as once |
| Backend.UnquoteWrapped | app.py:18-23 | a key wrapped in one pair of double or single quotes comes back unwrapped |
| Backend.FallbackQuestionTexts | app.py:288-304 | five fixed questions, the first naming the job title or "Software Engineer"; then one experience question per stripped comma piece among the first three when skills are given; five to eight in all |
| Backend.FallbackAsksRequestedSkills | app.py:299-302 | given the front end's `", "`-joined skills, the backend asks about the first three skill names exactly |
| Backend.SplitRequestSkills | app.py:300-300 | splitting the joined skill list at commas gives the names back, each but the first with its leading space |
| Backend.DropFences | app.py:249-249 | the kept lines are exactly the lines that do not start with a fence after stripping |
| Backend.DropFencesIdempotent | app.py:249-249 | dropping fences twice is the same as once |
| Backend.CleanModelOutput | app.py:243-249 | unfenced content is only stripped; fenced content keeps no fence line, and when any other line remains, the result's lines are exactly the non-fence lines in order, and an answer made only of fence lines comes out empty |
| Backend.CleanModelOutputExample | app.py:246-249 | a fenced JSON answer comes out as the bare payload |
| Backend.ListedMembers | app.py:114-130 | a job is listed iff some readable file has a truthy id and gives exactly that entry, with "Unknown" and "" for a missing title and location |
| Backend.BelowTotal | app.py:133-133 | any two different titles are ordered one way or the other by the comparison the sort uses |
| Backend.InsertSorted | app.py:133-133 | inserting into a sorted list keeps it sorted |
| Backend.SortByTitleSorted | app.py:133-133 | the sort result is ordered by title |
| Backend.SortByTitleStable | app.py:133-133 | the sort is stable: jobs with the same title keep their relative order |
| Backend.ListJobs | app.py:108-134 | the listing is a permutation of the jobs with a truthy id |
| Backend.ListJobsSpec | app.py:122-133 | the listing is sorted, holds exactly the jobs with a truthy id, and keeps same-title jobs in file order |
| Matching.FirstRelated | app.py:412-421 | the chosen job skill is the first whose lower-case form equals or contains, or is contained in, the candidate's |
| Matching.FindPartner | app.py:412-421 | the inner loop finds exactly that first related job skill |
| Matching.MatchOf | app.py:412-419 | a candidate is matched iff some job skill is related; the match pairs it with a listed job skill and says "exact" iff their lower-case forms are equal, otherwise "related" |
| Matching.Partition | app.py:409-423 | the matched candidates and the candidate-only list are the two in-order sublists of the candidates, split by whether any job skill is related |
| Matching.PartitionCounts | app.py:409-423 | every candidate lands in exactly one of the two lists |
| Matching.PartitionEntries | app.py:409-423 | every match entry is the match computed for its own candidate |
| Matching.MatchCandidates | app.py:409-423 | the outer loop produces exactly the functional partition |
| Matching.JobOnly | app.py:425-428 | the job-only list holds exactly the job skills that no match names case-insensitively, in order |
| Matching.CollectJobOnly | app.py:425-428 | the second loop produces exactly that list |
| Matching.FindSimilaritiesSimple | app.py:400-434 | the whole matcher equals the functional reference; the two lists account for every candidate; every match pairs listed skills and is labelled exact iff they are equal ignoring case |
| Matching.MatcherNeverCandidateOnly | static/js/skill-tree.js:182-193 | fed the matcher's output, no node of the job tree is coloured candidate-only |
| Matching.ExactMatchHidden | app.py:409-428 | as written, jobs `[Java, JavaScript]` and candidate `[JavaScript]` pair JavaScript with Java as "related" and report the job's own JavaScript as job-only |
| Matching.SimilarExactFirst | app.py:409-423 | the corrected matcher: the same partition, but a candidate with an equal job skill is paired with it as "exact", and no job-only skill equals any candidate ignoring case |
| Matching.ExactFirstMarksSharedSkills | app.py:409-423 | with the corrected matcher, a job skill the candidate also lists is always coloured matched |
| SkillTree.Lookup | skill_tree_common.py:32-32 | `technical.get(key)` is empty when no entry has the key, and a non-empty answer is the list of an entry with that key |
| SkillTree.LookupFirst | skill_tree_common.py:32-32 | `technical.get(key)` is exactly the list of the first entry with the key, whatever entries follow |
| SkillTree.OtherCategories | skill_tree_common.py:81-91 | the extra categories are exactly those with a key outside the five fixed ones and a non-empty list, titled from the key |
| SkillTree.BuildShape | skill_tree_common.py:18-138 | the root is `Skills` with no type; its children follow the order Technical Skills, Soft Skills, Domain Expertise, Certifications, Methodologies & Techniques; Technical Skills is present iff it has a sub-category, each other one iff its list is non-empty |
| SkillTree.TechnicalShape | skill_tree_common.py:23-94 | under Technical Skills the fixed sub-categories come first in their fixed order, each present iff its list is non-empty, followed by the other non-empty keys |
| SkillTree.FixedTitlesOrder | skill_tree_common.py:31-79 | the fixed sub-category titles appear in the order Programming Languages, Frameworks, Tools, Databases, Cloud Platforms |
| SkillTree.FixedTitlesPresent | skill_tree_common.py:31-79 | a fixed sub-category appears iff its list is non-empty |
| SkillTree.BuildShaped | skill_tree_common.py:33-138 | every node of a built tree is either a childless `skill` leaf or an untyped group; there are no requirement nodes |
| SkillTree.SkillNamesLeaves | skill_tree_common.py:35-38 | the skill names read back from a category's leaves are the input list, in order |
| SkillTree.BuildSkillNames | skill_tree_common.py:24-138 | the skill names of the built tree are the input lists concatenated in category order |
| SkillTree.BuildExtractRoundTrip | skill_tree_common.py:24-138 | extracting from a built tree gives back the input lists lower-cased, in category order |
| SkillTree.IndentSpaces | skill_tree_common.py:211-211 | the indent of a level is exactly two spaces per level |
| SkillTree.RenderAsLines | skill_tree_common.py:209-223 | the rendered HTML of a node at any indent level is the concatenation of its line list, so facts about lines carry over to the HTML |
| SkillTree.LinesBalanced | skill_tree_common.py:209-223 | every rendered node opens as many `skill-node` divs as it closes |
| SkillTree.LinesNested | skill_tree_common.py:209-223 | no proper prefix of a node's output closes more divs than it opened: the node's own div stays open until its last line |
| SkillTree.LinesItems | skill_tree_common.py:215-220 | for a shaped group, the inline items of its output are the skill names below it, in order |
| SkillTree.RenderBuiltTree | skill_tree_common.py:209-223 | rendering a built tree lists every input skill as an inline item in category order, with balanced divs |
| Resume.Found | resume_skill_tree.py:167-171 | a keyword is reported iff its lower-case form occurs in the lower-cased resume |
| Resume.FoundInOrder | resume_skill_tree.py:168-171 | the found keywords are an in-order selection of the keyword list |
| Resume.FoundDistinct | resume_skill_tree.py:168-171 | the found list repeats no keyword |
| Resume.FallbackExtraction | resume_skill_tree.py:156-182 | exactly the three technical categories, in the order languages, frameworks, tools; each holds, in keyword-list order, the keywords whose lower-case form occurs in the lower-cased resume; every other category is empty |
| Resume.ShortKeywordsOverMatch | resume_skill_tree.py:159-171 | substring matching over-reports: "Django" yields the language Go and "JavaScript" yields Java |
| Resume.FallbackListsDistinct | resume_skill_tree.py:159-171 | none of the three reported lists repeats a keyword |
| Resume.FallbackTree | resume_skill_tree.py:173-182 | a tree built from the fallback has at most the child Technical Skills, holding the found languages, frameworks and tools in that order |
| Resume.ResolveApiKey | resume_skill_tree.py:24-32 | a non-empty explicit key is returned unchanged; otherwise a missing environment key gives none, an environment key not starting with a quote is returned unchanged, and a quoted one gives an infix of it, with only quote characters before and after it, that neither starts nor ends with a quote |
| Resume.ExplicitKeyKeepsQuotes | resume_skill_tree.py:26-32 | a quoted key passed explicitly keeps its quotes, while the same text read from the environment loses them |
| Resume.GenerateSkillTree | resume_skill_tree.py:184-198 | the result is a `Skills` root; with a non-empty key and a parsed model answer it is the tree built from that answer, and without a key or without a parsed answer it is the tree of the keyword fallback |
| Resume.NoKeyTree | resume_skill_tree.py:190-198 | without a key the generated tree has at most one top-level child |

## Left out

- D3 layout and drawing: coordinates, link paths, labels, hover handlers, transitions and the translate part of the zoom transform. Only the zoom scale is modelled, as a `real`.
- The browser and server glue: DOM updates, `fetch`, timers and `setTimeout`, the waveform, the camera, Flask routing, file and directory reads, `secure_filename`, `uuid`, `md5`, dotenv, PDF text extraction and the calls to the language model. Their results are handler parameters.
- JSON parsing of model output (`json.loads`) and the model-backed paths `generate_questions_with_grok`, `find_skill_similarities_with_grok` and `analyze_resume_with_xai`. Only their fallbacks and the post-processing of their text are modelled.
- `experience_levels` and `skill_relationships` in the resume result: they are always empty and nothing reads them.
- The resize handler re-renders without candidate or similarity data. This is a known defect and is not modelled.
- The reset-layout button gives `state` a new progress map while the visualization keeps reading the old one. The model keeps one shared map instead.
- The race between overlapping tree fetches for different jobs: the code does nothing about it, and the model treats every handler as atomic.
- `Date.now()` and `toLocaleTimeString()` are opaque parameters of a question action.
- Unicode case mapping and whitespace: lower-casing is ASCII only, and `strip()` removes only the ASCII whitespace. Python's `str.strip()` also removes U+0085, U+00A0, U+2000 to U+200A, U+3000 and other non-ASCII spaces; the model keeps them in the fence test (app.py:249) and in the stripped skill names (app.py:302).
- Backend.FallbackQuestionTexts: an explicit JSON `null` job title makes `data.get('job_title', 'Software Engineer')` return `None` (app.py:269), and the source then asks about a "None position" (app.py:290). The model reads a null title as absent and uses the default. The front end always sends a string title (static/js/app.js:430).
- SkillTree.OtherCategories: every technical value is modelled as a list of strings. So the `isinstance(value, list)` filter (skill_tree_common.py:84) never skips anything, and a string under a fixed key, which the source would split into one leaf per character (skill_tree_common.py:32-38), cannot occur.
- A skill node without a `name`: the front end calls `toLowerCase()` on the missing name and throws (`static/js/skill-tree.js:115`, `static/js/skill-tree.js:160`), and it uses `undefined` as a progress key or question skill (`static/js/app.js:399`, `static/js/app.js:422`). The model gives every node a string name, so these failures are not modelled.
- Backend.ListJobs: sorting files whose `job_title` values have different JSON types raises a `TypeError` in Python. The model gives every job a string title.
- Backend.ListedMembers: an unreadable or malformed job file is modelled as `None` and skipped. The error message printed for it is not modelled.
- Duplicate keys in the technical-skills object cannot occur after JSON parsing. `SkillTree.Lookup` takes the first entry with the key, which agrees with that.
- Overlay.ZoomIn and Overlay.ZoomOut use exact `real` arithmetic rather than floating point, so products such as 0.7·1.25·0.8 are exact in the model.

## Findings

| source | as written | input that shows it | evidently intended | confidence | as-written member | corrected member |
|---|---|---|---|---|---|---|
| app.py:409-423 | each candidate skill is paired with the first job skill that is equal or a substring either way, and the loop stops there | job skills `[Java, JavaScript]`, candidate skills `[JavaScript]`: the match is JavaScript–Java "related", and the job's own `JavaScript` is reported as job-only, so that node is not coloured matched | a job skill equal to the candidate's, ignoring case, should be preferred over a merely related one | medium, not executed | Matching.ExactMatchHidden | Matching.SimilarExactFirst |

=== FILE: backend.dfy ===
/**
 * The pure helpers of the Flask backend (`app.py`): the upload file-name
 * test, the API-key quote stripping, the hard-coded fallback interview
 * questions, the removal of markdown code fences around a model answer, and
 * the filter-and-sort behind the job list.
 */
module Backend {
  import opened Wrappers
  import opened Text

  // ---------------------------------------------------------------------
  // allowed_file
  // ---------------------------------------------------------------------

  /** The index of the last occurrence of `c` in `s`, if any. */
  function LastIndex(s: string, c: char): (r: Option<nat>)
    ensures r.None? <==> c !in s
    ensures r.Some? ==> r.value < |s| && s[r.value] == c && c !in s[r.value + 1..]
  {
    if |s| == 0 then None
    else if s[|s| - 1] == c then Some(|s| - 1)
    else
      var r := LastIndex(s[..|s| - 1], c);
      assert s == s[..|s| - 1] + [s[|s| - 1]];
      if r.Some? then
        assert s[r.value + 1..] == s[..|s| - 1][r.value + 1..] + [s[|s| - 1]];
        r
      else r
  }

  /** An occurrence of `c` with no later occurrence is the last one. */
  lemma {:induction false} LastIndexUnique(s: string, c: char, j: nat)
    requires j < |s| && s[j] == c && c !in s[j + 1..]
    ensures LastIndex(s, c) == Some(j)
    decreases |s|
  {
    if j < |s| - 1 {
      assert s[|s| - 1] == s[j + 1..][|s| - 2 - j];
      var init := s[..|s| - 1];
      assert init[j + 1..] == s[j + 1..|s| - 1];
      LastIndexUnique(init, c, j);
    }
  }

  /** `filename.rsplit('.', 1)[1]`: the text after the last dot, when there is a dot. */
  function Extension(filename: string): (r: Option<string>)
    ensures r.None? <==> '.' !in filename
    ensures r.Some? ==> '.' !in r.value && |r.value| < |filename|
    ensures r.Some? ==>
      filename[|filename| - |r.value| - 1] == '.' && filename[|filename| - |r.value|..] == r.value
  {
    match LastIndex(filename, '.')
    case None => None
    case Some(i) => Some(filename[i + 1..])
  }

  /** `allowed_file`: the name has a dot and its extension lowercases to `pdf`. */
  predicate AllowedFile(filename: string)
  {
    Extension(filename).Some? && Lower(Extension(filename).value) == "pdf"
  }

  lemma LowerPdfHasNoDot(x: string)
    requires Lower(x) == "pdf"
    ensures '.' !in x
  {
    forall k | 0 <= k < |x|
      ensures x[k] != '.'
    {
      assert Lower(x)[k] == LowerChar(x[k]);
    }
  }

  /**
   * The file name test in plain terms: the name ends in a dot followed by
   * three characters that lowercase to `pdf` (so `CV.PDF` passes and
   * `report.pdf.exe` does not).
   */
  lemma AllowedFileIff(filename: string)
    ensures AllowedFile(filename) <==>
      |filename| >= 4 && filename[|filename| - 4] == '.' && Lower(filename[|filename| - 3..]) == "pdf"
  {
    if |filename| >= 4 && filename[|filename| - 4] == '.' && Lower(filename[|filename| - 3..]) == "pdf" {
      LowerPdfHasNoDot(filename[|filename| - 3..]);
      assert filename[|filename| - 4 + 1..] == filename[|filename| - 3..];
      LastIndexUnique(filename, '.', |filename| - 4);
    }
  }

  lemma AllowedFileAccepts()
    ensures AllowedFile("cv.pdf") && AllowedFile("CV.PDF")
  {
    AcceptsLower();
    AcceptsUpper();
  }

  lemma AcceptsLower()
    ensures AllowedFile("cv.pdf")
  {
    AllowedFileIff("cv.pdf");
    assert "cv.pdf"[3..] == "pdf";
  }

  lemma AcceptsUpper()
    ensures AllowedFile("CV.PDF")
  {
    AllowedFileIff("CV.PDF");
    assert "CV.PDF"[3..] == "PDF";
    assert Lower("PDF") == "pdf";
  }

  lemma AllowedFileRejects()
    ensures !AllowedFile("pdf") && !AllowedFile("a.pdf.exe")
  {
    AllowedFileIff("pdf");
    AllowedFileIff("a.pdf.exe");
    assert "a.pdf.exe"[5] == '.';
  }

  // ---------------------------------------------------------------------
  // get_api_key (and the same stripping in the resume generator)
  // ---------------------------------------------------------------------

  const Quotes: set<char> := {'"', '\''}

  predicate StartsWithQuote(k: string)
  {
    |k| > 0 && k[0] in Quotes
  }

  /**
   * A key read from the environment: a non-empty value starting with a
   * quote loses all leading and trailing quote characters; any other value,
   * or no value, is passed on unchanged.
   */
  function Unquote(env: Option<string>): (r: Option<string>)
    ensures env.None? ==> r.None?
    ensures env.Some? && !StartsWithQuote(env.value) ==> r == env
    ensures env.Some? && StartsWithQuote(env.value) ==>
      && r.Some? && (exists i :: StrippedAt(env.value, Quotes, r.value, i))
      && !StartsWithQuote(r.value) && (|r.value| > 0 ==> r.value[|r.value| - 1] !in Quotes)
  {
    if env.Some? && StartsWithQuote(env.value) then Some(StripSet(env.value, Quotes)) else env
  }

  /** Stripping quotes a second time changes nothing. */
  lemma UnquoteIdempotent(env: Option<string>)
    ensures Unquote(Unquote(env)) == Unquote(env)
  {
  }

  /** A key wrapped in matching quotes comes out bare when it has no quotes of its own at its ends. */
  lemma UnquoteWrapped(key: string)
    requires |key| > 0 && key[0] !in Quotes && key[|key| - 1] !in Quotes
    ensures Unquote(Some(['"'] + key + ['"'])) == Some(key)
    ensures Unquote(Some(['\''] + key + ['\''])) == Some(key)
  {
    UnquoteWrappedBy('"', key);
    UnquoteWrappedBy('\'', key);
  }

  lemma UnquoteWrappedBy(q: char, key: string)
    requires q in Quotes
    requires |key| > 0 && key[0] !in Quotes && key[|key| - 1] !in Quotes
    ensures Unquote(Some([q] + key + [q])) == Some(key)
  {
    var w := [q] + key + [q];
    assert w[1..|w| - 1] == key;
    StripWrapped(w, key);
  }

  /** Stripping a one-character wrapper from each end. */
  lemma StripWrapped(w: string, key: string)
    requires |w| == |key| + 2 && w[0] in Quotes && w[|w| - 1] in Quotes && w[1..|w| - 1] == key
    requires |key| > 0 && key[0] !in Quotes && key[|key| - 1] !in Quotes
    ensures StripSet(w, Quotes) == key
  {
    assert TrimLeft(w, Quotes) == TrimLeft(w[1..], Quotes);
    assert TrimLeft(w[1..], Quotes) == w[1..];
    var inner := w[1..];
    assert inner[..|inner| - 1] == key;
    assert TrimRight(inner, Quotes) == TrimRight(key, Quotes);
  }

  // ---------------------------------------------------------------------
  // generate_questions: the hard-coded fallback
  // ---------------------------------------------------------------------

  function GoodFitQuestion(jobTitle: string): string
  {
    "Can you explain why you are a good fit for our " + jobTitle + " position?"
  }

  /** The four questions that follow the first one whatever the request says. */
  const GenericQuestions: seq<string> := [
    "What technical challenges have you faced in your previous projects?",
    "How do you approach problem-solving in a technical context?",
    "Can you describe a complex project you've worked on?",
    "What methodologies do you use for software development?"
  ]

  function ExperienceQuestion(skill: string): string
  {
    "Can you tell me about your experience with " + skill + "?"
  }

  function ExperienceQuestions(pieces: seq<string>): (r: seq<string>)
    ensures |r| == |pieces|
    ensures forall i :: 0 <= i < |r| ==> r[i] == ExperienceQuestion(Strip(pieces[i]))
  {
    seq(|pieces|, i requires 0 <= i < |pieces| => ExperienceQuestion(Strip(pieces[i])))
  }

  function Min(a: int, b: int): int { if a <= b then a else b }

  /** `s[:n]` */
  function Prefix<T>(s: seq<T>, n: nat): (r: seq<T>)
    ensures |r| == Min(|s|, n) && r == s[..|r|]
  {
    if |s| <= n then s else s[..n]
  }

  /**
   * The fallback branch of `generate_questions`. A missing `job_title`
   * defaults to `Software Engineer` and a missing `skills` to the empty
   * string; a non-empty skills string adds one question per stripped comma
   * piece among the first three; the list is cut to eight.
   */
  function FallbackQuestionTexts(jobTitle: Option<string>, skills: Option<string>): (r: seq<string>)
    ensures 5 <= |r| <= 8
    ensures r[0] == GoodFitQuestion(jobTitle.GetOr("Software Engineer"))
    ensures r[1..5] == GenericQuestions
    ensures skills.GetOr("") == "" ==> |r| == 5
    ensures skills.GetOr("") != "" ==> |r| == 5 + Min(3, |Split(skills.GetOr(""), ',')|)
    ensures forall k :: 5 <= k < |r| ==>
      r[k] == ExperienceQuestion(Strip(Split(skills.GetOr(""), ',')[k - 5]))
  {
    var title := jobTitle.GetOr("Software Engineer");
    var s := skills.GetOr("");
    var base := [GoodFitQuestion(title)] + GenericQuestions;
    var extra := if s != "" then ExperienceQuestions(Prefix(Split(s, ','), 3)) else [];
    Prefix(base + extra, 8)
  }

  /** The skills string the front end sends: names joined with `", "`, each but the first preceded by a space. */
  function Spaced(names: seq<string>): (r: seq<string>)
    ensures |r| == |names|
    ensures forall i :: 0 <= i < |r| ==> r[i] == " " + names[i]
  {
    seq(|names|, i requires 0 <= i < |names| => " " + names[i])
  }

  lemma {:induction false} JoinSpaced(names: seq<string>)
    requires |names| >= 1
    ensures " " + Join(names, ", ") == Join(Spaced(names), ",")
    decreases |names|
  {
    if |names| > 1 {
      JoinSpaced(names[1..]);
      assert Spaced(names)[1..] == Spaced(names[1..]);
      calc {
        " " + Join(names, ", ");
        " " + (names[0] + ", " + Join(names[1..], ", "));
        (" " + names[0]) + "," + (" " + Join(names[1..], ", "));
        Join(Spaced(names), ",");
      }
    }
  }

  /** The comma pieces of the request's skills string: the names, all but the first with a leading space. */
  function RequestPieces(names: seq<string>): (r: seq<string>)
    requires |names| >= 1
    ensures |r| == |names| && r[0] == names[0] && r[1..] == Spaced(names[1..])
    ensures forall i :: 1 <= i < |r| ==> r[i] == " " + names[i]
  {
    [names[0]] + Spaced(names[1..])
  }

  lemma JoinCons(parts: seq<string>, sep: string)
    requires |parts| > 1
    ensures Join(parts, sep) == parts[0] + sep + Join(parts[1..], sep)
  {
  }

  lemma CommaSpace(a: string, rest: string)
    ensures a + ", " + rest == a + "," + (" " + rest)
  {
  }

  lemma JoinRequestPieces(names: seq<string>)
    requires |names| >= 1
    ensures Join(names, ", ") == Join(RequestPieces(names), ",")
  {
    if |names| > 1 {
      var pieces := RequestPieces(names);
      var rest := Join(names[1..], ", ");
      JoinSpaced(names[1..]);
      JoinCons(pieces, ",");
      JoinCons(names, ", ");
      CommaSpace(names[0], rest);
    }
  }

  /** Splitting `", ".join(names)` on commas gives the names, all but the first with a leading space. */
  lemma SplitRequestSkills(names: seq<string>)
    requires |names| >= 1
    requires forall i :: 0 <= i < |names| ==> ',' !in names[i]
    ensures Split(Join(names, ", "), ',') == RequestPieces(names)
  {
    var pieces := RequestPieces(names);
    JoinRequestPieces(names);
    forall i | 0 <= i < |pieces|
      ensures ',' !in pieces[i]
    {
      if i > 0 {
        assert pieces[i] == " " + names[i];
      }
    }
    SplitJoin(pieces, ',');
  }

  /** A string with no surrounding whitespace. */
  predicate Bare(s: string)
  {
    |s| > 0 ==> s[0] !in Whitespace && s[|s| - 1] !in Whitespace
  }

  lemma StripSpaced(n: string)
    requires Bare(n)
    ensures Strip(" " + n) == n && Strip(n) == n
  {
    assert (" " + n)[1..] == n;
    assert TrimLeft(" " + n, Whitespace) == TrimLeft(n, Whitespace);
  }

  /**
   * End to end with the front end's request: when the page sends the first
   * skill names of the job tree joined with `", "` (names without commas or
   * surrounding spaces, the first non-empty), the fallback asks about the
   * first three of them by name, in order.
   */
  lemma FallbackAsksRequestedSkills(jobTitle: Option<string>, names: seq<string>)
    requires |names| >= 1 && names[0] != ""
    requires forall i :: 0 <= i < |names| ==> ',' !in names[i] && Bare(names[i])
    ensures var r := FallbackQuestionTexts(jobTitle, Some(Join(names, ", ")));
      && |r| == 5 + Min(3, |names|)
      && forall k :: 0 <= k < Min(3, |names|) ==> r[5 + k] == ExperienceQuestion(names[k])
  {
    var skills := Join(names, ", ");
    SplitRequestSkills(names);
    var pieces := Split(skills, ',');
    JoinNonEmpty(names);
    var r := FallbackQuestionTexts(jobTitle, Some(skills));
    forall k | 0 <= k < Min(3, |names|)
      ensures r[5 + k] == ExperienceQuestion(names[k])
    {
      StripPiece(names, k);
    }
  }

  /** Each comma piece of the request strips back to its name. */
  lemma StripPiece(names: seq<string>, k: nat)
    requires k < |names| && Bare(names[k])
    ensures Strip(RequestPieces(names)[k]) == names[k]
  {
    StripSpaced(names[k]);
    if k > 0 {
      assert RequestPieces(names)[k] == " " + names[k];
    }
  }

  lemma JoinNonEmpty(names: seq<string>)
    requires |names| >= 1 && names[0] != ""
    ensures Join(names, ", ") != ""
  {
    if |names| > 1 {
      assert Join(names, ", ") == names[0] + (", " + Join(names[1..], ", "));
    }
  }

  // ---------------------------------------------------------------------
  // Markdown fence removal around a model answer
  // ---------------------------------------------------------------------

  const Fence: string := "```"

  /** A line whose stripped form starts with three backticks. */
  predicate IsFence(line: string)
  {
    StartsWith(Strip(line), Fence)
  }

  /** The list comprehension keeping the lines that are not fences, in order. */
  function DropFences(lines: seq<string>): (r: seq<string>)
    ensures |r| <= |lines|
    ensures forall x :: x in r <==> x in lines && !IsFence(x)
  {
    if |lines| == 0 then []
    else (if IsFence(lines[0]) then [] else [lines[0]]) + DropFences(lines[1..])
  }

  lemma {:induction false} DropFencesAppend(a: seq<string>, b: seq<string>)
    ensures DropFences(a + b) == DropFences(a) + DropFences(b)
    decreases |a|
  {
    if |a| > 0 {
      assert (a + b)[1..] == a[1..] + b;
      DropFencesAppend(a[1..], b);
    } else {
      assert a + b == b;
    }
  }

  /** Lines with no fence pass through unchanged. */
  lemma {:induction false} DropFencesNoop(lines: seq<string>)
    requires forall i :: 0 <= i < |lines| ==> !IsFence(lines[i])
    ensures DropFences(lines) == lines
    decreases |lines|
  {
    if |lines| > 0 {
      var rest := lines[1..];
      DropFencesNoop(rest);
      DropFencesKeepsHead(lines, rest);
      assert lines == [lines[0]] + rest;
    }
  }

  lemma DropFencesKeepsHead(lines: seq<string>, rest: seq<string>)
    requires |lines| > 0 && !IsFence(lines[0]) && rest == DropFences(lines[1..])
    ensures DropFences(lines) == [lines[0]] + rest
  {
  }

  /** Dropping fences twice is dropping them once. */
  lemma DropFencesIdempotent(lines: seq<string>)
    ensures DropFences(DropFences(lines)) == DropFences(lines)
  {
    var r := DropFences(lines);
    forall i | 0 <= i < |r|
      ensures !IsFence(r[i])
    {
      assert r[i] in r;
    }
    DropFencesNoop(r);
  }

  /**
   * The clean-up applied to a model answer before it is parsed: strip it,
   * and when it then starts with a fence, drop every fence line. The kept
   * lines are exactly the non-fence lines, in order, and no fence is left; an
   * answer made only of fence lines comes out empty.
   */
  function CleanModelOutput(content: string): (r: string)
    ensures !StartsWith(Strip(content), Fence) ==> r == Strip(content)
    ensures StartsWith(Strip(content), Fence) ==>
      forall line :: line in Split(r, '\n') ==> !IsFence(line)
    ensures StartsWith(Strip(content), Fence) && DropFences(Split(Strip(content), '\n')) != [] ==>
      Split(r, '\n') == DropFences(Split(Strip(content), '\n'))
    ensures StartsWith(Strip(content), Fence) && DropFences(Split(Strip(content), '\n')) == [] ==> r == ""
  {
    var c := Strip(content);
    if StartsWith(c, Fence) then
      var kept := DropFences(Split(c, '\n'));
      JoinKeptLines(kept);
      Join(kept, "\n")
    else c
  }

  /** Joining non-fence lines and splitting again yields only non-fence lines, the same ones when there are any. */
  lemma JoinKeptLines(kept: seq<string>)
    requires forall x :: x in kept ==> !IsFence(x) && '\n' !in x
    ensures forall line :: line in Split(Join(kept, "\n"), '\n') ==> !IsFence(line)
    ensures kept != [] ==> Split(Join(kept, "\n"), '\n') == kept
  {
    if kept == [] {
      assert Split("", '\n') == [""];
      assert Strip("") == "";
    } else {
      forall i | 0 <= i < |kept|
        ensures '\n' !in kept[i]
      {
        assert kept[i] in kept;
      }
      SplitJoin(kept, '\n');
    }
  }

  const FencedExample: string := "```json\n[1]\n```"

  lemma StripBare(s: string)
    requires |s| > 0 && s[0] !in Whitespace && s[|s| - 1] !in Whitespace
    ensures Strip(s) == s
  {
    StripSetNoop(s, Whitespace);
  }

  lemma FencedExampleStartsWithFence()
    ensures StartsWith(FencedExample, Fence)
  {
    assert FencedExample[..3] == Fence;
  }

  lemma FencedExampleJoin()
    ensures Join(["```json", "[1]", "```"], "\n") == FencedExample
  {
  }

  lemma FencedExampleLines()
    ensures Split(FencedExample, '\n') == ["```json", "[1]", "```"]
  {
    FencedExampleJoin();
    SplitJoin(["```json", "[1]", "```"], '\n');
  }

  lemma OpeningFencePrefix()
    ensures StartsWith("```json", Fence)
  {
    assert "```json"[..3] == Fence;
  }

  lemma OpeningFence()
    ensures IsFence("```json")
  {
    StripBare("```json");
    OpeningFencePrefix();
  }

  lemma ClosingFence()
    ensures IsFence("```")
  {
    StripBare("```");
  }

  lemma DropFencesOne(x: string)
    ensures DropFences([x]) == if IsFence(x) then [] else [x]
  {
    assert [x][1..] == [];
  }

  /** A line without surrounding white space that does not begin with a backtick is no fence. */
  lemma PlainLineNotFence(x: string)
    requires |x| > 0 && x[0] !in Whitespace && x[|x| - 1] !in Whitespace && x[0] != '`'
    ensures !IsFence(x)
  {
    StripBare(x);
    if |Fence| <= |x| {
      assert x[..|Fence|][0] != Fence[0];
    }
  }

  /** Between two fence lines, only the middle line is kept. */
  lemma DropFencesAround(a: string, b: string, c: string)
    requires IsFence(a) && !IsFence(b) && IsFence(c)
    ensures DropFences([a, b, c]) == [b]
  {
    DropFencesOne(a);
    DropFencesOne(b);
    DropFencesOne(c);
    assert [a, b, c] == [a] + ([b] + [c]);
    DropFencesAppend([b], [c]);
    DropFencesAppend([a], [b] + [c]);
  }

  lemma FencedExampleKept()
    ensures DropFences(["```json", "[1]", "```"]) == ["[1]"]
  {
    OpeningFence();
    ClosingFence();
    PayloadNotFence();
    DropFencesAround("```json", "[1]", "```");
  }

  lemma PayloadNotFence()
    ensures !IsFence("[1]")
  {
    PlainLineNotFence("[1]");
  }

  /** A fenced answer on three lines comes out as its middle line. */
  lemma CleanModelOutputExample()
    ensures CleanModelOutput(FencedExample) == "[1]"
  {
    StripBare(FencedExample);
    FencedExampleStartsWithFence();
    FencedExampleLines();
    FencedExampleKept();
  }

  // ---------------------------------------------------------------------
  // list_jobs
  // ---------------------------------------------------------------------

  /** The JSON values a `job_id` can hold in the job files. */
  datatype JobIdValue = Num(n: int) | Text(s: string) | Flag(b: bool)

  /** Python truthiness of a `job_id`; a missing or null id is falsy. */
  predicate TruthyId(id: Option<JobIdValue>)
  {
    match id
    case None => false
    case Some(Num(n)) => n != 0
    case Some(Text(s)) => s != ""
    case Some(Flag(b)) => b
  }

  /** One job file as read: the three fields it may or may not carry. */
  datatype JobFile = JobFile(jobId: Option<JobIdValue>, jobTitle: Option<string>, location: Option<string>)

  /** One entry of the job list. */
  datatype Job = Job(jobId: JobIdValue, jobTitle: string, location: string)

  function Entry(f: JobFile): (r: Job)
    requires TruthyId(f.jobId)
    ensures r.jobId == f.jobId.value
    ensures r.jobTitle == f.jobTitle.GetOr("Unknown") && r.location == f.location.GetOr("")
  {
    Job(f.jobId.value, f.jobTitle.GetOr("Unknown"), f.location.GetOr(""))
  }

  /**
   * The loop over the job files, in the order they were found; `None`
   * stands for a file that could not be read or parsed, which is skipped.
   */
  function Listed(files: seq<Option<JobFile>>): (r: seq<Job>)
    ensures |r| <= |files|
  {
    if |files| == 0 then []
    else
      var init := Listed(files[..|files| - 1]);
      var last := files[|files| - 1];
      if last.Some? && TruthyId(last.value.jobId) then init + [Entry(last.value)] else init
  }

  /** A job is listed exactly when some readable file with a truthy id produced it. */
  lemma {:induction false} ListedMembers(files: seq<Option<JobFile>>, j: Job)
    ensures j in Listed(files) <==>
      exists i :: 0 <= i < |files| && files[i].Some? && TruthyId(files[i].value.jobId) && Entry(files[i].value) == j
    decreases |files|
  {
    if |files| > 0 {
      var init := files[..|files| - 1];
      ListedMembers(init, j);
      if j in Listed(files) && j !in Listed(init) {
        assert Entry(files[|files| - 1].value) == j;
      }
      if exists i :: 0 <= i < |files| && files[i].Some? && TruthyId(files[i].value.jobId) && Entry(files[i].value) == j {
        var i :| 0 <= i < |files| && files[i].Some? && TruthyId(files[i].value.jobId) && Entry(files[i].value) == j;
        if i < |init| {
          assert init[i] == files[i];
        }
      }
    }
  }

  /** Python's `<` on strings: lexicographic by code point, a proper prefix first. */
  predicate Below(a: string, b: string)
    decreases |a|
  {
    if |b| == 0 then false
    else if |a| == 0 then true
    else if a[0] != b[0] then a[0] < b[0]
    else Below(a[1..], b[1..])
  }

  lemma {:induction false} BelowIrreflexive(a: string)
    ensures !Below(a, a)
    decreases |a|
  {
    if |a| > 0 {
      BelowIrreflexive(a[1..]);
    }
  }

  lemma {:induction false} BelowTransitive(a: string, b: string, c: string)
    requires Below(a, b) && Below(b, c)
    ensures Below(a, c)
    decreases |a|
  {
    if |a| > 0 && a[0] == b[0] && b[0] == c[0] {
      BelowTransitive(a[1..], b[1..], c[1..]);
    }
  }

  lemma {:induction false} BelowTotal(a: string, b: string)
    ensures a == b || Below(a, b) || Below(b, a)
    decreases |a|
  {
    if |a| > 0 && |b| > 0 && a[0] == b[0] {
      BelowTotal(a[1..], b[1..]);
      if a[1..] == b[1..] {
        assert a == [a[0]] + a[1..] && b == [b[0]] + b[1..];
      }
    }
  }

  /** Ordered by title, ties in any order. */
  predicate SortedByTitle(s: seq<Job>)
  {
    forall i, j :: 0 <= i < j < |s| ==> !Below(s[j].jobTitle, s[i].jobTitle)
  }

  /** Places `x` after every job whose title is not above its own. */
  function Insert(x: Job, s: seq<Job>): (r: seq<Job>)
    ensures multiset(r) == multiset(s) + multiset{x}
  {
    if |s| == 0 then [x]
    else if Below(x.jobTitle, s[0].jobTitle) then [x] + s
    else
      assert s == [s[0]] + s[1..];
      [s[0]] + Insert(x, s[1..])
  }

  /** The stable sort `jobs.sort(key=lambda x: x['job_title'])`, as insertion in list order. */
  function SortByTitle(s: seq<Job>): (r: seq<Job>)
    ensures multiset(r) == multiset(s)
  {
    if |s| == 0 then []
    else
      assert s == s[..|s| - 1] + [s[|s| - 1]];
      Insert(s[|s| - 1], SortByTitle(s[..|s| - 1]))
  }

  lemma SortedTail(s: seq<Job>)
    requires |s| > 0 && SortedByTitle(s)
    ensures SortedByTitle(s[1..])
  {
    forall i, j | 0 <= i < j < |s[1..]|
      ensures !Below(s[1..][j].jobTitle, s[1..][i].jobTitle)
    {
      assert s[1..][j] == s[j + 1] && s[1..][i] == s[i + 1];
    }
  }

  /** Every job of a sorted list sits at or above its head. */
  lemma SortedHead(s: seq<Job>, y: Job)
    requires |s| > 0 && SortedByTitle(s) && y in s
    ensures !Below(y.jobTitle, s[0].jobTitle)
  {
    var j :| 0 <= j < |s| && s[j] == y;
    if j == 0 {
      BelowIrreflexive(y.jobTitle);
    }
  }

  lemma SortedCons(h: Job, t: seq<Job>)
    requires SortedByTitle(t)
    requires forall y :: y in t ==> !Below(y.jobTitle, h.jobTitle)
    ensures SortedByTitle([h] + t)
  {
    var s := [h] + t;
    forall i, j | 0 <= i < j < |s|
      ensures !Below(s[j].jobTitle, s[i].jobTitle)
    {
      assert s[j] == t[j - 1];
      if i > 0 {
        assert s[i] == t[i - 1];
      }
    }
  }

  lemma {:induction false} InsertSorted(x: Job, s: seq<Job>)
    requires SortedByTitle(s)
    ensures SortedByTitle(Insert(x, s))
    decreases |s|
  {
    if |s| > 0 {
      if Below(x.jobTitle, s[0].jobTitle) {
        forall y | y in s
          ensures !Below(y.jobTitle, x.jobTitle)
        {
          SortedHead(s, y);
          if Below(y.jobTitle, x.jobTitle) {
            BelowTransitive(y.jobTitle, x.jobTitle, s[0].jobTitle);
          }
        }
        SortedCons(x, s);
      } else {
        SortedTail(s);
        InsertSorted(x, s[1..]);
        var t := Insert(x, s[1..]);
        forall y | y in t
          ensures !Below(y.jobTitle, s[0].jobTitle)
        {
          assert y in multiset(t);
          if y != x {
            assert y in s[1..];
            SortedHead(s, y);
          }
        }
        SortedCons(s[0], t);
      }
    }
  }

  lemma {:induction false} SortByTitleSorted(s: seq<Job>)
    ensures SortedByTitle(SortByTitle(s))
    decreases |s|
  {
    if |s| > 0 {
      SortByTitleSorted(s[..|s| - 1]);
      InsertSorted(s[|s| - 1], SortByTitle(s[..|s| - 1]));
    }
  }

  /** `x` alone when it carries title `t`. */
  function Own(x: Job, t: string): seq<Job>
  {
    if x.jobTitle == t then [x] else []
  }

  /** The jobs carrying title `t`, in list order. */
  function WithTitle(s: seq<Job>, t: string): (r: seq<Job>)
    ensures forall y :: y in r <==> y in s && y.jobTitle == t
  {
    if |s| == 0 then []
    else Own(s[0], t) + WithTitle(s[1..], t)
  }

  lemma {:induction false} WithTitleNone(s: seq<Job>, t: string)
    requires forall y :: y in s ==> y.jobTitle != t
    ensures WithTitle(s, t) == []
    decreases |s|
  {
    if |s| > 0 {
      assert s[0] in s;
      WithTitleNone(s[1..], t);
    }
  }

  lemma {:induction false} WithTitleAppend(a: seq<Job>, b: seq<Job>, t: string)
    ensures WithTitle(a + b, t) == WithTitle(a, t) + WithTitle(b, t)
    decreases |a|
  {
    if |a| > 0 {
      assert (a + b)[1..] == a[1..] + b;
      WithTitleAppend(a[1..], b, t);
    } else {
      assert a + b == b;
    }
  }

  lemma WithTitleLast(s: seq<Job>, t: string)
    requires |s| > 0
    ensures WithTitle(s, t) ==
      WithTitle(s[..|s| - 1], t) + Own(s[|s| - 1], t)
  {
    assert s == s[..|s| - 1] + [s[|s| - 1]];
    WithTitleAppend(s[..|s| - 1], [s[|s| - 1]], t);
    assert [s[|s| - 1]][1..] == [];
  }

  lemma WithTitleCons(h: Job, s: seq<Job>, t: string)
    ensures WithTitle([h] + s, t) == Own(h, t) + WithTitle(s, t)
  {
    assert ([h] + s)[1..] == s;
  }

  /** Inserting `x` appends it behind the jobs with the same title already there. */
  lemma {:induction false} InsertStable(x: Job, s: seq<Job>, t: string)
    requires SortedByTitle(s)
    ensures WithTitle(Insert(x, s), t) == WithTitle(s, t) + Own(x, t)
    decreases |s|
  {
    if |s| > 0 {
      if Below(x.jobTitle, s[0].jobTitle) {
        InsertStableFront(x, s, t);
      } else {
        SortedTail(s);
        InsertStable(x, s[1..], t);
        InsertStableStep(x, s, t);
      }
    }
  }

  lemma InsertStableFront(x: Job, s: seq<Job>, t: string)
    requires |s| > 0 && SortedByTitle(s) && Below(x.jobTitle, s[0].jobTitle)
    ensures WithTitle(Insert(x, s), t) == WithTitle(s, t) + Own(x, t)
  {
    WithTitleCons(x, s, t);
    if x.jobTitle == t {
      forall y | y in s
        ensures y.jobTitle != t
      {
        SortedHead(s, y);
      }
      WithTitleNone(s, t);
    }
  }

  lemma InsertStableStep(x: Job, s: seq<Job>, t: string)
    requires |s| > 0 && !Below(x.jobTitle, s[0].jobTitle)
    requires WithTitle(Insert(x, s[1..]), t) == WithTitle(s[1..], t) + Own(x, t)
    ensures WithTitle(Insert(x, s), t) == WithTitle(s, t) + Own(x, t)
  {
    InsertPassesHead(x, s);
    assert s == [s[0]] + s[1..];
    KeepsBehind(s[0], Insert(x, s[1..]), s[1..], x, t);
  }

  lemma InsertPassesHead(x: Job, s: seq<Job>)
    requires |s| > 0 && !Below(x.jobTitle, s[0].jobTitle)
    ensures Insert(x, s) == [s[0]] + Insert(x, s[1..])
  {
  }

  /** Putting the same job in front of both sides keeps `x` behind the jobs titled `t`. */
  lemma KeepsBehind(h: Job, ins: seq<Job>, rest: seq<Job>, x: Job, t: string)
    requires WithTitle(ins, t) == WithTitle(rest, t) + Own(x, t)
    ensures WithTitle([h] + ins, t) == WithTitle([h] + rest, t) + Own(x, t)
  {
    WithTitleCons(h, ins, t);
    WithTitleCons(h, rest, t);
    AppendAssoc(Own(h, t), WithTitle(rest, t), Own(x, t));
  }

  lemma AppendAssoc<T>(a: seq<T>, b: seq<T>, c: seq<T>)
    ensures a + (b + c) == a + b + c
  {
  }

  /** The sort is stable: jobs with equal titles keep their relative order. */
  lemma {:induction false} SortByTitleStable(s: seq<Job>, t: string)
    ensures WithTitle(SortByTitle(s), t) == WithTitle(s, t)
    decreases |s|
  {
    if |s| > 0 {
      var init := s[..|s| - 1];
      var last := s[|s| - 1];
      SortByTitleStable(init, t);
      SortByTitleSorted(init);
      InsertStable(last, SortByTitle(init), t);
      WithTitleLast(s, t);
    }
  }

  /** `list_jobs`: the readable files with a truthy id, as entries sorted by title. */
  function ListJobs(files: seq<Option<JobFile>>): (r: seq<Job>)
    ensures multiset(r) == multiset(Listed(files))
  {
    SortByTitle(Listed(files))
  }

  /**
   * The job list holds exactly the entries of readable files with a truthy
   * id, ordered by title, and files sharing a title keep the order in which
   * they were found.
   */
  lemma ListJobsSpec(files: seq<Option<JobFile>>, j: Job, t: string)
    ensures SortedByTitle(ListJobs(files))
    ensures j in ListJobs(files) <==>
      exists i :: 0 <= i < |files| && files[i].Some? && TruthyId(files[i].value.jobId) && Entry(files[i].value) == j
    ensures WithTitle(ListJobs(files), t) == WithTitle(Listed(files), t)
  {
    SortByTitleSorted(Listed(files));
    SortByTitleStable(Listed(files), t);
    ListedMembers(files, j);
    assert j in ListJobs(files) <==> j in multiset(ListJobs(files));
  }
}

=== FILE: matching.dfy ===
/**
 * `find_skill_similarities_simple`, the backend's fallback skill matcher:
 * each candidate skill is paired with a job skill whose lower-cased form
 * equals, contains or is contained in its own, or else listed as
 * candidate-only; job skills no match points at are job-only.
 *
 * The code pairs a candidate skill with the FIRST related job skill in
 * list order, even when an equal one comes later; `exactFirst` selects
 * the corrected rule that prefers an equal job skill.
 */
module Matching {
  import opened Wrappers
  import opened Text
  import opened SkillNode
  import opened Overlay

  /** The dictionary the matcher returns. */
  datatype Similarities = Similarities(matches: seq<Match>, candidateOnly: seq<string>, jobOnly: seq<string>)

  /** `c == j or c in j or j in c` on lower-cased forms. */
  predicate Related(c: string, j: string)
  {
    c == j || Contains(j, c) || Contains(c, j)
  }

  /** Some job skill is related to the lower-cased candidate skill `lc`. */
  predicate HasRelated(jobs: seq<string>, lc: string)
  {
    exists k :: 0 <= k < |jobs| && Related(lc, Lower(jobs[k]))
  }

  /** Some job skill lower-cases to exactly `lc`. */
  predicate HasEqual(jobs: seq<string>, lc: string)
  {
    exists k :: 0 <= k < |jobs| && Lower(jobs[k]) == lc
  }

  /** The inner loop with its `break`: the first related job skill. */
  function FirstRelated(jobs: seq<string>, lc: string): (r: Option<nat>)
    ensures r.Some? ==> r.value < |jobs| && Related(lc, Lower(jobs[r.value]))
    ensures r.Some? ==> forall k :: 0 <= k < r.value ==> !Related(lc, Lower(jobs[k]))
    ensures r.None? <==> !HasRelated(jobs, lc)
  {
    if |jobs| == 0 then None
    else if Related(lc, Lower(jobs[0])) then Some(0)
    else match FirstRelated(jobs[1..], lc)
      case None =>
        assert forall k :: 1 <= k < |jobs| ==> jobs[k] == jobs[1..][k - 1];
        None
      case Some(k) => Some(k + 1)
  }

  /** The first job skill that lower-cases to `lc`. */
  function FirstEqual(jobs: seq<string>, lc: string): (r: Option<nat>)
    ensures r.Some? ==> r.value < |jobs| && Lower(jobs[r.value]) == lc
    ensures r.None? <==> !HasEqual(jobs, lc)
  {
    if |jobs| == 0 then None
    else if Lower(jobs[0]) == lc then Some(0)
    else match FirstEqual(jobs[1..], lc)
      case None =>
        assert forall k :: 1 <= k < |jobs| ==> jobs[k] == jobs[1..][k - 1];
        None
      case Some(k) => Some(k + 1)
  }

  /** The index of the job skill paired with `lc`: as written, or preferring an equal one. */
  function Partner(jobs: seq<string>, lc: string, exactFirst: bool): (r: Option<nat>)
    ensures r.Some? ==> r.value < |jobs| && Related(lc, Lower(jobs[r.value]))
    ensures r.None? <==> !HasRelated(jobs, lc)
    ensures !exactFirst ==> r == FirstRelated(jobs, lc)
    ensures exactFirst && HasEqual(jobs, lc) ==> r.Some? && Lower(jobs[r.value]) == lc
  {
    if exactFirst && FirstEqual(jobs, lc).Some? then FirstEqual(jobs, lc) else FirstRelated(jobs, lc)
  }

  /** The match entry for one candidate skill, if any job skill is related. */
  function MatchOf(jobs: seq<string>, c: string, exactFirst: bool): (r: Option<Match>)
    ensures r.None? <==> !HasRelated(jobs, Lower(c))
    ensures r.Some? ==>
      && r.value.candidateSkill == c && r.value.jobSkill in jobs
      && Related(Lower(c), Lower(r.value.jobSkill))
      && (r.value.similarity == "exact" <==> Lower(c) == Lower(r.value.jobSkill))
      && (r.value.similarity == "exact" || r.value.similarity == "related")
  {
    match Partner(jobs, Lower(c), exactFirst)
    case None => None
    case Some(k) => Some(Match(jobs[k], c, if Lower(c) == Lower(jobs[k]) then "exact" else "related"))
  }

  /** The candidate skills, in order, that do (`matched`) or do not find a related job skill. */
  function Sublist(jobs: seq<string>, cands: seq<string>, matched: bool): (r: seq<string>)
    ensures forall c :: c in r <==> c in cands && HasRelated(jobs, Lower(c)) == matched
    ensures |r| <= |cands|
  {
    if |cands| == 0 then []
    else
      var init := cands[..|cands| - 1];
      var c := cands[|cands| - 1];
      assert cands == init + [c];
      Sublist(jobs, init, matched) + (if HasRelated(jobs, Lower(c)) == matched then [c] else [])
  }

  function CandidatesOf(ms: seq<Match>): (r: seq<string>)
    ensures |r| == |ms|
  {
    seq(|ms|, i requires 0 <= i < |ms| => ms[i].candidateSkill)
  }

  lemma CandidatesOfSnoc(ms: seq<Match>, m: Match)
    ensures CandidatesOf(ms + [m]) == CandidatesOf(ms) + [m.candidateSkill]
  {
    assert forall i :: 0 <= i < |ms| ==> (ms + [m])[i] == ms[i];
  }

  /**
   * The outer loop over candidate skills: the matches and the
   * candidate-only list, both in candidate order.
   */
  function Partition(jobs: seq<string>, cands: seq<string>, exactFirst: bool): (r: (seq<Match>, seq<string>))
    ensures CandidatesOf(r.0) == Sublist(jobs, cands, true)
    ensures r.1 == Sublist(jobs, cands, false)
  {
    if |cands| == 0 then ([], [])
    else
      var init := cands[..|cands| - 1];
      var c := cands[|cands| - 1];
      var p := Partition(jobs, init, exactFirst);
      match MatchOf(jobs, c, exactFirst)
      case Some(m) =>
        CandidatesOfSnoc(p.0, m);
        (p.0 + [m], p.1)
      case None => (p.0, p.1 + [c])
  }

  /** Each match entry is the one its candidate skill calls for. */
  lemma {:induction false} PartitionEntries(jobs: seq<string>, cands: seq<string>, exactFirst: bool, i: nat)
    requires i < |Partition(jobs, cands, exactFirst).0|
    ensures MatchOf(jobs, Partition(jobs, cands, exactFirst).0[i].candidateSkill, exactFirst)
            == Some(Partition(jobs, cands, exactFirst).0[i])
  {
    var init := cands[..|cands| - 1];
    var c := cands[|cands| - 1];
    var p := Partition(jobs, init, exactFirst);
    var ms := Partition(jobs, cands, exactFirst).0;
    match MatchOf(jobs, c, exactFirst)
    case Some(m) =>
      assert ms == p.0 + [m];
      if i < |p.0| {
        PartitionEntries(jobs, init, exactFirst, i);
      }
    case None =>
      assert ms == p.0;
      PartitionEntries(jobs, init, exactFirst, i);
  }

  /** A candidate skill with a related job skill has its match entry among the matches. */
  lemma PartitionHas(jobs: seq<string>, cands: seq<string>, exactFirst: bool, c: string)
    requires c in cands && HasRelated(jobs, Lower(c))
    ensures exists i :: (0 <= i < |Partition(jobs, cands, exactFirst).0| &&
      Some(Partition(jobs, cands, exactFirst).0[i]) == MatchOf(jobs, c, exactFirst))
  {
    var ms := Partition(jobs, cands, exactFirst).0;
    assert c in CandidatesOf(ms);
    var i :| 0 <= i < |ms| && CandidatesOf(ms)[i] == c;
    PartitionEntries(jobs, cands, exactFirst, i);
  }

  /** Every candidate skill lands in exactly one of the two lists. */
  lemma {:induction false} PartitionCounts(jobs: seq<string>, cands: seq<string>)
    ensures |Sublist(jobs, cands, true)| + |Sublist(jobs, cands, false)| == |cands|
  {
    if |cands| > 0 {
      PartitionCounts(jobs, cands[..|cands| - 1]);
    }
  }

  /** A job skill that no match points at, compared in lower case. */
  predicate Unmatched(ms: seq<Match>, j: string)
  {
    forall i :: 0 <= i < |ms| ==> Lower(ms[i].jobSkill) != Lower(j)
  }

  /** The job-only loop: job skills in order, without those some match names. */
  function JobOnly(jobs: seq<string>, ms: seq<Match>): (r: seq<string>)
    ensures forall j :: j in r <==> j in jobs && Unmatched(ms, j)
    ensures |r| <= |jobs|
  {
    if |jobs| == 0 then []
    else
      var init := jobs[..|jobs| - 1];
      var j := jobs[|jobs| - 1];
      assert jobs == init + [j];
      JobOnly(init, ms) + (if Unmatched(ms, j) then [j] else [])
  }

  function Similar(jobs: seq<string>, cands: seq<string>, exactFirst: bool): Similarities
  {
    var p := Partition(jobs, cands, exactFirst);
    Similarities(p.0, p.1, JobOnly(jobs, p.0))
  }

  /** The first index satisfying the loop's test is what `FirstRelated` returns. */
  lemma {:induction false} FirstRelatedAt(jobs: seq<string>, lc: string, k: nat)
    requires k < |jobs| && Related(lc, Lower(jobs[k]))
    requires forall x :: 0 <= x < k ==> !Related(lc, Lower(jobs[x]))
    ensures FirstRelated(jobs, lc) == Some(k)
  {
    if k > 0 {
      assert forall x :: 0 <= x < k - 1 ==> jobs[1..][x] == jobs[x + 1];
      FirstRelatedAt(jobs[1..], lc, k - 1);
    }
  }

  /** The inner loop over job skills, ending at the first related one. */
  method FindPartner(jobs: seq<string>, lc: string) returns (found: Option<nat>)
    ensures found == FirstRelated(jobs, lc)
  {
    var k := 0;
    while k < |jobs|
      invariant 0 <= k <= |jobs|
      invariant forall x :: 0 <= x < k ==> !Related(lc, Lower(jobs[x]))
    {
      var lj := Lower(jobs[k]);
      if lc == lj || Contains(lj, lc) || Contains(lc, lj) {
        FirstRelatedAt(jobs, lc, k);
        return Some(k);
      }
      k := k + 1;
    }
    return None;
  }

  /** One more candidate skill extends the partition by its own entry, built from its first related job skill. */
  lemma PartitionStep(jobs: seq<string>, cands: seq<string>, n: nat, found: Option<nat>)
    requires n < |cands| && found == FirstRelated(jobs, Lower(cands[n]))
    ensures found.Some? ==> found.value < |jobs|
    ensures var p := Partition(jobs, cands[..n], false);
      Partition(jobs, cands[..n + 1], false)
      == if found.Some? then
           (p.0 + [Match(jobs[found.value], cands[n], if Lower(cands[n]) == Lower(jobs[found.value]) then "exact" else "related")], p.1)
         else (p.0, p.1 + [cands[n]])
  {
    assert cands[..n + 1][..n] == cands[..n];
    assert Partner(jobs, Lower(cands[n]), false) == found;
  }

  /** The outer loop over candidate skills. */
  method MatchCandidates(jobs: seq<string>, cands: seq<string>) returns (matches: seq<Match>, candidateOnly: seq<string>)
    ensures (matches, candidateOnly) == Partition(jobs, cands, false)
  {
    matches, candidateOnly := [], [];
    var n := 0;
    while n < |cands|
      invariant 0 <= n <= |cands|
      invariant (matches, candidateOnly) == Partition(jobs, cands[..n], false)
    {
      var c := cands[n];
      var lc := Lower(c);
      var found := FindPartner(jobs, lc);
      PartitionStep(jobs, cands, n, found);
      if found.Some? {
        var lj := Lower(jobs[found.value]);
        matches := matches + [Match(jobs[found.value], c, if lc == lj then "exact" else "related")];
      } else {
        candidateOnly := candidateOnly + [c];
      }
      n := n + 1;
    }
    assert cands[..n] == cands;
  }

  /** The inner loop of the job-only pass: does some match name `j`, in lower case? */
  method NamedByMatch(matches: seq<Match>, j: string) returns (hit: bool)
    ensures hit <==> !Unmatched(matches, j)
  {
    var lj := Lower(j);
    hit := false;
    var i := 0;
    while i < |matches| && !hit
      invariant 0 <= i <= |matches|
      invariant hit <==> exists x :: 0 <= x < i && Lower(matches[x].jobSkill) == lj
    {
      if lj == Lower(matches[i].jobSkill) {
        hit := true;
      }
      i := i + 1;
    }
  }

  lemma JobOnlyStep(jobs: seq<string>, ms: seq<Match>, m: nat)
    requires m < |jobs|
    ensures JobOnly(jobs[..m + 1], ms) == JobOnly(jobs[..m], ms) + (if Unmatched(ms, jobs[m]) then [jobs[m]] else [])
  {
    assert jobs[..m + 1][..m] == jobs[..m];
  }

  /** The loop collecting job skills that no match names. */
  method CollectJobOnly(jobs: seq<string>, matches: seq<Match>) returns (jobOnly: seq<string>)
    ensures jobOnly == JobOnly(jobs, matches)
  {
    jobOnly := [];
    var m := 0;
    while m < |jobs|
      invariant 0 <= m <= |jobs|
      invariant jobOnly == JobOnly(jobs[..m], matches)
    {
      var hit := NamedByMatch(matches, jobs[m]);
      JobOnlyStep(jobs, matches, m);
      if !hit {
        jobOnly := jobOnly + [jobs[m]];
      }
      m := m + 1;
    }
    assert jobs[..m] == jobs;
  }

  /**
   * `find_skill_similarities_simple` as written: every candidate skill is
   * either matched or candidate-only, and each match is labelled exact
   * exactly when the two names agree in lower case.
   */
  method FindSimilaritiesSimple(jobs: seq<string>, cands: seq<string>) returns (r: Similarities)
    ensures r == Similar(jobs, cands, false)
    ensures |r.matches| + |r.candidateOnly| == |cands|
    ensures forall i :: 0 <= i < |r.matches| ==>
      r.matches[i].candidateSkill in cands && r.matches[i].jobSkill in jobs
      && (r.matches[i].similarity == "exact" <==> Lower(r.matches[i].candidateSkill) == Lower(r.matches[i].jobSkill))
  {
    var matches, candidateOnly := MatchCandidates(jobs, cands);
    var jobOnly := CollectJobOnly(jobs, matches);
    r := Similarities(matches, candidateOnly, jobOnly);
    PartitionCounts(jobs, cands);
    forall i | 0 <= i < |r.matches|
      ensures r.matches[i].candidateSkill in cands && r.matches[i].jobSkill in jobs
      ensures r.matches[i].similarity == "exact" <==> Lower(r.matches[i].candidateSkill) == Lower(r.matches[i].jobSkill)
    {
      assert CandidatesOf(r.matches)[i] in Sublist(jobs, cands, true);
      PartitionEntries(jobs, cands, false, i);
    }
  }

  /**
   * The rule as written hides an equal job skill behind an earlier related
   * one: "JavaScript" is paired with "Java", and the job's own
   * "JavaScript" is reported as missing from the candidate.
   */
  lemma ExactMatchHidden()
    ensures var r := Similar(["Java", "JavaScript"], ["JavaScript"], false);
      && r.matches == [Match("Java", "JavaScript", "related")]
      && r.jobOnly == ["JavaScript"]
  {
    var jobs := ["Java", "JavaScript"];
    HiddenPartition();
    var p := Partition(jobs, ["JavaScript"], false);
    HiddenJobOnly(p.0);
  }

  lemma JavaScriptFindsJava()
    ensures FirstRelated(["Java", "JavaScript"], "javascript") == Some(0)
  {
    assert Lower("Java") == "java";
    assert OccursAt("javascript", "java", 0);
    assert Related("javascript", Lower(["Java", "JavaScript"][0]));
  }

  lemma HiddenPartition()
    ensures Partition(["Java", "JavaScript"], ["JavaScript"], false).0 == [Match("Java", "JavaScript", "related")]
  {
    assert Lower("JavaScript") == "javascript";
    JavaScriptFindsJava();
    assert ["JavaScript"][..0] == [];
  }

  lemma HiddenJobOnly(ms: seq<Match>)
    requires ms == [Match("Java", "JavaScript", "related")]
    ensures JobOnly(["Java", "JavaScript"], ms) == ["JavaScript"]
  {
    var jobs := ["Java", "JavaScript"];
    assert Lower("JavaScript") == "javascript";
    assert Lower("Java") == "java";
    assert Lower(ms[0].jobSkill) == Lower("Java");
    assert Unmatched(ms, "JavaScript");
    assert jobs[..1] == ["Java"];
    assert ["Java"][..0] == [];
  }

  lemma EqualIsRelated(jobs: seq<string>, lc: string)
    requires HasEqual(jobs, lc)
    ensures HasRelated(jobs, lc)
  {
    var k :| 0 <= k < |jobs| && Lower(jobs[k]) == lc;
    assert Related(lc, Lower(jobs[k]));
  }

  /**
   * Under the corrected rule, a candidate skill that some job skill equals
   * has an exact match entry naming such a job skill.
   */
  lemma SharedSkillMatched(jobs: seq<string>, cands: seq<string>, c: string)
    requires c in cands && HasEqual(jobs, Lower(c))
    ensures exists i :: (0 <= i < |Partition(jobs, cands, true).0| &&
      Partition(jobs, cands, true).0[i].candidateSkill == c &&
      Lower(Partition(jobs, cands, true).0[i].jobSkill) == Lower(c))
  {
    EqualIsRelated(jobs, Lower(c));
    PartitionHas(jobs, cands, true, c);
    var ms := Partition(jobs, cands, true).0;
    var i :| 0 <= i < |ms| && Some(ms[i]) == MatchOf(jobs, c, true);
    var k := Partner(jobs, Lower(c), true).value;
    assert ms[i].jobSkill == jobs[k];
  }

  /** Under the corrected rule, a match whose candidate skill has an equal job skill is exact. */
  lemma ExactFirstLabels(jobs: seq<string>, cands: seq<string>)
    ensures var ms := Partition(jobs, cands, true).0;
      forall i :: 0 <= i < |ms| && HasEqual(jobs, Lower(ms[i].candidateSkill)) ==> ms[i].similarity == "exact"
  {
    var ms := Partition(jobs, cands, true).0;
    forall i | 0 <= i < |ms| && HasEqual(jobs, Lower(ms[i].candidateSkill))
      ensures ms[i].similarity == "exact"
    {
      PartitionEntries(jobs, cands, true, i);
      var k := Partner(jobs, Lower(ms[i].candidateSkill), true).value;
      assert ms[i].jobSkill == jobs[k];
    }
  }

  /** Under the corrected rule, no job skill the candidate lists (in any case) is job-only. */
  lemma ExactFirstJobOnly(jobs: seq<string>, cands: seq<string>)
    ensures var ms := Partition(jobs, cands, true).0;
      forall j, c :: j in JobOnly(jobs, ms) && c in cands ==> Lower(j) != Lower(c)
  {
    var ms := Partition(jobs, cands, true).0;
    forall j, c | j in JobOnly(jobs, ms) && c in cands
      ensures Lower(j) != Lower(c)
    {
      if HasEqual(jobs, Lower(c)) {
        SharedSkillMatched(jobs, cands, c);
        var i :| 0 <= i < |ms| && ms[i].candidateSkill == c && Lower(ms[i].jobSkill) == Lower(c);
        assert Lower(ms[i].jobSkill) != Lower(j);
      } else {
        var k :| 0 <= k < |jobs| && jobs[k] == j;
      }
    }
  }

  /**
   * The corrected matcher: a candidate skill that some job skill equals
   * (in lower case) is always an exact match, and no job skill the
   * candidate lists is reported as job-only.
   */
  function SimilarExactFirst(jobs: seq<string>, cands: seq<string>): (r: Similarities)
    ensures |r.matches| + |r.candidateOnly| == |cands|
    ensures forall i :: 0 <= i < |r.matches| && HasEqual(jobs, Lower(r.matches[i].candidateSkill)) ==>
      r.matches[i].similarity == "exact"
    ensures forall j, c :: j in r.jobOnly && c in cands ==> Lower(j) != Lower(c)
  {
    PartitionCounts(jobs, cands);
    ExactFirstLabels(jobs, cands);
    ExactFirstJobOnly(jobs, cands);
    Similar(jobs, cands, true)
  }

  /**
   * With similarity data computed from the job tree's own skill list, the
   * candidate-only colour never lands on a node of the job tree: any
   * candidate skill equal to a job skill is related to it.
   */
  lemma MatcherNeverCandidateOnly(prev: Viz, job: Node, cand: Node, exactFirst: bool, progress: ProgressMap, d: Node)
    requires d in Flatten(job)
    ensures var s := Similar(ExtractList(job), ExtractList(cand), exactFirst);
      var sim := Some(SimilarityData(Some(s.matches), Some(s.candidateOnly)));
      Classify(Update(prev, job, Some(cand), sim), progress, d) != CandidateOnly
  {
    if IsSkill(d) {
      var jobs := ExtractList(job);
      var co := Similar(jobs, ExtractList(cand), exactFirst).candidateOnly;
      var lname := Lower(d.name);
      SkillNodeExtracted(job, d);
      ExtractSetSpec(job);
      var k :| 0 <= k < |jobs| && jobs[k] == lname;
      LowerIdempotent(d.name);
      forall i | 0 <= i < |co|
        ensures Lower(co[i]) != lname
      {
        assert co[i] in Sublist(jobs, ExtractList(cand), false);
        assert !Related(Lower(co[i]), Lower(jobs[k]));
      }
      assert !ListsName(co, lname);
    }
  }

  /** A skill node whose name the similarity data's matches name is coloured as matched. */
  lemma ListedMatchIsMatched(prev: Viz, job: Node, cand: Node, ms: seq<Match>, co: seq<string>,
                             progress: ProgressMap, d: Node)
    requires IsSkill(d) && MatchesJobSkill(ms, Lower(d.name))
    ensures Classify(Update(prev, job, Some(cand), Some(SimilarityData(Some(ms), Some(co)))), progress, d) == Matched
  {
  }

  /** Under the corrected rule, a job skill node the candidate lists is named by some match. */
  lemma SharedJobSkillListed(job: Node, cand: Node, d: Node)
    requires d in Flatten(job) && IsSkill(d)
    requires Lower(d.name) in ExtractList(cand)
    ensures MatchesJobSkill(SimilarExactFirst(ExtractList(job), ExtractList(cand)).matches, Lower(d.name))
  {
    var jobs := ExtractList(job);
    var lname := Lower(d.name);
    SkillNodeExtracted(job, d);
    ExtractSetSpec(job);
    var k :| 0 <= k < |jobs| && jobs[k] == lname;
    LowerIdempotent(d.name);
    assert Lower(jobs[k]) == Lower(lname);
    SharedSkillMatched(jobs, ExtractList(cand), lname);
    var ms := Partition(jobs, ExtractList(cand), true).0;
    var i :| 0 <= i < |ms| && ms[i].candidateSkill == lname && Lower(ms[i].jobSkill) == Lower(lname);
    assert Lower(ms[i].jobSkill) == lname;
  }

  /**
   * With the corrected matcher, every skill node of the job tree whose
   * name the candidate lists (in any case) is coloured as matched.
   */
  lemma ExactFirstMarksSharedSkills(prev: Viz, job: Node, cand: Node, progress: ProgressMap, d: Node)
    requires d in Flatten(job) && IsSkill(d)
    requires Lower(d.name) in ExtractList(cand)
    ensures var s := SimilarExactFirst(ExtractList(job), ExtractList(cand));
      var sim := Some(SimilarityData(Some(s.matches), Some(s.candidateOnly)));
      Classify(Update(prev, job, Some(cand), sim), progress, d) == Matched
  {
    var s := SimilarExactFirst(ExtractList(job), ExtractList(cand));
    SharedJobSkillListed(job, cand, d);
    ListedMatchIsMatched(prev, job, cand, s.matches, s.candidateOnly, progress, d);
  }
}

=== FILE: overlay.dfy ===
/**
 * The overlay engine of the skill-tree visualization: the sets `update`
 * rebuilds, the fill class `drawNodes` picks for each node, the progress bar
 * drawn beside a started skill, and the zoom scale kept between renders.
 * Layout, SVG drawing and the translate part of the zoom transform are not
 * part of this model; only the scale factor `k` is.
 */
module Overlay {
  import opened Wrappers
  import opened Text
  import opened SkillNode

  /** One entry of the similarity data's `matches` array. */
  datatype Match = Match(jobSkill: string, candidateSkill: string, similarity: string)

  /**
   * Similarity data as the browser stores it. Either field may be missing;
   * an empty array is present (JavaScript treats `[]` as true).
   */
  datatype SimilarityData = SimilarityData(matches: Option<seq<Match>>, candidateOnly: Option<seq<string>>)

  /** `state.skillProgress`: skill name as written to progress. */
  type ProgressMap = map<string, int>

  /**
   * What a visualization instance keeps between renders: the tree it shows
   * (`state.skillTree` of its constructor), the two skill sets and the
   * similarity data of the last `update`, and the zoom scale `k`.
   */
  datatype Viz = Viz(tree: Node, jobSkills: set<string>, candidateSkills: set<string>,
                     similarity: Option<SimilarityData>, scale: real)

  /** The fill colours of a node circle, by meaning. */
  datatype Fill =
    | Matched        // #eab308
    | CandidateOnly  // #ef4444
    | Complete       // #16a34a
    | Partial        // #3b82f6
    | NotStarted     // #e4e4e7
    | Neutral        // #f4f4f5, every group node

  const DefaultZoom: real := 0.7
  const MinScale: real := 0.1
  const MaxScale: real := 3.0
  const ZoomInFactor: real := 1.25
  const ZoomOutFactor: real := 0.8
  /** Full width of a progress bar, in pixels. */
  const BarWidth: real := 40.0

  predicate ScaleInRange(k: real) { MinScale <= k <= MaxScale }

  /** A fresh instance: empty sets, no similarity data, and `resetZoom` applied. */
  function NewViz(tree: Node): (v: Viz)
    ensures v.tree == tree && ScaleInRange(v.scale)
  {
    Viz(tree, {}, {}, None, DefaultZoom)
  }

  /**
   * `update(tree, candidateTree, similarityData)`: both sets are rebuilt from
   * the arguments alone, the similarity data is kept verbatim, the zoom
   * scale is carried over.
   */
  function Update(v: Viz, tree: Node, candidate: Option<Node>, sim: Option<SimilarityData>): (r: Viz)
    ensures r.tree == tree && r.similarity == sim && r.scale == v.scale
    ensures forall x :: x in r.jobSkills <==> exists d :: d in Flatten(tree) && IsSkill(d) && Lower(d.name) == x
    ensures candidate.None? ==> r.candidateSkills == {}
    ensures candidate.Some? ==> forall x :: x in r.candidateSkills <==>
      exists d :: d in Flatten(candidate.value) && IsSkill(d) && Lower(d.name) == x
  {
    ExtractSetAllMembers(tree);
    if candidate.Some? then ExtractSetAllMembers(candidate.value); Viz(tree, ExtractSet(tree), ExtractSet(candidate.value), sim, v.scale)
    else Viz(tree, ExtractSet(tree), {}, sim, v.scale)
  }

  /** `this.state.skillProgress.get(name) || 0`. */
  function ProgressOf(progress: ProgressMap, name: string): int
  {
    if name in progress then progress[name] else 0
  }

  predicate HasMatches(sim: Option<SimilarityData>)
  {
    sim.Some? && sim.value.matches.Some?
  }

  predicate HasCandidateOnly(sim: Option<SimilarityData>)
  {
    sim.Some? && sim.value.candidateOnly.Some?
  }

  /** Some entry of `matches` has a `job_skill` that lower-cases to `lname`. */
  predicate MatchesJobSkill(ms: seq<Match>, lname: string)
  {
    exists i :: 0 <= i < |ms| && Lower(ms[i].jobSkill) == lname
  }

  /** Some name of `names` lower-cases to `lname`. */
  predicate ListsName(names: seq<string>, lname: string)
  {
    exists i :: 0 <= i < |names| && Lower(names[i]) == lname
  }

  /** The match class: similarity data when it has `matches`, otherwise both sets. */
  predicate IsMatched(v: Viz, lname: string)
  {
    if HasMatches(v.similarity) then MatchesJobSkill(v.similarity.value.matches.value, lname)
    else lname in v.candidateSkills && lname in v.jobSkills
  }

  /** The candidate-only class: `candidate_only` when present, otherwise candidate minus job set. */
  predicate IsCandidateOnly(v: Viz, lname: string)
  {
    if HasCandidateOnly(v.similarity) then ListsName(v.similarity.value.candidateOnly.value, lname)
    else lname in v.candidateSkills && lname !in v.jobSkills
  }

  /** The progress classes: exactly 100, positive, or zero/negative/missing. */
  function ProgressFill(p: int): (r: Fill)
    ensures r == Complete <==> p == 100
    ensures r == Partial <==> 0 < p && p != 100
    ensures r == NotStarted <==> p <= 0
  {
    if p == 100 then Complete else if p > 0 then Partial else NotStarted
  }

  /** The `fill` style of `drawNodes`, with its precedence matched > candidate-only > progress. */
  function Classify(v: Viz, progress: ProgressMap, d: Node): (r: Fill)
    ensures r == Neutral <==> !IsSkill(d)
    ensures r == Matched <==> IsSkill(d) && IsMatched(v, Lower(d.name))
    ensures r == CandidateOnly <==> IsSkill(d) && !IsMatched(v, Lower(d.name)) && IsCandidateOnly(v, Lower(d.name))
    ensures r in {Complete, Partial, NotStarted} <==>
      IsSkill(d) && !IsMatched(v, Lower(d.name)) && !IsCandidateOnly(v, Lower(d.name))
  {
    if !IsSkill(d) then Neutral
    else
      var lname := Lower(d.name);
      if HasMatches(v.similarity) && MatchesJobSkill(v.similarity.value.matches.value, lname) then Matched
      else if !HasMatches(v.similarity) && lname in v.candidateSkills && lname in v.jobSkills then Matched
      else if HasCandidateOnly(v.similarity) && ListsName(v.similarity.value.candidateOnly.value, lname) then CandidateOnly
      else if !HasCandidateOnly(v.similarity) && lname in v.candidateSkills && lname !in v.jobSkills then CandidateOnly
      else ProgressFill(ProgressOf(progress, d.name))
  }

  /**
   * The fill of every node of the shown tree, one per node. The sequence
   * follows the model's own pre-order enumeration (`Flatten`); d3's
   * `descendants()` lists the same nodes breadth-first, and since each
   * node's fill depends on that node alone the order carries no meaning.
   */
  function Render(v: Viz, progress: ProgressMap): (r: seq<Fill>)
    ensures |r| == |Flatten(v.tree)|
    ensures forall i :: 0 <= i < |r| ==> r[i] == Classify(v, progress, Flatten(v.tree)[i])
  {
    var nodes := Flatten(v.tree);
    seq(|nodes|, i requires 0 <= i < |nodes| => Classify(v, progress, nodes[i]))
  }

  /**
   * When the similarity data carries both fields, the two skill sets play no
   * part: two instances that differ only in their sets classify alike, even
   * where naive set intersection would disagree.
   */
  lemma SimilarityOverridesSets(v: Viz, w: Viz, progress: ProgressMap, d: Node)
    requires v.similarity == w.similarity
    requires HasMatches(v.similarity) && HasCandidateOnly(v.similarity)
    ensures Classify(v, progress, d) == Classify(w, progress, d)
  {
  }

  /** A `matches` entry for the node wins over candidate-only data and over progress. */
  lemma SimilarityMatchWins(v: Viz, progress: ProgressMap, d: Node)
    requires IsSkill(d) && HasMatches(v.similarity)
    requires MatchesJobSkill(v.similarity.value.matches.value, Lower(d.name))
    ensures Classify(v, progress, d) == Matched
  {
  }

  /** With no similarity data, a skill in both sets is matched and a candidate-only one is red. */
  lemma NaiveRules(v: Viz, progress: ProgressMap, d: Node)
    requires IsSkill(d) && v.similarity.None?
    ensures Lower(d.name) in v.candidateSkills && Lower(d.name) in v.jobSkills ==> Classify(v, progress, d) == Matched
    ensures Lower(d.name) in v.candidateSkills && Lower(d.name) !in v.jobSkills ==> Classify(v, progress, d) == CandidateOnly
    ensures Lower(d.name) !in v.candidateSkills ==> Classify(v, progress, d) == ProgressFill(ProgressOf(progress, d.name))
  {
  }

  /**
   * The fallback candidate-only rule can never colour a skill node of the
   * tree being drawn: `update` put every such name into the job set.
   */
  lemma CandidateOnlyFallbackUnreachable(prev: Viz, tree: Node, candidate: Option<Node>,
                                         sim: Option<SimilarityData>, progress: ProgressMap, d: Node)
    requires !HasCandidateOnly(sim)
    requires d in Flatten(tree)
    ensures Classify(Update(prev, tree, candidate, sim), progress, d) != CandidateOnly
  {
    if IsSkill(d) {
      SkillNodeExtracted(tree, d);
    }
  }

  /** Without a candidate tree or similarity data, every skill node shows its progress. */
  lemma NoCandidateMeansProgress(prev: Viz, tree: Node, progress: ProgressMap, d: Node)
    requires IsSkill(d)
    ensures Classify(Update(prev, tree, None, None), progress, d) == ProgressFill(ProgressOf(progress, d.name))
  {
  }

  /** A node's class reads the progress map only at the node's own name. */
  lemma ClassifyReadsOwnProgress(v: Viz, p1: ProgressMap, p2: ProgressMap, d: Node)
    requires ProgressOf(p1, d.name) == ProgressOf(p2, d.name)
    ensures Classify(v, p1, d) == Classify(v, p2, d)
  {
  }

  /**
   * `update` starts from scratch: what it produces does not depend on the
   * previous sets or similarity data, and a second identical call changes
   * nothing.
   */
  lemma UpdateFromScratch(v: Viz, w: Viz, tree: Node, candidate: Option<Node>, sim: Option<SimilarityData>)
    requires v.scale == w.scale
    ensures Update(v, tree, candidate, sim) == Update(w, tree, candidate, sim)
    ensures Update(Update(v, tree, candidate, sim), tree, candidate, sim) == Update(v, tree, candidate, sim)
  {
  }

  /** A progress bar: its filled width and whether it uses the "complete" colour. */
  datatype Bar = Bar(width: real, complete: bool)

  /** The progress indicator of `drawNodes`: only for skill nodes with positive progress. */
  function ProgressBar(progress: ProgressMap, d: Node): (r: Option<Bar>)
    ensures r.Some? <==> IsSkill(d) && ProgressOf(progress, d.name) > 0
    ensures r.Some? ==> 0.0 < r.value.width
    ensures r.Some? && ProgressOf(progress, d.name) <= 100 ==> r.value.width <= BarWidth
    ensures r.Some? ==> (r.value.complete <==> ProgressOf(progress, d.name) == 100)
    ensures r.Some? && ProgressOf(progress, d.name) == 100 ==> r.value.width == BarWidth
    ensures r.Some? ==> r.value.width * 100.0 == BarWidth * (ProgressOf(progress, d.name) as real)
  {
    var p := ProgressOf(progress, d.name);
    if IsSkill(d) && p > 0 then Some(Bar(BarWidth * (p as real) / 100.0, p == 100)) else None
  }

  /** More progress draws a strictly wider bar. */
  lemma ProgressBarGrows(p1: ProgressMap, p2: ProgressMap, d: Node)
    requires IsSkill(d) && 0 < ProgressOf(p1, d.name) < ProgressOf(p2, d.name)
    ensures ProgressBar(p1, d).Some? && ProgressBar(p2, d).Some?
    ensures ProgressBar(p1, d).value.width < ProgressBar(p2, d).value.width
  {
  }

  function Min(a: real, b: real): real { if a <= b then a else b }

  function Max(a: real, b: real): real { if a >= b then a else b }

  /** `zoomIn`: scale times 1.25, capped at 3. */
  function ZoomIn(k: real): (r: real)
    ensures r <= MaxScale
    ensures 0.0 <= k <= MaxScale ==> k <= r
    ensures ScaleInRange(k) ==> ScaleInRange(r)
  {
    Min(MaxScale, k * ZoomInFactor)
  }

  /** `zoomOut`: scale times 0.8, floored at 0.1. */
  function ZoomOut(k: real): (r: real)
    ensures MinScale <= r
    ensures MinScale <= k ==> r <= k
    ensures ScaleInRange(k) ==> ScaleInRange(r)
  {
    Max(MinScale, k * ZoomOutFactor)
  }

  /** Zooming in and then out returns to the same scale unless the cap was hit. */
  lemma ZoomInOutRoundTrip(k: real)
    requires MinScale <= k <= MaxScale / ZoomInFactor
    ensures ZoomOut(ZoomIn(k)) == k
  {
  }

  /** Zooming out and then in returns to the same scale unless the floor was hit. */
  lemma ZoomOutInRoundTrip(k: real)
    requires MinScale / ZoomOutFactor <= k <= MaxScale
    ensures ZoomIn(ZoomOut(k)) == k
  {
  }

  /** From the default scale, one step in and one step out gives the default scale back. */
  lemma DefaultZoomRoundTrip()
    ensures ScaleInRange(DefaultZoom)
    ensures ZoomOut(ZoomIn(DefaultZoom)) == DefaultZoom
    ensures ZoomIn(ZoomOut(DefaultZoom)) == DefaultZoom
  {
  }

  /** The zoom buttons and `resetZoom` on an instance; no other field changes. */
  function ZoomInViz(v: Viz): (r: Viz)
    ensures r == v.(scale := r.scale) && (ScaleInRange(v.scale) ==> ScaleInRange(r.scale))
  {
    v.(scale := ZoomIn(v.scale))
  }

  function ZoomOutViz(v: Viz): (r: Viz)
    ensures r == v.(scale := r.scale) && (ScaleInRange(v.scale) ==> ScaleInRange(r.scale))
  {
    v.(scale := ZoomOut(v.scale))
  }

  function ResetZoom(v: Viz): (r: Viz)
    ensures r == v.(scale := r.scale) && ScaleInRange(r.scale)
  {
    v.(scale := DefaultZoom)
  }

  /** A job tree with the skills React and CSS3 under one group. */
  function ReactCssJob(): Node
  {
    Node("Skills", None, [Node("React", Some(Skill), []), Node("CSS3", Some(Skill), [])])
  }

  /** A candidate tree with the single skill React. */
  function ReactCandidate(): Node
  {
    Node("Skills", None, [Node("React", Some(Skill), [])])
  }

  lemma LowerReactCss()
    ensures Lower("React") == "react" && Lower("CSS3") == "css3"
  {
  }

  lemma ReactCssJobSet()
    ensures ExtractSet(ReactCssJob()) == {"react", "css3"}
  {
    LowerReactCss();
    var t := ReactCssJob();
    assert t.children[1..][1..] == [];
    assert ExtractSetAll(t.children[1..]) == {"css3"};
  }

  lemma ReactCandidateSet()
    ensures ExtractSet(ReactCandidate()) == {"react"}
  {
    LowerReactCss();
    assert ReactCandidate().children[1..] == [];
  }

  /** No similarity data: React is in both sets and matched; CSS3, at progress 0, is not started. */
  lemma ScenarioNaiveMatch(prev: Viz)
    ensures var v := Update(prev, ReactCssJob(), Some(ReactCandidate()), None);
      && Classify(v, map["React" := 0, "CSS3" := 0], Node("React", Some(Skill), [])) == Matched
      && Classify(v, map["React" := 0, "CSS3" := 0], Node("CSS3", Some(Skill), [])) == NotStarted
  {
    LowerReactCss();
    ReactCssJobSet();
    ReactCandidateSet();
  }

  /** Similarity data with no matches listing React as candidate-only overrides the naive match. */
  lemma ScenarioSimilarityOverride(prev: Viz)
    ensures var v := Update(prev, ReactCssJob(), Some(ReactCandidate()), Some(SimilarityData(Some([]), Some(["React"]))));
      Classify(v, map[], Node("React", Some(Skill), [])) == CandidateOnly
  {
    LowerReactCss();
    assert ListsName(["React"], "react") by {
      assert Lower(["React"][0]) == "react";
    }
  }

  /** CSS3 at progress 100, neither matched nor candidate-only, is complete. */
  lemma ScenarioComplete(prev: Viz)
    ensures var v := Update(prev, ReactCssJob(), Some(ReactCandidate()), None);
      Classify(v, map["CSS3" := 100], Node("CSS3", Some(Skill), [])) == Complete
  {
    LowerReactCss();
    ReactCssJobSet();
    ReactCandidateSet();
  }
}

=== FILE: progress.dfy ===
/**
 * The interview progress map of the front end: its initialisation from a
 * job tree, the clamping setter, the increment with its default step, and
 * the keyword rule table that turns the latest transcript entry into
 * increments.
 */
module Progress {
  import opened Wrappers
  import opened Text
  import opened SkillNode
  import opened Overlay

  const MinProgress: int := 0
  const MaxProgress: int := 100
  /** The default `amount` of `incrementSkillProgress`. */
  const DefaultIncrement: int := 25
  /** The step every transcript rule applies. */
  const TranscriptIncrement: int := 20

  predicate InRange(p: int) { MinProgress <= p <= MaxProgress }

  /** Every stored progress lies in [0, 100]. */
  predicate AllInRange(m: ProgressMap)
  {
    forall k :: k in m ==> InRange(m[k])
  }

  /** `Math.min(100, Math.max(0, p))`. */
  function Clamp(p: int): (r: int)
    ensures InRange(r)
    ensures InRange(p) ==> r == p
    ensures p < MinProgress ==> r == MinProgress
    ensures p > MaxProgress ==> r == MaxProgress
  {
    if p < MinProgress then MinProgress else if p > MaxProgress then MaxProgress else p
  }

  /**
   * `initializeSkillProgress(node)` applied to the map `m`: each skill or
   * requirement node, in pre-order, gets its name as written set to 0.
   */
  function InitProgress(n: Node, m: ProgressMap): ProgressMap
  {
    InitProgressAll(n.children, if IsSkill(n) then m[n.name := 0] else m)
  }

  function InitProgressAll(ns: seq<Node>, m: ProgressMap): ProgressMap
  {
    if |ns| == 0 then m else InitProgressAll(ns[1..], InitProgress(ns[0], m))
  }

  /**
   * Initialisation adds exactly the skill names of the tree, each at 0, and
   * leaves every other entry as it was.
   */
  lemma {:induction false} InitProgressSpec(n: Node, m: ProgressMap)
    ensures InitProgress(n, m).Keys == m.Keys + Elems(SkillNames(n))
    ensures forall k :: k in InitProgress(n, m) ==>
      InitProgress(n, m)[k] == if k in SkillNames(n) then 0 else m[k]
  {
    var m0 := if IsSkill(n) then m[n.name := 0] else m;
    InitProgressAllSpec(n.children, m0);
  }

  lemma {:induction false} InitProgressAllSpec(ns: seq<Node>, m: ProgressMap)
    ensures InitProgressAll(ns, m).Keys == m.Keys + Elems(SkillNamesAll(ns))
    ensures forall k :: k in InitProgressAll(ns, m) ==>
      InitProgressAll(ns, m)[k] == if k in SkillNamesAll(ns) then 0 else m[k]
  {
    if |ns| > 0 {
      InitProgressSpec(ns[0], m);
      InitProgressAllSpec(ns[1..], InitProgress(ns[0], m));
    }
  }

  /**
   * The map a newly loaded job starts from (`new Map()` then
   * `initializeSkillProgress`): one entry per skill or requirement name, as
   * written, all at 0; no group-node name is added.
   */
  function FreshProgress(t: Node): (r: ProgressMap)
    ensures forall k :: k in r <==> exists d :: d in Flatten(t) && IsSkill(d) && d.name == k
    ensures forall k :: k in r ==> r[k] == 0
    ensures AllInRange(r)
  {
    InitProgressSpec(t, map[]);
    SkillNamesSpec(t);
    SkillNamesMembers(t);
    InitProgress(t, map[])
  }

  lemma SkillNamesMembers(t: Node)
    ensures forall k :: k in SkillNames(t) <==> exists d :: d in Flatten(t) && IsSkill(d) && d.name == k
  {
    SkillNamesSpec(t);
    var skills := SkillsOf(Flatten(t));
    forall k | k in SkillNames(t)
      ensures exists d :: d in Flatten(t) && IsSkill(d) && d.name == k
    {
      var i :| 0 <= i < |skills| && NamesOf(skills)[i] == k;
      assert skills[i] in skills;
    }
    forall k | exists d :: d in Flatten(t) && IsSkill(d) && d.name == k
      ensures k in SkillNames(t)
    {
      var d :| d in Flatten(t) && IsSkill(d) && d.name == k;
      assert d in skills;
      var i :| 0 <= i < |skills| && skills[i] == d;
      assert NamesOf(skills)[i] == k;
    }
  }

  /** `updateSkillProgress(name, p)` on the map: the clamped value under `name`, nothing else changes. */
  function SetProgress(m: ProgressMap, name: string, p: int): (r: ProgressMap)
    ensures r.Keys == m.Keys + {name}
    ensures InRange(r[name])
    ensures InRange(p) ==> r[name] == p
    ensures p < MinProgress ==> r[name] == MinProgress
    ensures p > MaxProgress ==> r[name] == MaxProgress
    ensures forall k :: k in m && k != name ==> r[k] == m[k]
    ensures AllInRange(m) ==> AllInRange(r)
  {
    m[name := Clamp(p)]
  }

  /** `incrementSkillProgress(name, amount)`: a missing entry counts as 0. */
  function Increment(m: ProgressMap, name: string, amount: int): (r: ProgressMap)
    ensures r.Keys == m.Keys + {name}
    ensures r[name] == Clamp(ProgressOf(m, name) + amount)
    ensures forall k :: k in m && k != name ==> r[k] == m[k]
    ensures AllInRange(m) ==> AllInRange(r)
  {
    SetProgress(m, name, ProgressOf(m, name) + amount)
  }

  /** `n` calls of `incrementSkillProgress(name, amount)` in a row. */
  function IncrementRepeatedly(m: ProgressMap, name: string, amount: int, n: nat): ProgressMap
    decreases n
  {
    if n == 0 then m else IncrementRepeatedly(Increment(m, name, amount), name, amount, n - 1)
  }

  /**
   * Repeated positive increments saturate: once their sum covers the gap to
   * 100, the entry is exactly 100 and stays there.
   */
  lemma {:induction false} IncrementSaturates(m: ProgressMap, name: string, amount: int, n: nat)
    requires amount > 0 && ProgressOf(m, name) <= MaxProgress
    requires n * amount >= MaxProgress - ProgressOf(m, name)
    ensures ProgressOf(IncrementRepeatedly(m, name, amount, n), name) == MaxProgress
    decreases n
  {
    if n > 0 {
      var m1 := Increment(m, name, amount);
      assert (n - 1) * amount == n * amount - amount;
      IncrementSaturates(m1, name, amount, n - 1);
    }
  }

  /** From a missing entry, four default increments reach 100 and three only reach 75. */
  lemma DefaultIncrementSteps(m: ProgressMap, name: string)
    requires name !in m
    ensures ProgressOf(IncrementRepeatedly(m, name, DefaultIncrement, 3), name) == 75
    ensures ProgressOf(IncrementRepeatedly(m, name, DefaultIncrement, 4), name) == MaxProgress
  {
    IncrementSaturates(m, name, DefaultIncrement, 4);
    var m1 := Increment(m, name, DefaultIncrement);
    var m2 := Increment(m1, name, DefaultIncrement);
    var m3 := Increment(m2, name, DefaultIncrement);
    assert IncrementRepeatedly(m, name, DefaultIncrement, 3) == m3;
  }

  /** One row of the transcript rule table: the skill and the keywords that trigger it. */
  datatype Rule = Rule(skill: string, keywords: seq<string>)

  /** The rule table of `processTranscript`, in evaluation order. */
  const TranscriptRules: seq<Rule> := [
    Rule("React", ["react", "component"]),
    Rule("TypeScript", ["typescript", "interface"]),
    Rule("CSS3", ["css", "flexbox", "styling"]),
    Rule("JavaScript", ["javascript"])
  ]

  /** Some keyword occurs in the (already lower-cased) text. */
  predicate Mentions(text: string, keywords: seq<string>)
  {
    exists i :: 0 <= i < |keywords| && Contains(text, keywords[i])
  }

  function RuleSkills(rules: seq<Rule>): (r: seq<string>)
    ensures |r| == |rules|
  {
    seq(|rules|, i requires 0 <= i < |rules| => rules[i].skill)
  }

  function Firsts(us: seq<(string, int)>): (r: seq<string>)
    ensures |r| == |us|
  {
    seq(|us|, i requires 0 <= i < |us| => us[i].0)
  }

  /** The `[skill, amount]` pairs the rules produce for lower-cased text, in rule order. */
  function RuleUpdates(rules: seq<Rule>, text: string): (r: seq<(string, int)>)
    ensures |r| <= |rules|
    ensures forall i :: 0 <= i < |r| ==> r[i].1 == TranscriptIncrement
  {
    if |rules| == 0 then []
    else
      (if Mentions(text, rules[0].keywords) then [(rules[0].skill, TranscriptIncrement)] else [])
      + RuleUpdates(rules[1..], text)
  }

  /** A skill receives an update iff one of its rules fires. */
  lemma {:induction false} RuleUpdatesMembers(rules: seq<Rule>, text: string, s: string)
    ensures s in Firsts(RuleUpdates(rules, text)) <==>
      exists j :: 0 <= j < |rules| && rules[j].skill == s && Mentions(text, rules[j].keywords)
  {
    if |rules| > 0 {
      var here := if Mentions(text, rules[0].keywords) then [(rules[0].skill, TranscriptIncrement)] else [];
      var rest := RuleUpdates(rules[1..], text);
      RuleUpdatesMembers(rules[1..], text, s);
      assert Firsts(here + rest) == Firsts(here) + Firsts(rest);
      if s in Firsts(here + rest) {
        if s in Firsts(here) {
          assert rules[0].skill == s && Mentions(text, rules[0].keywords);
        } else {
          assert s in Firsts(rest);
          var j :| 0 <= j < |rules[1..]| && rules[1..][j].skill == s && Mentions(text, rules[1..][j].keywords);
          assert rules[j + 1] == rules[1..][j];
        }
      }
      if exists j :: 0 <= j < |rules| && rules[j].skill == s && Mentions(text, rules[j].keywords) {
        var j :| 0 <= j < |rules| && rules[j].skill == s && Mentions(text, rules[j].keywords);
        if j == 0 {
          assert Firsts(here)[0] == s;
        } else {
          assert rules[1..][j - 1] == rules[j];
          assert s in Firsts(rest);
        }
      }
    }
  }

  /** Rules with distinct skills produce updates with distinct skills. */
  lemma {:induction false} RuleUpdatesDistinct(rules: seq<Rule>, text: string)
    requires Distinct(RuleSkills(rules))
    ensures Distinct(Firsts(RuleUpdates(rules, text)))
  {
    if |rules| > 0 {
      var here := if Mentions(text, rules[0].keywords) then [(rules[0].skill, TranscriptIncrement)] else [];
      var rest := RuleUpdates(rules[1..], text);
      assert RuleSkills(rules[1..]) == RuleSkills(rules)[1..];
      RuleUpdatesDistinct(rules[1..], text);
      RuleUpdatesMembers(rules[1..], text, rules[0].skill);
      forall j | 0 <= j < |rules[1..]|
        ensures rules[1..][j].skill != rules[0].skill
      {
        assert RuleSkills(rules)[0] != RuleSkills(rules)[j + 1];
      }
      assert rules[0].skill !in Firsts(rest);
      assert Firsts(here + rest) == Firsts(here) + Firsts(rest);
    }
  }

  /** The updates of one transcript entry: the text is lower-cased first. */
  function TranscriptUpdates(text: string): seq<(string, int)>
  {
    RuleUpdates(TranscriptRules, Lower(text))
  }

  /** `updates.forEach(([skill, amount]) => incrementSkillProgress(skill, amount))`. */
  function ApplyUpdates(m: ProgressMap, us: seq<(string, int)>): ProgressMap
    decreases |us|
  {
    if |us| == 0 then m else ApplyUpdates(Increment(m, us[0].0, us[0].1), us[1..])
  }

  /**
   * With distinct skills, each listed skill is incremented exactly once and
   * every other entry is left alone.
   */
  lemma {:induction false} ApplyUpdatesEffect(m: ProgressMap, us: seq<(string, int)>, k: string)
    requires Distinct(Firsts(us))
    ensures forall i :: 0 <= i < |us| && us[i].0 == k ==>
      k in ApplyUpdates(m, us) && ApplyUpdates(m, us)[k] == Clamp(ProgressOf(m, k) + us[i].1)
    ensures k !in Firsts(us) ==>
      (k in ApplyUpdates(m, us) <==> k in m) && ProgressOf(ApplyUpdates(m, us), k) == ProgressOf(m, k)
    decreases |us|
  {
    if |us| > 0 {
      var m1 := Increment(m, us[0].0, us[0].1);
      var rest := us[1..];
      FirstsTail(us);
      DistinctTail(Firsts(us));
      ApplyUpdatesEffect(m1, rest, k);
      if us[0].0 == k {
        DistinctHead(Firsts(us));
        forall i | 0 <= i < |us| && us[i].0 == k
          ensures i == 0
        {
          assert Firsts(us)[i] == k;
        }
      } else {
        forall i | 0 <= i < |us| && us[i].0 == k
          ensures us[i] == rest[i - 1]
        {
        }
      }
    }
  }

  lemma FirstsTail(us: seq<(string, int)>)
    requires |us| > 0
    ensures Firsts(us[1..]) == Firsts(us)[1..]
    ensures forall x :: x in Firsts(us) <==> x == us[0].0 || x in Firsts(us[1..])
  {
    assert Firsts(us) == [us[0].0] + Firsts(us[1..]);
  }

  /** Some rule for skill `k` fires on the lower-cased text. */
  predicate Raises(text: string, k: string)
  {
    exists j :: 0 <= j < |TranscriptRules| && TranscriptRules[j].skill == k
      && Mentions(Lower(text), TranscriptRules[j].keywords)
  }

  /**
   * The effect of one transcript entry on the progress map: each of React,
   * TypeScript, CSS3 and JavaScript gains 20 (clamped) exactly when one of
   * its keywords occurs in the lower-cased text; every other entry is kept.
   */
  lemma TranscriptEffect(m: ProgressMap, text: string, k: string)
    ensures Raises(text, k) ==>
      ProgressOf(ApplyUpdates(m, TranscriptUpdates(text)), k) == Clamp(ProgressOf(m, k) + TranscriptIncrement)
    ensures !Raises(text, k) ==>
      ProgressOf(ApplyUpdates(m, TranscriptUpdates(text)), k) == ProgressOf(m, k)
  {
    var us := TranscriptUpdates(text);
    assert RuleSkills(TranscriptRules) == ["React", "TypeScript", "CSS3", "JavaScript"];
    RuleUpdatesDistinct(TranscriptRules, Lower(text));
    RuleUpdatesMembers(TranscriptRules, Lower(text), k);
    ApplyUpdatesEffect(m, us, k);
    if k in Firsts(us) {
      var i :| 0 <= i < |us| && Firsts(us)[i] == k;
      assert us[i].0 == k;
    }
  }

  /** A string missing some character of `sub` cannot contain `sub`. */
  lemma MissingCharNotContained(s: string, sub: string, c: char)
    requires c in sub && c !in s
    ensures !Contains(s, sub)
  {
    var k :| 0 <= k < |sub| && sub[k] == c;
    forall i | 0 <= i <= |s|
      ensures !OccursAt(s, sub, i)
    {
      if i <= |s| - |sub| {
        assert s[i..i + |sub|][k] == s[i + k] != c;
      }
    }
  }

  const ExampleText: string := "i use react and css"

  lemma ExampleLower()
    ensures Lower("I use React and CSS") == ExampleText
  {
  }

  lemma ExampleFires()
    ensures Mentions(ExampleText, TranscriptRules[0].keywords)
    ensures Mentions(ExampleText, TranscriptRules[2].keywords)
  {
    assert OccursAt(ExampleText, "react", 6);
    assert TranscriptRules[0].keywords[0] == "react";
    assert OccursAt(ExampleText, "css", 16);
    assert TranscriptRules[2].keywords[0] == "css";
  }

  lemma ExampleSilent()
    ensures !Mentions(ExampleText, TranscriptRules[1].keywords)
    ensures !Mentions(ExampleText, TranscriptRules[3].keywords)
  {
    ExampleNoTypeScript();
    ExampleNoJavaScript();
  }

  lemma ExampleNoTypeScript()
    ensures !Mentions(ExampleText, TranscriptRules[1].keywords)
  {
    ExampleNoTypeScriptKeyword();
    ExampleNoInterfaceKeyword();
    assert TranscriptRules[1].keywords == ["typescript", "interface"];
  }

  lemma ExampleNoTypeScriptKeyword()
    ensures !Contains(ExampleText, "typescript")
  {
    MissingCharNotContained(ExampleText, "typescript", 'y');
  }

  lemma ExampleNoInterfaceKeyword()
    ensures !Contains(ExampleText, "interface")
  {
    MissingCharNotContained(ExampleText, "interface", 'f');
  }

  lemma ExampleNoJavaScript()
    ensures !Mentions(ExampleText, TranscriptRules[3].keywords)
  {
    MissingCharNotContained(ExampleText, "javascript", 'j');
    assert TranscriptRules[3].keywords == ["javascript"];
  }

  /** "I use React and CSS" raises React and CSS3 and nothing else. */
  lemma TranscriptExample()
    ensures TranscriptUpdates("I use React and CSS") == [("React", 20), ("CSS3", 20)]
  {
    ExampleLower();
    ExampleFires();
    ExampleSilent();
    var rules := TranscriptRules;
    var t := ExampleText;
    assert RuleUpdates(rules[3..], t) == [] by { assert rules[3..][1..] == []; }
    assert RuleUpdates(rules[2..], t) == [("CSS3", 20)] by { assert rules[2..][1..] == rules[3..]; }
    assert RuleUpdates(rules[1..], t) == [("CSS3", 20)] by { assert rules[1..][1..] == rules[2..]; }
  }
}

=== FILE: questions.dfy ===
/**
 * The recommended-question panel of the front end: the numbering of a
 * generated list, the two fallback lists, the ask/skip state machine with
 * its history, the filter that decides which cards are shown, and
 * `formatTime` for the timer printed on the cards while recording.
 */
module Questions {
  import opened Wrappers
  import opened Text
  import opened SkillNode

  datatype Question = Question(id: int, text: string, asked: bool, skipped: bool)

  /**
   * One history entry; `stamp` and `time` stand for `Date.now()` and
   * `new Date().toLocaleTimeString()` and are supplied by the caller.
   */
  datatype HistoryEntry = HistoryEntry(stamp: int, text: string, time: string)

  /** The `action` argument: `'ask'`, or anything else (the skip button sends `'skip'`). */
  datatype Action = Ask | Skip

  /** `recommendedQuestions` together with `questionHistory`. */
  datatype Panel = Panel(questions: seq<Question>, history: seq<HistoryEntry>)

  predicate IsVisible(q: Question) { !q.asked && !q.skipped }

  /** No two questions share an id. */
  predicate UniqueIds(qs: seq<Question>)
  {
    forall i, j :: 0 <= i < j < |qs| ==> qs[i].id != qs[j].id
  }

  /** The question texts in list order. */
  function Texts(qs: seq<Question>): (r: seq<string>)
    ensures |r| == |qs|
  {
    seq(|qs|, i requires 0 <= i < |qs| => qs[i].text)
  }

  /** The cards `renderQuestions` draws: `filter(q => !q.asked && !q.skipped)`. */
  function Visible(qs: seq<Question>): (r: seq<Question>)
    ensures |r| <= |qs|
    ensures forall q :: q in r <==> q in qs && IsVisible(q)
  {
    if |qs| == 0 then [] else (if IsVisible(qs[0]) then [qs[0]] else []) + Visible(qs[1..])
  }

  /** The filter keeps the original order: it distributes over concatenation. */
  lemma {:induction false} VisibleAppend(a: seq<Question>, b: seq<Question>)
    ensures Visible(a + b) == Visible(a) + Visible(b)
    decreases |a|
  {
    if |a| == 0 {
      assert a + b == b;
    } else {
      assert (a + b)[1..] == a[1..] + b;
      VisibleAppend(a[1..], b);
    }
  }

  /** A list of untouched questions is shown in full, in order. */
  lemma {:induction false} VisibleAllVisible(qs: seq<Question>)
    requires forall i :: 0 <= i < |qs| ==> IsVisible(qs[i])
    ensures Visible(qs) == qs
    decreases |qs|
  {
    if |qs| > 0 {
      VisibleAllVisible(qs[1..]);
    }
  }

  /** Replacing one question changes the cards only through that question. */
  lemma VisibleReplace(qs: seq<Question>, i: nat, q: Question)
    requires i < |qs|
    ensures Visible(qs[i := q]) == Visible(qs[..i]) + Visible([q]) + Visible(qs[i + 1..])
    ensures Visible(qs) == Visible(qs[..i]) + Visible([qs[i]]) + Visible(qs[i + 1..])
  {
    assert qs[i := q] == qs[..i] + [q] + qs[i + 1..];
    assert qs == qs[..i] + [qs[i]] + qs[i + 1..];
    VisibleAppend(qs[..i] + [q], qs[i + 1..]);
    VisibleAppend(qs[..i], [q]);
    VisibleAppend(qs[..i] + [qs[i]], qs[i + 1..]);
    VisibleAppend(qs[..i], [qs[i]]);
  }

  /** `recommendedQuestions.find(q => q.id === questionId)`, as the index of the first hit. */
  function FindById(qs: seq<Question>, id: int): (r: Option<nat>)
    ensures r.Some? ==> r.value < |qs| && qs[r.value].id == id
    ensures r.Some? ==> forall j :: 0 <= j < r.value ==> qs[j].id != id
    ensures r.None? ==> forall j :: 0 <= j < |qs| ==> qs[j].id != id
  {
    if |qs| == 0 then None
    else if qs[0].id == id then Some(0)
    else match FindById(qs[1..], id)
      case None => None
      case Some(i) => Some(i + 1)
  }

  /**
   * `handleQuestionAction(questionId, action)`: the first question with
   * that id is marked asked (and one history entry with its text is
   * appended) or skipped (history untouched); an unknown id changes nothing.
   */
  function HandleAction(p: Panel, id: int, action: Action, stamp: int, time: string): (r: Panel)
    ensures |r.questions| == |p.questions|
    ensures (forall j :: 0 <= j < |p.questions| ==> p.questions[j].id != id) ==> r == p
    ensures forall i :: 0 <= i < |p.questions| && p.questions[i].id == id
                        && (forall j :: 0 <= j < i ==> p.questions[j].id != id) ==>
      && (forall j :: 0 <= j < |p.questions| && j != i ==> r.questions[j] == p.questions[j])
      && r.questions[i].id == id && r.questions[i].text == p.questions[i].text
      && (action == Ask ==>
            r.questions[i].asked && r.questions[i].skipped == p.questions[i].skipped
            && r.history == p.history + [HistoryEntry(stamp, p.questions[i].text, time)])
      && (action == Skip ==>
            r.questions[i].skipped && r.questions[i].asked == p.questions[i].asked
            && r.history == p.history)
  {
    match FindById(p.questions, id)
    case None => p
    case Some(i) =>
      var q := p.questions[i];
      Panel(p.questions[i := Mark(q, action)],
            if action == Ask then p.history + [HistoryEntry(stamp, q.text, time)] else p.history)
  }

  /** The question after the action: asked or skipped, the other flag kept. */
  function Mark(q: Question, action: Action): (r: Question)
    ensures r.id == q.id && r.text == q.text && !IsVisible(r)
  {
    if action == Ask then q.(asked := true) else q.(skipped := true)
  }

  /** With unique ids, acting on the id of question `i` replaces exactly question `i`. */
  lemma HandleActionAt(p: Panel, i: nat, action: Action, stamp: int, time: string)
    requires i < |p.questions| && UniqueIds(p.questions)
    ensures HandleAction(p, p.questions[i].id, action, stamp, time).questions
            == p.questions[i := Mark(p.questions[i], action)]
  {
    var f := FindById(p.questions, p.questions[i].id);
    assert f.Some? && f.value == i;
  }

  /**
   * Acting on a shown card of a list with unique ids removes exactly that
   * card and keeps the others in order; acting on a hidden one leaves the
   * cards as they were.
   */
  lemma HandleActionCards(p: Panel, i: nat, action: Action, stamp: int, time: string)
    requires i < |p.questions| && UniqueIds(p.questions)
    ensures var r := HandleAction(p, p.questions[i].id, action, stamp, time);
      && (IsVisible(p.questions[i]) ==>
            Visible(r.questions) == Visible(p.questions[..i]) + Visible(p.questions[i + 1..])
            && |Visible(r.questions)| + 1 == |Visible(p.questions)|)
      && (!IsVisible(p.questions[i]) ==> Visible(r.questions) == Visible(p.questions))
  {
    HandleActionAt(p, i, action, stamp, time);
    VisibleHide(p.questions, i, Mark(p.questions[i], action));
  }

  /** Replacing question `i` by a hidden one removes its card, if it had one. */
  lemma VisibleHide(qs: seq<Question>, i: nat, q: Question)
    requires i < |qs| && !IsVisible(q)
    ensures IsVisible(qs[i]) ==> Visible(qs[i := q]) == Visible(qs[..i]) + Visible(qs[i + 1..])
    ensures IsVisible(qs[i]) ==> |Visible(qs[i := q])| + 1 == |Visible(qs)|
    ensures !IsVisible(qs[i]) ==> Visible(qs[i := q]) == Visible(qs)
  {
    VisibleReplace(qs, i, q);
    VisibleSingle(q);
    VisibleSingle(qs[i]);
    SpliceOut(Visible(qs[..i]), Visible([q]), Visible(qs[i + 1..]));
    if IsVisible(qs[i]) {
      assert |Visible(qs)| == |Visible(qs[..i])| + 1 + |Visible(qs[i + 1..])|;
    } else {
      SpliceOut(Visible(qs[..i]), Visible([qs[i]]), Visible(qs[i + 1..]));
    }
  }

  lemma SpliceOut(a: seq<Question>, x: seq<Question>, b: seq<Question>)
    requires x == []
    ensures a + x + b == a + b
  {
  }

  lemma VisibleSingle(q: Question)
    ensures Visible([q]) == if IsVisible(q) then [q] else []
  {
    assert [q][1..] == [];
  }

  /** The history grows by exactly one entry per `ask` of a known id, and never otherwise. */
  lemma HistoryGrowth(p: Panel, id: int, action: Action, stamp: int, time: string)
    ensures var r := HandleAction(p, id, action, stamp, time);
      |r.history| == |p.history| + (if action == Ask && FindById(p.questions, id).Some? then 1 else 0)
  {
  }

  /** `list.map((text, idx) => ({id: idx + 1, text, asked: false, skipped: false}))`. */
  function Numbered(texts: seq<string>): (r: seq<Question>)
    ensures Texts(r) == texts
    ensures UniqueIds(r)
    ensures forall i :: 0 <= i < |r| ==> IsVisible(r[i]) && r[i].id == i + 1
  {
    var r := seq(|texts|, i requires 0 <= i < |texts| => Question(i + 1, texts[i], false, false));
    assert Texts(r) == texts;
    r
  }

  /** A freshly numbered list is shown in full. */
  lemma NumberedAllShown(texts: seq<string>)
    ensures Visible(Numbered(texts)) == Numbered(texts)
  {
    VisibleAllVisible(Numbered(texts));
  }

  /** The front end's question for one skill in the non-OK fallback. */
  function SkillQuestion(skill: string): string
  {
    "Can you explain your experience with " + skill + "?"
  }

  /** `list.slice(0, n)`. */
  function Take<T>(s: seq<T>, n: nat): (r: seq<T>)
    ensures |r| == if |s| <= n then |s| else n
    ensures r == s[..|r|]
  {
    if |s| <= n then s else s[..n]
  }

  /** The non-OK fallback: one question per skill among the first five. */
  function SkillFallback(skills: seq<string>): (r: seq<Question>)
    ensures |r| == |Take(skills, 5)|
    ensures UniqueIds(r)
    ensures forall i :: 0 <= i < |r| ==> r[i].id == i + 1 && r[i].text == SkillQuestion(skills[i])
  {
    var five := Take(skills, 5);
    Numbered(seq(|five|, i requires 0 <= i < |five| => SkillQuestion(five[i])))
  }

  /** The fixed questions used when the request throws. */
  const ErrorTexts: seq<string> := [
    "Can you walk me through your relevant experience?",
    "What technical challenges have you faced in your previous projects?",
    "How do you approach problem-solving in a technical context?"
  ]

  /** What the question endpoint answered, as far as the front end looks at it. */
  datatype Reply =
    | NotOk
      /** `questions` is `None` when the field is missing or not an array. */
    | Ok(questions: Option<seq<string>>)
    | Failed

  /**
   * The list `generateQuestionsFromSkillTree` leaves behind, given the
   * skills it extracted, the list it found, and the reply.
   */
  function Generate(skills: seq<string>, current: seq<Question>, reply: Reply): (r: seq<Question>)
    ensures reply.Ok? && reply.questions.Some? ==> Texts(r) == reply.questions.value
    ensures reply == Ok(None) ==> r == current
    ensures reply == NotOk ==>
      (|r| == |Take(skills, 5)| && forall i :: 0 <= i < |r| ==> r[i].text == SkillQuestion(skills[i]))
    ensures reply == Failed ==> Texts(r) == ErrorTexts
    ensures reply != Ok(None) ==> UniqueIds(r) && forall i :: 0 <= i < |r| ==> IsVisible(r[i]) && r[i].id == i + 1
  {
    match reply
    case NotOk => SkillFallback(skills)
    case Ok(None) => current
    case Ok(Some(texts)) => Numbered(texts)
    case Failed => Numbered(ErrorTexts)
  }

  /**
   * The non-OK fallback built from a tree asks about the first skill and
   * requirement nodes of that tree, in pre-order, at most five of them.
   */
  lemma FallbackFromTree(t: Node, current: seq<Question>)
    ensures var r := Generate(SkillNames(t), current, NotOk);
      && |r| <= 5 && |r| == |Take(SkillsOf(Flatten(t)), 5)|
      && forall i :: 0 <= i < |r| ==> r[i].text == SkillQuestion(SkillsOf(Flatten(t))[i].name)
  {
    SkillNamesSpec(t);
  }

  /** What the panel shows; the loading spinner of the pending request is not modelled. */
  datatype View =
    | GenerateButton
    | NoQuestions
      /** `timer` is the recording time printed on each card while recording. */
    | Cards(shown: seq<Question>, timer: Option<string>)

  /** `renderQuestions`. */
  function PanelView(generated: bool, qs: seq<Question>, recording: bool, seconds: nat): (r: View)
    ensures r == GenerateButton <==> !generated
    ensures r == NoQuestions <==> generated && forall q :: q in qs ==> !IsVisible(q)
    ensures r.Cards? ==> r.shown == Visible(qs) && |r.shown| > 0
    ensures r.Cards? ==> (r.timer.Some? <==> recording)
    ensures r.Cards? && recording ==> r.timer == Some(FormatTime(seconds))
  {
    if !generated then GenerateButton
    else
      var shown := Visible(qs);
      if |shown| == 0 then
        assert forall q :: q in qs ==> !IsVisible(q);
        NoQuestions
      else
        assert shown[0] in qs;
        Cards(shown, if recording then Some(FormatTime(seconds)) else None)
  }

  /** `s.padStart(2, '0')`. */
  function PadStart2(s: string): (r: string)
    ensures |s| >= 2 ==> r == s
    ensures |s| < 2 ==> |r| == 2 && r[2 - |s|..] == s && forall i :: 0 <= i < 2 - |s| ==> r[i] == '0'
  {
    if |s| >= 2 then s else seq(2 - |s|, _ => '0') + s
  }

  lemma NatToStringBelow100(n: nat)
    requires n < 100
    ensures 1 <= |NatToString(n)| <= 2
  {
  }

  /** Left zero-padding does not change the value of a decimal string. */
  lemma ParsePadded(s: string)
    requires 1 <= |s| <= 2 && AllDigits(s)
    ensures AllDigits(PadStart2(s)) && ParseNat(PadStart2(s)) == ParseNat(s)
  {
    var r := PadStart2(s);
    if |s| == 1 {
      assert r == ['0', s[0]];
      assert r[..1] == ['0'];
      assert ['0'][..0] == [];
      assert s[..0] == [];
    }
  }

  /**
   * `formatTime(seconds)`: minutes, a colon, and two digits of seconds; the
   * two fields read back as `seconds` div 60 and mod 60.
   */
  function FormatTime(seconds: nat): (r: string)
    ensures |r| >= 4 && r[|r| - 3] == ':'
    ensures AllDigits(r[..|r| - 3]) && AllDigits(r[|r| - 2..])
    ensures ParseNat(r[..|r| - 3]) == seconds / 60
    ensures ParseNat(r[|r| - 2..]) == seconds % 60
    ensures ParseNat(r[..|r| - 3]) * 60 + ParseNat(r[|r| - 2..]) == seconds
  {
    var mins := NatToString(seconds / 60);
    var secs := PadStart2(NatToString(seconds % 60));
    NatToStringRoundTrip(seconds / 60);
    NatToStringRoundTrip(seconds % 60);
    NatToStringBelow100(seconds % 60);
    ParsePadded(NatToString(seconds % 60));
    var r := mins + ":" + secs;
    assert r[..|r| - 3] == mins;
    assert r[|r| - 2..] == secs;
    r
  }

  /** Different times never print the same. */
  lemma FormatTimeInjective(a: nat, b: nat)
    requires FormatTime(a) == FormatTime(b)
    ensures a == b
  {
  }

  lemma FormatTimeExamples()
    ensures FormatTime(0) == "0:00"
    ensures FormatTime(65) == "1:05"
    ensures FormatTime(600) == "10:00"
  {
    assert NatToString(10) == "10";
  }
}

=== FILE: resume.dfy ===
/**
 * The resume side of `resume_skill_tree.py`: the keyword-based skill
 * extraction used when the model cannot be asked, the choice of API key,
 * and the tree the generator builds from the extracted data.
 */
module Resume {
  import opened Wrappers
  import opened Text
  import opened SkillNode
  import opened SkillTree
  import opened Backend

  const Languages: seq<string> :=
    ["Python", "JavaScript", "Java", "C++", "C#", "Go", "Rust", "TypeScript", "SQL", "R", "Swift", "Kotlin"]
  const Frameworks: seq<string> :=
    ["React", "Vue", "Angular", "Django", "Flask", "FastAPI", "Spring", "Node.js", "Express", "TensorFlow", "PyTorch"]
  const Tools: seq<string> :=
    ["Git", "Docker", "Kubernetes", "AWS", "Azure", "GCP", "Jenkins", "CI/CD", "Linux", "MongoDB", "PostgreSQL", "Redis"]

  /** The keywords whose lower-case form occurs in the (already lower-cased) resume text, in list order. */
  function Found(keywords: seq<string>, lowerText: string): (r: seq<string>)
    ensures forall k :: k in r <==> k in keywords && Contains(lowerText, Lower(k))
  {
    if |keywords| == 0 then []
    else (if Contains(lowerText, Lower(keywords[0])) then [keywords[0]] else []) + Found(keywords[1..], lowerText)
  }

  /** The found keywords are an in-order selection from the keyword list. */
  lemma {:induction false} FoundInOrder(keywords: seq<string>, lowerText: string)
    ensures IsSubsequence(Found(keywords, lowerText), keywords)
    decreases |keywords|
  {
    if |keywords| > 0 {
      FoundInOrder(keywords[1..], lowerText);
      PickSubsequence(Contains(lowerText, Lower(keywords[0])), keywords[0], Found(keywords[1..], lowerText), keywords[1..]);
      assert [keywords[0]] + keywords[1..] == keywords;
    }
  }

  /** A keyword list without repetitions gives a found list without repetitions. */
  lemma {:induction false} FoundDistinct(keywords: seq<string>, lowerText: string)
    requires Distinct(keywords)
    ensures Distinct(Found(keywords, lowerText))
    decreases |keywords|
  {
    if |keywords| > 0 {
      var rest := Found(keywords[1..], lowerText);
      DistinctTail(keywords);
      FoundDistinct(keywords[1..], lowerText);
      if Contains(lowerText, Lower(keywords[0])) {
        var r := [keywords[0]] + rest;
        forall i, j | 0 <= i < j < |r|
          ensures r[i] != r[j]
        {
          assert r[j] == rest[j - 1];
          assert rest[j - 1] in keywords[1..];
          var m :| 0 <= m < |keywords[1..]| && keywords[1..][m] == rest[j - 1];
          assert keywords[m + 1] == rest[j - 1];
          if i > 0 {
            assert r[i] == rest[i - 1];
          }
        }
      }
    }
  }

  lemma LanguagesDistinct()
    ensures Distinct(Languages)
  {
  }

  lemma FrameworksDistinct()
    ensures Distinct(Frameworks)
  {
  }

  lemma ToolsDistinct()
    ensures Distinct(Tools)
  {
  }

  /**
   * `_fallback_skill_extraction`: exactly the three technical categories,
   * each the in-order selection of its keyword list that occurs in the
   * resume ignoring case; every other category empty.
   */
  function FallbackExtraction(resumeText: string): (r: SkillData)
    ensures |r.technical| == 3
    ensures r.technical[0].0 == "programming_languages" && r.technical[1].0 == "frameworks" && r.technical[2].0 == "tools"
    ensures forall k :: k in r.technical[0].1 <==> k in Languages && Contains(Lower(resumeText), Lower(k))
    ensures forall k :: k in r.technical[1].1 <==> k in Frameworks && Contains(Lower(resumeText), Lower(k))
    ensures forall k :: k in r.technical[2].1 <==> k in Tools && Contains(Lower(resumeText), Lower(k))
    ensures IsSubsequence(r.technical[0].1, Languages) && IsSubsequence(r.technical[1].1, Frameworks)
    ensures IsSubsequence(r.technical[2].1, Tools)
    ensures r.soft == [] && r.domains == [] && r.certifications == [] && r.methodologies == []
  {
    var lower := Lower(resumeText);
    FoundInOrder(Languages, lower);
    FoundInOrder(Frameworks, lower);
    FoundInOrder(Tools, lower);
    SkillData([("programming_languages", Found(Languages, lower)),
               ("frameworks", Found(Frameworks, lower)),
               ("tools", Found(Tools, lower))],
              [], [], [], [])
  }

  lemma LowerDjango()
    ensures Lower("Django") == "django" && Lower("Go") == "go"
  {
  }

  lemma GoInDjango()
    ensures Contains("django", "go")
  {
    assert "django"[4..6] == "go";
    assert OccursAt("django", "go", 4);
  }

  lemma LowerJavaScript()
    ensures Lower("JavaScript") == "javascript" && Lower("Java") == "java"
  {
  }

  lemma JavaInJavaScript()
    ensures Contains("javascript", "java")
  {
    assert "javascript"[0..4] == "java";
    assert OccursAt("javascript", "java", 0);
  }

  /** Short keywords match inside longer words: `Django` reports the language `Go`, and `JavaScript` reports `Java`. */
  lemma ShortKeywordsOverMatch()
    ensures "Go" in Found(Languages, Lower("Django"))
    ensures "Java" in Found(Languages, Lower("JavaScript"))
  {
    LowerDjango();
    GoInDjango();
    assert Languages[5] == "Go";
    LowerJavaScript();
    JavaInJavaScript();
    assert Languages[2] == "Java";
  }

  function FallbackTechnical(pl: seq<string>, fw: seq<string>, tl: seq<string>): Categories
  {
    [("programming_languages", pl), ("frameworks", fw), ("tools", tl)]
  }

  lemma FallbackLookupsFirst(pl: seq<string>, fw: seq<string>, tl: seq<string>)
    ensures Lookup(FallbackTechnical(pl, fw, tl), FixedKeys[0]) == pl
    ensures Lookup(FallbackTechnical(pl, fw, tl), FixedKeys[1]) == fw
  {
    var tech := FallbackTechnical(pl, fw, tl);
    assert tech[1..] == [("frameworks", fw), ("tools", tl)];
  }

  lemma FallbackLookupsRest(pl: seq<string>, fw: seq<string>, tl: seq<string>)
    ensures Lookup(FallbackTechnical(pl, fw, tl), FixedKeys[2]) == tl
    ensures Lookup(FallbackTechnical(pl, fw, tl), FixedKeys[3]) == []
    ensures Lookup(FallbackTechnical(pl, fw, tl), FixedKeys[4]) == []
  {
    var tech := FallbackTechnical(pl, fw, tl);
    assert tech[1..] == [("frameworks", fw), ("tools", tl)];
    assert tech[1..][1..] == [("tools", tl)];
    assert tech[1..][1..][1..] == [];
    assert |"programming_languages"| == 21 && |"frameworks"| == 10 && |"tools"| == 5;
    assert |"databases"| == 9 && |"cloud_platforms"| == 15;
    assert Lookup(tech[1..][1..], "tools") == tl;
    assert Lookup(tech[1..], "tools") == tl;
  }

  lemma FallbackNames(pl: seq<string>, fw: seq<string>, tl: seq<string>)
    ensures FixedNames(FallbackTechnical(pl, fw, tl), 0) == pl + fw + tl
    ensures OtherNames(FallbackTechnical(pl, fw, tl)) == []
  {
    FallbackFixedNames(pl, fw, tl);
    FallbackOtherNames(pl, fw, tl);
  }

  lemma FallbackFixedNames(pl: seq<string>, fw: seq<string>, tl: seq<string>)
    ensures FixedNames(FallbackTechnical(pl, fw, tl), 0) == pl + fw + tl
  {
    var tech := FallbackTechnical(pl, fw, tl);
    FallbackLookupsFirst(pl, fw, tl);
    FallbackLookupsRest(pl, fw, tl);
    FixedNamesOfThree(tech, pl, fw, tl);
  }

  lemma FallbackOtherNames(pl: seq<string>, fw: seq<string>, tl: seq<string>)
    ensures OtherNames(FallbackTechnical(pl, fw, tl)) == []
  {
    var tech := FallbackTechnical(pl, fw, tl);
    assert tech[1..][1..][1..] == [];
    assert OtherNames(tech[1..][1..]) == [];
    assert OtherNames(tech[1..]) == [];
  }

  /**
   * A tree built from the keyword extraction has at most one top-level
   * child, `Technical Skills`, and its skills are the found keywords,
   * languages then frameworks then tools.
   */
  lemma FallbackTree(resumeText: string)
    ensures var t := Build(FallbackExtraction(resumeText));
      && |t.children| <= 1
      && (|t.children| == 1 ==> t.children[0].name == "Technical Skills")
      && SkillNames(t) == Found(Languages, Lower(resumeText)) + Found(Frameworks, Lower(resumeText)) + Found(Tools, Lower(resumeText))
  {
    var d := FallbackExtraction(resumeText);
    BuildTitles(d);
    BuildSkillNames(d);
    FallbackNames(Found(Languages, Lower(resumeText)), Found(Frameworks, Lower(resumeText)), Found(Tools, Lower(resumeText)));
    assert AllNames(d) == FixedNames(d.technical, 0) + OtherNames(d.technical) + [] + [] + [] + [];
  }

  /** The keyword lists have no repetitions, so neither do the lists the fallback reports. */
  lemma FallbackListsDistinct(resumeText: string)
    ensures forall c :: 0 <= c < 3 ==> Distinct(FallbackExtraction(resumeText).technical[c].1)
  {
    LanguagesDistinct();
    FrameworksDistinct();
    ToolsDistinct();
    FoundDistinct(Languages, Lower(resumeText));
    FoundDistinct(Frameworks, Lower(resumeText));
    FoundDistinct(Tools, Lower(resumeText));
  }

  /**
   * The key the generator uses: an explicitly passed non-empty key as is
   * (quotes and all), otherwise the environment's value with surrounding
   * quotes stripped the same way the backend strips them.
   */
  function ResolveApiKey(explicit: Option<string>, env: Option<string>): (r: Option<string>)
    ensures explicit.Some? && explicit.value != "" ==> r == explicit
    ensures !(explicit.Some? && explicit.value != "") && (env.None? || !StartsWithQuote(env.value)) ==> r == env
    ensures !(explicit.Some? && explicit.value != "") && env.Some? && StartsWithQuote(env.value) ==>
      && r.Some? && (exists i :: StrippedAt(env.value, Quotes, r.value, i))
      && !StartsWithQuote(r.value) && (|r.value| > 0 ==> r.value[|r.value| - 1] !in Quotes)
  {
    if explicit.Some? && explicit.value != "" then explicit else Unquote(env)
  }

  /** Only the environment's value is unquoted: the same quoted text is kept when passed explicitly. */
  lemma ExplicitKeyKeepsQuotes()
    ensures ResolveApiKey(Some("\"k\""), None) == Some("\"k\"")
    ensures ResolveApiKey(None, Some("\"k\"")) == Some("k")
  {
    QuotedK();
  }

  lemma QuotedK()
    ensures Unquote(Some("\"k\"")) == Some("k")
  {
    assert "\"k\"" == "\"" + "k" + "\"";
    UnquoteWrappedBy('"', "k");
  }

  /**
   * `generate_skill_tree` given the key and the model's parsed answer
   * (`None` when the call or the parse failed): the model's data with a key
   * and an answer, the keyword extraction otherwise.
   */
  function GenerateSkillTree(apiKey: Option<string>, resumeText: string, answer: Option<SkillData>): (r: Node)
    ensures r.name == "Skills" && r.kind == None
    ensures (apiKey.None? || apiKey.value == "" || answer.None?) ==> r == Build(FallbackExtraction(resumeText))
    ensures apiKey.Some? && apiKey.value != "" && answer.Some? ==> r == Build(answer.value)
  {
    var data := if apiKey.Some? && apiKey.value != "" && answer.Some? then answer.value else FallbackExtraction(resumeText);
    Build(data)
  }

  /** Without a key, the generated tree never has more than the technical category. */
  lemma NoKeyTree(resumeText: string, answer: Option<SkillData>)
    ensures |GenerateSkillTree(None, resumeText, answer).children| <= 1
  {
    FallbackTree(resumeText);
  }
}

=== FILE: session.dfy ===
/**
 * The front end's `state` object and the handlers that change it:
 * selecting a job and loading its skill tree, progress updates, the
 * transcript tick, the question panel, the resume upload, the recording
 * timer, the zoom buttons and the reset-layout button. Each of these is a
 * pure transition from one `State` to the next; what the network answered
 * is passed in as a parameter. Handlers that only touch the page (the job
 * list, the camera, the waveform, window resizing) are not modelled.
 */
module Session {
  import opened Wrappers
  import opened Text
  import opened SkillNode
  import opened Overlay
  import opened Progress
  import opened Questions
  import Backend

  /** The document the skill-tree endpoint returns: the root node and the fields the front end reads beside it. */
  datatype JobTree = JobTree(root: Node, jobTitle: Option<string>, location: Option<string>,
                             applicationUrl: Option<string>)

  datatype State = State(
    skillTree: Option<JobTree>,
    applicationUrl: Option<string>,
    candidateTree: Option<Node>,
    similarity: Option<SimilarityData>,
    progress: ProgressMap,
    questions: seq<Question>,
    generated: bool,
    history: seq<HistoryEntry>,
    /** `skillTreeViz`, the visualization instance, when one exists. */
    viz: Option<Viz>,
    recording: bool,
    recordingTime: nat,
    /** The texts of the transcript entries. */
    transcript: seq<string>,
    lastProcessed: nat)

  /** JavaScript truthiness of an optional string: missing and `""` are both false. */
  predicate Truthy(o: Option<string>) { o.Some? && o.value != "" }

  /** The page as it starts: nothing loaded, nothing recorded. */
  function Init(transcript: seq<string>): (s: State)
    ensures s.skillTree.None? && s.viz.None? && s.progress == map[] && s.questions == []
    ensures Synced(s)
  {
    State(None, None, None, None, map[], [], false, [], None, false, 0, transcript, 0)
  }

  /**
   * The state the handlers keep: every progress lies in [0, 100], the
   * zoom lies in its bounds, and whenever a job tree is loaded the
   * visualization shows that tree with the current candidate tree and
   * similarity data.
   */
  predicate Synced(s: State)
  {
    && AllInRange(s.progress)
    && (s.viz.Some? ==> ScaleInRange(s.viz.value.scale))
    && (s.skillTree.Some? ==>
          s.viz.Some? && s.viz.value == Update(s.viz.value, s.skillTree.value.root, s.candidateTree, s.similarity))
  }

  /** `renderSkillTree(tree)`: always a new visualization at the default zoom, then `update`. */
  function RenderTree(s: State, root: Node): (v: Viz)
    ensures v.tree == root && v.scale == DefaultZoom && ScaleInRange(v.scale)
    ensures v == Update(v, root, s.candidateTree, s.similarity)
  {
    UpdateFromScratch(NewViz(root), NewViz(root), root, s.candidateTree, s.similarity);
    Update(NewViz(root), root, s.candidateTree, s.similarity)
  }

  /** The resets shared by the three early exits of `loadSkillTree`; the visualization instance is not touched. */
  function Cleared(s: State): (r: State)
    ensures r.skillTree.None? && r.applicationUrl.None? && r.similarity.None?
    ensures r.progress == map[] && r.questions == [] && !r.generated
    ensures r.viz == s.viz && r.candidateTree == s.candidateTree && r.history == s.history
  {
    s.(skillTree := None, applicationUrl := None, progress := map[], similarity := None,
       generated := false, questions := [])
  }

  /**
   * `loadSkillTree(jobId)`: the argument, else the `job_id` URL parameter;
   * `fetched` is the parsed body of an OK response for that id, `None` for
   * a non-OK status or a thrown fetch.
   */
  function LoadSkillTree(s: State, arg: Option<string>, urlParam: Option<string>, fetched: Option<JobTree>): (r: State)
    ensures var id := if Truthy(arg) then arg else urlParam;
      !Truthy(id) || fetched.None? ==> r == Cleared(s)
    ensures var id := if Truthy(arg) then arg else urlParam;
      Truthy(id) && fetched.Some? ==>
        && r.skillTree == fetched
        && r.progress == FreshProgress(fetched.value.root)
        && r.similarity.None? && r.questions == [] && !r.generated
        && r.viz.Some? && r.viz.value.tree == fetched.value.root && r.viz.value.scale == DefaultZoom
        && r.candidateTree == s.candidateTree && r.history == s.history
        && (r.applicationUrl.Some? <==> Truthy(fetched.value.applicationUrl))
    ensures Synced(s) ==> Synced(r)
  {
    var id := if Truthy(arg) then arg else urlParam;
    if !Truthy(id) || fetched.None? then Cleared(s)
    else
      var t := fetched.value;
      var s1 := s.(skillTree := Some(t),
                   applicationUrl := if Truthy(t.applicationUrl) then t.applicationUrl else None,
                   progress := FreshProgress(t.root),
                   similarity := None,
                   generated := false,
                   questions := []);
      s1.(viz := Some(RenderTree(s1, t.root)))
  }

  /**
   * A click on a job in the list, the only caller of `loadSkillTree`: the
   * visualization instance is dropped first, then the job's tree is
   * loaded by its id. An empty id clears the session here, where
   * `loadSkillTree` would fall back to the page's `job_id` URL parameter
   * (static/js/app.js:260-263); the job list only holds jobs with a
   * non-empty id (app.py:122), so that case does not arise from a click.
   */
  function SelectJob(s: State, id: string, fetched: Option<JobTree>): (r: State)
    ensures id == "" || fetched.None? ==> r == Cleared(s).(viz := None)
    ensures id != "" && fetched.Some? ==>
      && r.skillTree == fetched && r.progress == FreshProgress(fetched.value.root)
      && r.viz.Some? && r.viz.value.tree == fetched.value.root && r.viz.value.scale == DefaultZoom
    ensures Synced(r)
  {
    var s0 := s.(viz := None);
    assert Cleared(s0) == Cleared(s).(viz := None);
    LoadSkillTree(s0, Some(id), None, fetched)
  }

  /**
   * The redraw after a progress change: the existing visualization
   * re-runs `update` on its own tree and keeps its zoom; without one, a
   * loaded tree gets a new visualization.
   */
  function Redraw(s: State): (r: Option<Viz>)
    ensures s.viz.Some? ==> r.Some? && r.value.tree == s.viz.value.tree && r.value.scale == s.viz.value.scale
    ensures s.viz.None? ==> (r.Some? <==> s.skillTree.Some?)
    ensures s.viz.None? && s.skillTree.Some? ==> r.value.scale == DefaultZoom
  {
    if s.viz.Some? then
      var v := s.viz.value;
      Some(Update(v, v.tree, s.candidateTree, s.similarity))
    else if s.skillTree.Some? then
      Some(RenderTree(s, s.skillTree.value.root))
    else None
  }

  /** `updateSkillProgress(name, p)`: the clamped value is stored and the tree redrawn. */
  function UpdateSkillProgress(s: State, name: string, p: int): (r: State)
    ensures r.progress.Keys == s.progress.Keys + {name}
    ensures r.progress[name] == Clamp(p)
    ensures forall k :: k in s.progress && k != name ==> r.progress[k] == s.progress[k]
    ensures r == s.(progress := r.progress, viz := r.viz)
    ensures s.viz.Some? ==> r.viz.Some? && r.viz.value.scale == s.viz.value.scale
    ensures Synced(s) ==> Synced(r)
  {
    var r := s.(progress := SetProgress(s.progress, name, p));
    if s.viz.Some? then
      var v := s.viz.value;
      UpdateFromScratch(v, v, v.tree, s.candidateTree, s.similarity);
      r.(viz := Redraw(r))
    else r.(viz := Redraw(r))
  }

  /** `incrementSkillProgress(name, amount)`; a missing entry counts as 0. */
  function IncrementSkillProgress(s: State, name: string, amount: int): (r: State)
    ensures r.progress == Increment(s.progress, name, amount)
    ensures r == s.(progress := r.progress, viz := r.viz)
    ensures Synced(s) ==> Synced(r)
  {
    UpdateSkillProgress(s, name, ProgressOf(s.progress, name) + amount)
  }

  /** The `updates.forEach(...)` loop at session level. */
  function IncrementAll(s: State, us: seq<(string, int)>): (r: State)
    ensures r.progress == ApplyUpdates(s.progress, us)
    ensures r == s.(progress := r.progress, viz := r.viz)
    ensures Synced(s) ==> Synced(r)
    decreases |us|
  {
    if |us| == 0 then s else IncrementAll(IncrementSkillProgress(s, us[0].0, us[0].1), us[1..])
  }

  /**
   * One `processTranscript` tick. New entries are marked processed at
   * once; `stillRecording` is the recording flag when the delayed callback
   * fires, and only then are the rules applied to the newest entry.
   */
  function ProcessTranscript(s: State, stillRecording: bool): (r: State)
    ensures !(|s.transcript| > s.lastProcessed && s.recording) ==> r == s
    ensures |s.transcript| > s.lastProcessed && s.recording ==>
      && r.lastProcessed == |s.transcript|
      && r.recording == stillRecording
      && (stillRecording ==>
            r.progress == ApplyUpdates(s.progress, TranscriptUpdates(s.transcript[|s.transcript| - 1])))
      && (!stillRecording ==> r.progress == s.progress)
      && r == s.(lastProcessed := r.lastProcessed, progress := r.progress, viz := r.viz, recording := r.recording)
    ensures Synced(s) ==> Synced(r)
  {
    if |s.transcript| > s.lastProcessed && s.recording then
      var s1 := s.(lastProcessed := |s.transcript|, recording := stillRecording);
      if stillRecording then IncrementAll(s1, TranscriptUpdates(s.transcript[|s.transcript| - 1]))
      else s1
    else s
  }

  /** `handleQuestionAction` on the session. */
  function QuestionAction(s: State, id: int, action: Action, stamp: int, time: string): (r: State)
    ensures var p := HandleAction(Panel(s.questions, s.history), id, action, stamp, time);
      r.questions == p.questions && r.history == p.history
    ensures r == s.(questions := r.questions, history := r.history)
    ensures Synced(s) ==> Synced(r)
  {
    var p := HandleAction(Panel(s.questions, s.history), id, action, stamp, time);
    s.(questions := p.questions, history := p.history)
  }

  /** The body of the question request. */
  datatype QuestionRequest = QuestionRequest(jobTitle: string, location: string, skills: string,
                                             jobTree: Node, candidateTree: Option<Node>)

  /**
   * The request `generateQuestionsFromSkillTree` posts: the title (default
   * `Software Engineer`), the location (default empty), and the first ten
   * skill names joined by `", "`.
   */
  function RequestFor(t: JobTree, candidate: Option<Node>): (r: QuestionRequest)
    ensures Truthy(t.jobTitle) ==> r.jobTitle == t.jobTitle.value
    ensures !Truthy(t.jobTitle) ==> r.jobTitle == "Software Engineer"
    ensures Truthy(t.location) ==> r.location == t.location.value
    ensures !Truthy(t.location) ==> r.location == ""
    ensures r.jobTree == t.root && r.candidateTree == candidate
    ensures r.skills == Join(Take(SkillNames(t.root), 10), ", ")
  {
    QuestionRequest(if Truthy(t.jobTitle) then t.jobTitle.value else "Software Engineer",
                    if Truthy(t.location) then t.location.value else "",
                    Join(Take(SkillNames(t.root), 10), ", "),
                    t.root, candidate)
  }

  /**
   * The request and the backend's fallback together: when the skill names
   * hold no comma and no surrounding whitespace, the fallback asks the
   * good-fit question for the request's title and one experience question
   * about each of the tree's first three skills, by name.
   */
  lemma RequestFallbackQuestions(t: JobTree, candidate: Option<Node>)
    requires |SkillNames(t.root)| >= 1 && SkillNames(t.root)[0] != ""
    requires forall i :: 0 <= i < |SkillNames(t.root)| ==>
      ',' !in SkillNames(t.root)[i] && Backend.Bare(SkillNames(t.root)[i])
    ensures var req := RequestFor(t, candidate);
      var q := Backend.FallbackQuestionTexts(Some(req.jobTitle), Some(req.skills));
      var names := SkillNames(t.root);
      && q[0] == Backend.GoodFitQuestion(req.jobTitle)
      && |q| == 5 + Backend.Min(3, |names|)
      && forall k :: 0 <= k < Backend.Min(3, |names|) ==> q[5 + k] == Backend.ExperienceQuestion(names[k])
  {
    var names := SkillNames(t.root);
    var ten := Take(names, 10);
    assert forall i :: 0 <= i < |ten| ==> ten[i] == names[i];
    Backend.FallbackAsksRequestedSkills(Some(RequestFor(t, candidate).jobTitle), ten);
  }

  /** `generateQuestionsFromSkillTree(state.skillTree)` given the reply; nothing happens without a tree. */
  function GenerateQuestions(s: State, reply: Reply): (r: State)
    ensures s.skillTree.None? ==> r == s
    ensures s.skillTree.Some? ==>
      r.generated && r.questions == Generate(SkillNames(s.skillTree.value.root), s.questions, reply)
    ensures r == s.(generated := r.generated, questions := r.questions)
    ensures Synced(s) ==> Synced(r)
  {
    if s.skillTree.None? then s
    else s.(generated := true, questions := Generate(SkillNames(s.skillTree.value.root), s.questions, reply))
  }

  /** What the panel shows for this state. */
  function QuestionView(s: State): View
  {
    PanelView(s.generated, s.questions, s.recording, s.recordingTime)
  }

  /** What the upload endpoint answered: `Some` when `success` and `skill_tree` are both truthy. */
  datatype Upload = Upload(tree: Node, similarity: Option<SimilarityData>)

  /**
   * The resume upload handler. A file whose MIME type is not PDF, or a
   * reply without success, changes no state; a success stores the
   * candidate tree and similarity data and redraws a loaded job tree in a
   * new visualization.
   */
  function ResumeUploaded(s: State, isPdf: bool, reply: Option<Upload>): (r: State)
    ensures !isPdf || reply.None? ==> r == s
    ensures isPdf && reply.Some? ==>
      && r.candidateTree == Some(reply.value.tree) && r.similarity == reply.value.similarity
      && (s.skillTree.Some? ==> r.viz.Some? && r.viz.value.scale == DefaultZoom)
      && (s.skillTree.None? ==> r.viz == s.viz)
      && r == s.(candidateTree := r.candidateTree, similarity := r.similarity, viz := r.viz)
    ensures Synced(s) ==> Synced(r)
  {
    if !isPdf || reply.None? then s
    else
      var s1 := s.(candidateTree := Some(reply.value.tree), similarity := reply.value.similarity);
      if s1.skillTree.Some? then s1.(viz := Some(RenderTree(s1, s1.skillTree.value.root))) else s1
  }

  /** The reset-layout button: progress back to the fresh map, zoom back to the default, tree redrawn. */
  function ResetLayout(s: State): (r: State)
    ensures !(s.viz.Some? && s.skillTree.Some?) ==> r == s
    ensures s.viz.Some? && s.skillTree.Some? ==>
      && r.progress == FreshProgress(s.skillTree.value.root)
      && r.viz.Some? && r.viz.value.scale == DefaultZoom && r.viz.value.tree == s.skillTree.value.root
      && r == s.(progress := r.progress, viz := r.viz)
    ensures Synced(s) ==> Synced(r)
  {
    if s.viz.Some? && s.skillTree.Some? then
      var root := s.skillTree.value.root;
      UpdateFromScratch(ResetZoom(s.viz.value), ResetZoom(s.viz.value), root, s.candidateTree, s.similarity);
      s.(progress := FreshProgress(root),
         viz := Some(Update(ResetZoom(s.viz.value), root, s.candidateTree, s.similarity)))
    else s
  }

  /** `startRecording`: the timer restarts from zero. */
  function StartRecording(s: State): (r: State)
    ensures r.recording && r.recordingTime == 0
    ensures Synced(s) ==> Synced(r)
  {
    s.(recording := true, recordingTime := 0)
  }

  function StopRecording(s: State): (r: State)
    ensures !r.recording
    ensures Synced(s) ==> Synced(r)
  {
    s.(recording := false)
  }

  /** One second of the recording interval: the time advances only while recording. */
  function Tick(s: State): (r: State)
    ensures r.recording == s.recording && r.recordingTime >= s.recordingTime
    ensures Synced(s) ==> Synced(r)
  {
    if s.recording then s.(recordingTime := s.recordingTime + 1) else s
  }

  /** `n` seconds of the recording interval. */
  function Ticks(s: State, n: nat): (r: State)
    decreases n
  {
    if n == 0 then s else Tick(Ticks(s, n - 1))
  }

  /** While recording, every tick adds one second and nothing else changes. */
  lemma {:induction false} TicksWhileRecording(s: State, n: nat)
    requires s.recording
    ensures Ticks(s, n) == s.(recordingTime := s.recordingTime + n)
    decreases n
  {
    if n > 0 {
      TicksWhileRecording(s, n - 1);
    }
  }

  /** `n` seconds after recording starts the timer reads `n`, whatever it read before. */
  lemma TimerCountsTicks(s: State, n: nat)
    ensures Ticks(StartRecording(s), n).recording
    ensures Ticks(StartRecording(s), n).recordingTime == n
    ensures Ticks(StartRecording(s), n) == s.(recording := true, recordingTime := n)
  {
    TicksWhileRecording(StartRecording(s), n);
  }

  /** Once recording stops, ticks no longer move the timer or anything else. */
  lemma {:induction false} StoppedTimerFrozen(s: State, n: nat)
    ensures Ticks(StopRecording(s), n) == StopRecording(s)
    decreases n
  {
    if n > 0 {
      StoppedTimerFrozen(s, n - 1);
    }
  }

  /** While recording, the question panel's timer shows the seconds since recording started as `m:ss`. */
  lemma TimerShown(s: State, n: nat)
    ensures var v := QuestionView(Ticks(StartRecording(s), n));
      v.Cards? ==> v.timer == Some(FormatTime(n))
  {
    TimerCountsTicks(s, n);
  }

  /** The zoom buttons act on the visualization only. */
  function ZoomInButton(s: State): (r: State)
    ensures r == s.(viz := r.viz) && (s.viz.None? <==> r.viz.None?)
    ensures Synced(s) ==> Synced(r)
  {
    if s.viz.Some? then
      var v := ZoomInViz(s.viz.value);
      s.(viz := Some(v))
    else s
  }

  function ZoomOutButton(s: State): (r: State)
    ensures r == s.(viz := r.viz) && (s.viz.None? <==> r.viz.None?)
    ensures Synced(s) ==> Synced(r)
  {
    if s.viz.Some? then
      var v := ZoomOutViz(s.viz.value);
      s.(viz := Some(v))
    else s
  }

  /**
   * In a synchronised session with a loaded tree, the colour of every node
   * of that tree depends on the current state only: matched and
   * candidate-only classes come from the similarity data or the candidate
   * tree, everything else from the progress map; the naive candidate-only
   * fallback never fires for a node of the loaded tree.
   */
  lemma SyncedColours(s: State, d: Node)
    requires Synced(s) && s.skillTree.Some? && d in Flatten(s.skillTree.value.root)
    ensures !HasCandidateOnly(s.similarity) ==> Classify(s.viz.value, s.progress, d) != CandidateOnly
    ensures s.candidateTree.None? && s.similarity.None? ==>
      Classify(s.viz.value, s.progress, d) == (if IsSkill(d) then ProgressFill(ProgressOf(s.progress, d.name)) else Neutral)
  {
    var root := s.skillTree.value.root;
    var v := s.viz.value;
    if !HasCandidateOnly(s.similarity) {
      CandidateOnlyFallbackUnreachable(v, root, s.candidateTree, s.similarity, s.progress, d);
    }
    if s.candidateTree.None? && s.similarity.None? && IsSkill(d) {
      NoCandidateMeansProgress(v, root, s.progress, d);
    }
  }

  /** After a successful load every skill node of the new tree is drawn as not started. */
  lemma LoadedTreeStartsBlank(s: State, arg: Option<string>, urlParam: Option<string>, t: JobTree, d: Node)
    requires Truthy(if Truthy(arg) then arg else urlParam)
    requires s.candidateTree.None?
    requires d in Flatten(t.root) && IsSkill(d)
    ensures var r := LoadSkillTree(s, arg, urlParam, Some(t));
      Classify(r.viz.value, r.progress, d) == NotStarted
  {
    var r := LoadSkillTree(s, arg, urlParam, Some(t));
    assert d.name in r.progress;
    NoCandidateMeansProgress(r.viz.value, t.root, r.progress, d);
  }

  /** Reset layout twice is reset layout once. */
  lemma ResetLayoutIdempotent(s: State)
    ensures ResetLayout(ResetLayout(s)) == ResetLayout(s)
  {
    if s.viz.Some? && s.skillTree.Some? {
      var root := s.skillTree.value.root;
      var v1 := Update(ResetZoom(s.viz.value), root, s.candidateTree, s.similarity);
      UpdateFromScratch(ResetZoom(v1), ResetZoom(s.viz.value), root, s.candidateTree, s.similarity);
    }
  }

  /**
   * After a job whose tree could not be loaded, no visualization exists,
   * and a progress update stores the value without drawing anything.
   */
  lemma FailedSelectionDrawsNothing(s: State, id: string, name: string, p: int)
    ensures SelectJob(s, id, None).viz.None? && SelectJob(s, id, None).skillTree.None?
    ensures var r := UpdateSkillProgress(SelectJob(s, id, None), name, p);
      r.skillTree.None? && r.viz.None? && r.progress == map[name := Clamp(p)]
  {
  }

  /**
   * A transcript tick on a recording session with the standard rule table:
   * each of React, TypeScript, CSS3 and JavaScript gains 20 (clamped) when
   * the newest entry mentions one of its keywords; no other entry moves.
   */
  lemma TranscriptTick(s: State, k: string)
    requires |s.transcript| > s.lastProcessed && s.recording
    ensures var r := ProcessTranscript(s, true);
      var text := s.transcript[|s.transcript| - 1];
      && (Raises(text, k) ==> ProgressOf(r.progress, k) == Clamp(ProgressOf(s.progress, k) + TranscriptIncrement))
      && (!Raises(text, k) ==> ProgressOf(r.progress, k) == ProgressOf(s.progress, k))
  {
    TranscriptEffect(s.progress, s.transcript[|s.transcript| - 1], k);
  }

  /** A tick whose delayed callback finds recording stopped only marks the entries processed. */
  lemma TickAfterStop(s: State)
    requires |s.transcript| > s.lastProcessed && s.recording
    ensures ProcessTranscript(s, false) == s.(lastProcessed := |s.transcript|, recording := false)
  {
  }

  /** A second tick with no new entry changes nothing. */
  lemma TranscriptProcessedOnce(s: State, stillRecording: bool, again: bool)
    ensures var r := ProcessTranscript(s, stillRecording);
      ProcessTranscript(r, again) == r
  {
  }
}

=== FILE: skill_node.dfy ===
/**
 * The skill tree shared by the browser and the backend, and the three ways
 * the code flattens it into skill names:
 *  - `extractSkills` in the visualization: a set of lower-cased names;
 *  - `extract_skills_from_tree` in the backend: a pre-order list of
 *    lower-cased names, duplicates kept;
 *  - the inner `extractSkills` of the question generator: a pre-order list
 *    of names as written.
 * Each is defined as the source computes it (recursively, node then
 * children) and proved equal to a reference built from `Flatten`.
 */
module SkillNode {
  import opened Wrappers
  import opened Text

  /** The JSON `type` values the code tests for; any other value behaves like a missing type. */
  datatype Kind = Skill | Requirement

  /** A tree node: `kind == None` is an organisational group node. */
  datatype Node = Node(name: string, kind: Option<Kind>, children: seq<Node>)

  /** `type === 'skill' || type === 'requirement'`. */
  predicate IsSkill(n: Node)
  {
    n.kind == Some(Skill) || n.kind == Some(Requirement)
  }

  /** Every node of the tree in pre-order; the reference enumeration. */
  function Flatten(n: Node): (r: seq<Node>)
    ensures |r| >= 1 && r[0] == n
  {
    [n] + FlattenAll(n.children)
  }

  function FlattenAll(ns: seq<Node>): seq<Node>
  {
    if |ns| == 0 then [] else Flatten(ns[0]) + FlattenAll(ns[1..])
  }

  /** The skill and requirement nodes of `ns`, in order. */
  function SkillsOf(ns: seq<Node>): (r: seq<Node>)
    ensures forall d :: d in r <==> d in ns && IsSkill(d)
  {
    if |ns| == 0 then [] else (if IsSkill(ns[0]) then [ns[0]] else []) + SkillsOf(ns[1..])
  }

  function NamesOf(ns: seq<Node>): (r: seq<string>)
    ensures |r| == |ns|
  {
    seq(|ns|, i requires 0 <= i < |ns| => ns[i].name)
  }

  function LowerAll(ss: seq<string>): (r: seq<string>)
    ensures |r| == |ss|
  {
    seq(|ss|, i requires 0 <= i < |ss| => Lower(ss[i]))
  }

  function Elems(ss: seq<string>): set<string>
  {
    set x | x in ss
  }

  lemma SkillsOfAppend(a: seq<Node>, b: seq<Node>)
    ensures SkillsOf(a + b) == SkillsOf(a) + SkillsOf(b)
  {
    if |a| > 0 {
      assert (a + b)[1..] == a[1..] + b;
      SkillsOfAppend(a[1..], b);
    } else {
      assert a + b == b;
    }
  }

  /** The question generator's inner `extractSkills`: names as written, pre-order. */
  function SkillNames(n: Node): seq<string>
  {
    (if IsSkill(n) then [n.name] else []) + SkillNamesAll(n.children)
  }

  function SkillNamesAll(ns: seq<Node>): seq<string>
  {
    if |ns| == 0 then [] else SkillNames(ns[0]) + SkillNamesAll(ns[1..])
  }

  /** `extract_skills_from_tree`: lower-cased names of skill nodes, pre-order, duplicates kept. */
  function ExtractList(n: Node): seq<string>
  {
    (if IsSkill(n) then [Lower(n.name)] else []) + ExtractListAll(n.children)
  }

  function ExtractListAll(ns: seq<Node>): seq<string>
  {
    if |ns| == 0 then [] else ExtractList(ns[0]) + ExtractListAll(ns[1..])
  }

  /** The visualization's `extractSkills`: the set of lower-cased skill names. */
  function ExtractSet(n: Node): set<string>
  {
    (if IsSkill(n) then {Lower(n.name)} else {}) + ExtractSetAll(n.children)
  }

  function ExtractSetAll(ns: seq<Node>): set<string>
  {
    if |ns| == 0 then {} else ExtractSet(ns[0]) + ExtractSetAll(ns[1..])
  }

  /**
   * The names the question generator collects are exactly the names of the
   * skill and requirement nodes, in pre-order; group nodes are walked but
   * never contribute.
   */
  lemma {:induction false} SkillNamesSpec(n: Node)
    ensures SkillNames(n) == NamesOf(SkillsOf(Flatten(n)))
  {
    SkillNamesAllSpec(n.children);
    SkillsOfAppend([n], FlattenAll(n.children));
  }

  lemma {:induction false} SkillNamesAllSpec(ns: seq<Node>)
    ensures SkillNamesAll(ns) == NamesOf(SkillsOf(FlattenAll(ns)))
  {
    if |ns| > 0 {
      SkillNamesSpec(ns[0]);
      SkillNamesAllSpec(ns[1..]);
      SkillsOfAppend(Flatten(ns[0]), FlattenAll(ns[1..]));
    }
  }

  /** The backend's list is the question generator's list, lower-cased element by element. */
  lemma {:induction false} ExtractListSpec(n: Node)
    ensures ExtractList(n) == LowerAll(SkillNames(n))
  {
    ExtractListAllSpec(n.children);
  }

  lemma {:induction false} ExtractListAllSpec(ns: seq<Node>)
    ensures ExtractListAll(ns) == LowerAll(SkillNamesAll(ns))
  {
    if |ns| > 0 {
      ExtractListSpec(ns[0]);
      ExtractListAllSpec(ns[1..]);
    }
  }

  /** The visualization's set holds exactly the elements of the backend's list. */
  lemma {:induction false} ExtractSetSpec(n: Node)
    ensures ExtractSet(n) == Elems(ExtractList(n))
  {
    ExtractSetAllSpec(n.children);
  }

  lemma {:induction false} ExtractSetAllSpec(ns: seq<Node>)
    ensures ExtractSetAll(ns) == Elems(ExtractListAll(ns))
  {
    if |ns| > 0 {
      ExtractSetSpec(ns[0]);
      ExtractSetAllSpec(ns[1..]);
    }
  }

  /**
   * `extractSkills` membership: a string is in the set iff it is the
   * lower-cased name of some skill or requirement node at any depth.
   */
  lemma ExtractSetMembers(t: Node, x: string)
    ensures x in ExtractSet(t) <==> exists d :: d in Flatten(t) && IsSkill(d) && Lower(d.name) == x
  {
    ExtractSetSpec(t);
    ExtractListSpec(t);
    SkillNamesSpec(t);
    LowerNamesMember(SkillsOf(Flatten(t)), x);
  }

  /** A string is among the lower-cased names exactly when some node's name lowers to it. */
  lemma LowerNamesMember(ns: seq<Node>, x: string)
    ensures x in LowerAll(NamesOf(ns)) <==> exists d :: d in ns && Lower(d.name) == x
  {
    var l := LowerAll(NamesOf(ns));
    if x in l {
      var i :| 0 <= i < |l| && l[i] == x;
      assert ns[i] in ns && Lower(ns[i].name) == x;
    }
    if exists d :: d in ns && Lower(d.name) == x {
      var d :| d in ns && Lower(d.name) == x;
      var i :| 0 <= i < |ns| && ns[i] == d;
      assert l[i] == x;
    }
  }

  /** `ExtractSetMembers` for every string at once. */
  lemma ExtractSetAllMembers(t: Node)
    ensures forall x :: x in ExtractSet(t) <==> exists d :: d in Flatten(t) && IsSkill(d) && Lower(d.name) == x
  {
    forall x {
      ExtractSetMembers(t, x);
    }
  }

  /** Every skill node of a tree is found by `extractSkills` on that tree. */
  lemma SkillNodeExtracted(t: Node, d: Node)
    requires d in Flatten(t) && IsSkill(d)
    ensures Lower(d.name) in ExtractSet(t)
  {
    ExtractSetMembers(t, Lower(d.name));
  }
}

=== FILE: text.dfy ===
/**
 * String helpers shared by the JavaScript and the Python sides: ASCII case
 * mapping (`toLowerCase()` / `lower()` / `title()`), substring tests (`in`,
 * `includes`), whitespace and character-set stripping (`strip`), splitting
 * and joining on a separator, and decimal rendering of naturals.
 */
module Text {

  /** The ASCII characters among those Python's `str.isspace()` accepts and `strip()` removes; its non-ASCII whitespace is not modelled. */
  const Whitespace: set<char> := {' ', '\t', '\n', '\r', '\U{000B}', '\U{000C}', '\U{001C}', '\U{001D}', '\U{001E}', '\U{001F}'}

  predicate IsUpper(c: char) { 'A' <= c <= 'Z' }

  predicate IsLowerLetter(c: char) { 'a' <= c <= 'z' }

  /** A character with case, in the ASCII model of case. */
  predicate IsCased(c: char) { IsUpper(c) || IsLowerLetter(c) }

  function LowerChar(c: char): char
  {
    if IsUpper(c) then (c as int + 32) as char else c
  }

  function UpperChar(c: char): char
  {
    if IsLowerLetter(c) then (c as int - 32) as char else c
  }

  /** `s.toLowerCase()` / `s.lower()` restricted to ASCII. */
  function Lower(s: string): (r: string)
    ensures |r| == |s|
    ensures forall i :: 0 <= i < |s| ==> r[i] == LowerChar(s[i])
  {
    seq(|s|, i requires 0 <= i < |s| => LowerChar(s[i]))
  }

  lemma LowerIdempotent(s: string)
    ensures Lower(Lower(s)) == Lower(s)
  {
  }

  lemma LowerAppend(a: string, b: string)
    ensures Lower(a + b) == Lower(a) + Lower(b)
  {
  }

  predicate StartsWith(s: string, prefix: string)
  {
    |prefix| <= |s| && s[..|prefix|] == prefix
  }

  /** `sub` occurs in `s` starting at index `i`. */
  predicate OccursAt(s: string, sub: string, i: int)
  {
    0 <= i <= |s| - |sub| && s[i..i + |sub|] == sub
  }

  /** Python's `sub in s` and JavaScript's `s.includes(sub)`. */
  predicate Contains(s: string, sub: string)
  {
    exists i :: 0 <= i <= |s| && OccursAt(s, sub, i)
  }

  /** Every string contains itself, and the substring relation is transitive. */
  lemma ContainsTransitive(a: string, b: string, c: string)
    requires Contains(a, b) && Contains(b, c)
    ensures Contains(a, c)
  {
    var i :| 0 <= i <= |a| && OccursAt(a, b, i);
    var j :| 0 <= j <= |b| && OccursAt(b, c, j);
    assert 0 <= i <= |a| - |b| && a[i..i + |b|] == b;
    assert 0 <= j <= |b| - |c| && b[j..j + |c|] == c;
    forall k | 0 <= k < |c|
      ensures a[i + j + k] == c[k]
    {
      assert b[j + k] == c[k];
      assert a[i + (j + k)] == b[j + k];
    }
    assert a[i + j..i + j + |c|] == c;
    assert OccursAt(a, c, i + j);
  }

  /** A substring test survives lowercasing both sides. */
  lemma ContainsLower(s: string, sub: string)
    requires Contains(s, sub)
    ensures Contains(Lower(s), Lower(sub))
  {
    var i :| 0 <= i <= |s| && OccursAt(s, sub, i);
    assert 0 <= i <= |s| - |sub| && s[i..i + |sub|] == sub;
    assert Lower(s)[i..i + |sub|] == Lower(sub);
    assert OccursAt(Lower(s), Lower(sub), i);
  }

  /** No string occurs twice. */
  predicate Distinct(ss: seq<string>)
  {
    forall i, j :: 0 <= i < j < |ss| ==> ss[i] != ss[j]
  }

  lemma DistinctTail(ss: seq<string>)
    requires |ss| > 0 && Distinct(ss)
    ensures Distinct(ss[1..])
  {
    forall i, j | 0 <= i < j < |ss| - 1
      ensures ss[1..][i] != ss[1..][j]
    {
      assert ss[1..][i] == ss[i + 1] && ss[1..][j] == ss[j + 1];
    }
  }

  lemma DistinctHead(ss: seq<string>)
    requires |ss| > 0 && Distinct(ss)
    ensures ss[0] !in ss[1..]
  {
    forall j | 0 <= j < |ss| - 1
      ensures ss[1..][j] != ss[0]
    {
      assert ss[1..][j] == ss[j + 1];
    }
  }

  /** `r` is `s` without a prefix of characters from `cs`, and does not start with one. */
  predicate LeftTrimmed(s: string, cs: set<char>, r: string)
  {
    && |r| <= |s| && r == s[|s| - |r|..]
    && (forall k :: 0 <= k < |s| - |r| ==> s[k] in cs)
    && (|r| > 0 ==> r[0] !in cs)
  }

  /** `r` is `s` without a suffix of characters from `cs`, and does not end with one. */
  predicate RightTrimmed(s: string, cs: set<char>, r: string)
  {
    && |r| <= |s| && r == s[..|r|]
    && (forall k :: |r| <= k < |s| ==> s[k] in cs)
    && (|r| > 0 ==> r[|r| - 1] !in cs)
  }

  /** Removes leading characters of `cs`. */
  function TrimLeft(s: string, cs: set<char>): (r: string)
    ensures LeftTrimmed(s, cs, r)
    decreases |s|
  {
    if |s| > 0 && s[0] in cs then TrimLeft(s[1..], cs) else s
  }

  /** Removes trailing characters of `cs`. */
  function TrimRight(s: string, cs: set<char>): (r: string)
    ensures RightTrimmed(s, cs, r)
    decreases |s|
  {
    if |s| > 0 && s[|s| - 1] in cs then TrimRight(s[..|s| - 1], cs) else s
  }

  /** `r` is the infix of `s` at `i`, and everything around it is from `cs`. */
  predicate StrippedAt(s: string, cs: set<char>, r: string, i: int)
  {
    && 0 <= i <= |s| - |r| && r == s[i..i + |r|]
    && (forall k :: 0 <= k < i ==> s[k] in cs)
    && (forall k :: i + |r| <= k < |s| ==> s[k] in cs)
  }

  /**
   * Python's `s.strip(chars)`: the longest infix of `s` that neither starts
   * nor ends with a character of `cs`, everything cut off being from `cs`.
   */
  function StripSet(s: string, cs: set<char>): (r: string)
    ensures exists i :: StrippedAt(s, cs, r, i)
    ensures |r| > 0 ==> r[0] !in cs && r[|r| - 1] !in cs
  {
    var left := TrimLeft(s, cs);
    StrippedInside(s, cs, left, TrimRight(left, cs));
    TrimRight(left, cs)
  }

  /** Cutting a prefix and then a suffix of characters from `cs` leaves a stripped infix. */
  lemma StrippedInside(s: string, cs: set<char>, left: string, r: string)
    requires LeftTrimmed(s, cs, left) && RightTrimmed(left, cs, r)
    ensures StrippedAt(s, cs, r, |s| - |left|)
  {
    var i := |s| - |left|;
    assert r == s[i..i + |r|];
    forall k | i + |r| <= k < |s|
      ensures s[k] in cs
    {
      assert s[k] == left[k - i];
    }
  }

  /** Python's argument-less `s.strip()`. */
  function Strip(s: string): string
  {
    StripSet(s, Whitespace)
  }

  /** A string with neither leading nor trailing characters of `cs` strips to itself. */
  lemma StripSetNoop(s: string, cs: set<char>)
    requires |s| > 0 ==> s[0] !in cs && s[|s| - 1] !in cs
    ensures StripSet(s, cs) == s
  {
  }

  /** Python's `s.split(sep)` for a one-character separator: never empty, no piece holds `sep`. */
  function Split(s: string, sep: char): (r: seq<string>)
    ensures |r| >= 1
    ensures forall i :: 0 <= i < |r| ==> sep !in r[i]
    decreases |s|
  {
    if |s| == 0 then [""]
    else
      var rest := Split(s[1..], sep);
      if s[0] == sep then [""] + rest
      else [[s[0]] + rest[0]] + rest[1..]
  }

  /** Python's `sep.join(parts)` and JavaScript's `parts.join(sep)`. */
  function Join(parts: seq<string>, sep: string): string
  {
    if |parts| == 0 then ""
    else if |parts| == 1 then parts[0]
    else parts[0] + sep + Join(parts[1..], sep)
  }

  /** Joining the pieces of a split with the same separator gives back the string. */
  lemma {:induction false} JoinSplit(s: string, sep: char)
    ensures Join(Split(s, sep), [sep]) == s
    decreases |s|
  {
    if |s| > 0 {
      var rest := Split(s[1..], sep);
      JoinSplit(s[1..], sep);
      if s[0] != sep && |rest| > 1 {
        assert Split(s, sep)[1..] == rest[1..];
      }
    }
  }

  /** Splitting a prefix free of `sep` glues it onto the first piece of the remainder. */
  lemma {:induction false} SplitSepFreePrefix(a: string, t: string, sep: char)
    requires sep !in a
    ensures Split(a + t, sep) == [a + Split(t, sep)[0]] + Split(t, sep)[1..]
    decreases |a|
  {
    if |a| > 0 {
      assert (a + t)[1..] == a[1..] + t;
      SplitSepFreePrefix(a[1..], t, sep);
      assert [a[0]] + (a[1..] + Split(t, sep)[0]) == a + Split(t, sep)[0];
    } else {
      assert a + t == t;
      assert a + Split(t, sep)[0] == Split(t, sep)[0];
    }
  }

  /** Splitting a join of `sep`-free pieces gives the pieces back. */
  lemma {:induction false} SplitJoin(parts: seq<string>, sep: char)
    requires |parts| >= 1
    requires forall i :: 0 <= i < |parts| ==> sep !in parts[i]
    ensures Split(Join(parts, [sep]), sep) == parts
    decreases |parts|
  {
    if |parts| == 1 {
      SplitSepFreePrefix(parts[0], "", sep);
      assert parts[0] + "" == parts[0];
    } else {
      var tail := Join(parts[1..], [sep]);
      SplitJoin(parts[1..], sep);
      assert ([sep] + tail)[1..] == tail;
      assert Split([sep] + tail, sep) == [""] + parts[1..];
      assert Join(parts, [sep]) == parts[0] + ([sep] + tail);
      SplitSepFreePrefix(parts[0], [sep] + tail, sep);
      assert parts[0] + "" == parts[0];
    }
  }

  /** `s.replace(old, new)` for single characters. */
  function ReplaceChar(s: string, from: char, to: char): (r: string)
    ensures |r| == |s|
    ensures forall i :: 0 <= i < |s| ==> r[i] == (if s[i] == from then to else s[i])
  {
    seq(|s|, i requires 0 <= i < |s| => if s[i] == from then to else s[i])
  }

  /**
   * Python's `s.title()` in ASCII: a cased character is upper-cased when the
   * character before it is not cased, lower-cased otherwise.
   */
  function TitleCaseFrom(s: string, afterCased: bool): (r: string)
    ensures |r| == |s|
    decreases |s|
  {
    if |s| == 0 then ""
    else if IsCased(s[0]) then
      [if afterCased then LowerChar(s[0]) else UpperChar(s[0])] + TitleCaseFrom(s[1..], true)
    else [s[0]] + TitleCaseFrom(s[1..], false)
  }

  function TitleCase(s: string): string
  {
    TitleCaseFrom(s, false)
  }

  predicate IsDigit(c: char) { '0' <= c <= '9' }

  predicate AllDigits(s: string) { forall i :: 0 <= i < |s| ==> IsDigit(s[i]) }

  function DigitChar(d: nat): (c: char)
    requires d < 10
    ensures IsDigit(c)
  {
    ('0' as int + d) as char
  }

  function DigitValue(c: char): nat
    requires IsDigit(c)
  {
    c as int - '0' as int
  }

  /** JavaScript's `String(n)` / `n.toString()` for a natural number. */
  function NatToString(n: nat): string
    decreases n
  {
    if n < 10 then [DigitChar(n)] else NatToString(n / 10) + [DigitChar(n % 10)]
  }

  /** The value of a string of decimal digits; the independent reading of NatToString. */
  function ParseNat(s: string): nat
    requires AllDigits(s)
    decreases |s|
  {
    if |s| == 0 then 0 else ParseNat(s[..|s| - 1]) * 10 + DigitValue(s[|s| - 1])
  }

  /** Decimal rendering is non-empty, all digits, and parses back to the number. */
  lemma {:induction false} NatToStringRoundTrip(n: nat)
    ensures |NatToString(n)| >= 1 && AllDigits(NatToString(n))
    ensures ParseNat(NatToString(n)) == n
    decreases n
  {
    var s := NatToString(n);
    if n >= 10 {
      NatToStringRoundTrip(n / 10);
      assert s[..|s| - 1] == NatToString(n / 10);
    }
  }
}

=== FILE: tree.dfy ===
/**
 * Building a skill tree from categorised skill lists (`build_skill_tree`)
 * and rendering a tree as nested HTML (`_render_tree_html`), both from
 * `skill_tree_common.py`.
 */
module SkillTree {
  import opened Wrappers
  import opened Text
  import opened SkillNode

  /** A JSON object whose values are lists of names, keys in insertion order. */
  type Categories = seq<(string, seq<string>)>

  /**
   * The `skills` part of the extracted data: the `technical` object and the
   * four top-level lists, each empty when absent.
   */
  datatype SkillData = SkillData(technical: Categories, soft: seq<string>, domains: seq<string>,
                                 certifications: seq<string>, methodologies: seq<string>)

  // ---------------------------------------------------------------------
  // build_skill_tree
  // ---------------------------------------------------------------------

  function Leaf(name: string): Node
  {
    Node(name, Some(Skill), [])
  }

  function Leaves(names: seq<string>): (r: seq<Node>)
    ensures |r| == |names|
    ensures forall i :: 0 <= i < |r| ==> r[i] == Leaf(names[i])
  {
    seq(|names|, i requires 0 <= i < |names| => Leaf(names[i]))
  }

  /** A group node holding one `skill` leaf per name, in list order. */
  function Category(title: string, names: seq<string>): Node
  {
    Node(title, None, Leaves(names))
  }

  /** `if names:` — a category node for a non-empty list, nothing otherwise. */
  function Optional(title: string, names: seq<string>): (r: seq<Node>)
    ensures |r| <= 1
  {
    if names == [] then [] else [Category(title, names)]
  }

  /** `technical.get(key)`: the list under the first entry with that key, empty when there is none. */
  function Lookup(cats: Categories, key: string): (r: seq<string>)
    ensures (forall i :: 0 <= i < |cats| ==> cats[i].0 != key) ==> r == []
    ensures r != [] ==> exists i :: 0 <= i < |cats| && cats[i] == (key, r)
  {
    if |cats| == 0 then []
    else if cats[0].0 == key then cats[0].1
    else Lookup(cats[1..], key)
  }

  /** The first entry with the key decides: its list is the answer, whatever follows. */
  lemma {:induction false} LookupFirst(cats: Categories, key: string, i: nat)
    requires i < |cats| && cats[i].0 == key
    requires forall j :: 0 <= j < i ==> cats[j].0 != key
    ensures Lookup(cats, key) == cats[i].1
    decreases i
  {
    if i > 0 {
      LookupFirst(cats[1..], key, i - 1);
    }
  }

  /** The technical keys with a place of their own, and the titles they get, in order. */
  const FixedKeys: seq<string> := ["programming_languages", "frameworks", "tools", "databases", "cloud_platforms"]
  const FixedTitles: seq<string> := ["Programming Languages", "Frameworks", "Tools", "Databases", "Cloud Platforms"]

  /** The categories of the fixed keys from the `k`-th on. */
  function FixedFrom(tech: Categories, k: nat): (r: seq<Node>)
    requires k <= |FixedKeys|
    ensures |r| <= |FixedKeys| - k
    decreases |FixedKeys| - k
  {
    if k == |FixedKeys| then []
    else Optional(FixedTitles[k], Lookup(tech, FixedKeys[k])) + FixedFrom(tech, k + 1)
  }

  /** `key.replace("_", " ").title()` */
  function DisplayName(key: string): (r: string)
    ensures |r| == |key|
  {
    TitleCase(ReplaceChar(key, '_', ' '))
  }

  /** The other technical keys with a non-empty list, in key order, titled from the key. */
  function OtherCategories(tech: Categories): (r: seq<Node>)
    ensures forall c :: c in r <==>
      exists i :: 0 <= i < |tech| && tech[i].0 !in FixedKeys && tech[i].1 != [] &&
        c == Category(DisplayName(tech[i].0), tech[i].1)
  {
    if |tech| == 0 then []
    else
      var head := if tech[0].0 !in FixedKeys && tech[0].1 != [] then [Category(DisplayName(tech[0].0), tech[0].1)] else [];
      var rest := OtherCategories(tech[1..]);
      assert forall i :: 0 <= i < |tech[1..]| ==> tech[1..][i] == tech[i + 1];
      head + rest
  }

  function TechnicalChildren(tech: Categories): seq<Node>
  {
    FixedFrom(tech, 0) + OtherCategories(tech)
  }

  /** The `Technical Skills` node, present only when some sub-category produced a child. */
  function TechnicalPart(tech: Categories): (r: seq<Node>)
    ensures |r| <= 1
  {
    var children := TechnicalChildren(tech);
    if children == [] then [] else [Node("Technical Skills", None, children)]
  }

  /** `build_skill_tree` */
  function Build(d: SkillData): Node
  {
    Node("Skills", None,
      TechnicalPart(d.technical)
      + Optional("Soft Skills", d.soft)
      + Optional("Domain Expertise", d.domains)
      + Optional("Certifications", d.certifications)
      + Optional("Methodologies & Techniques", d.methodologies))
  }

  // ---------------------------------------------------------------------
  // The reference: every name of the data, in category order
  // ---------------------------------------------------------------------

  function FixedNames(tech: Categories, k: nat): seq<string>
    requires k <= |FixedKeys|
    decreases |FixedKeys| - k
  {
    if k == |FixedKeys| then [] else Lookup(tech, FixedKeys[k]) + FixedNames(tech, k + 1)
  }

  lemma FixedNamesStep(tech: Categories, k: nat)
    requires k < |FixedKeys|
    ensures FixedNames(tech, k) == Lookup(tech, FixedKeys[k]) + FixedNames(tech, k + 1)
  {
  }

  /** With only the first three fixed keys filled, the fixed names are those three lists in order. */
  lemma FixedNamesOfThree(tech: Categories, a: seq<string>, b: seq<string>, c: seq<string>)
    requires Lookup(tech, FixedKeys[0]) == a && Lookup(tech, FixedKeys[1]) == b && Lookup(tech, FixedKeys[2]) == c
    requires Lookup(tech, FixedKeys[3]) == [] && Lookup(tech, FixedKeys[4]) == []
    ensures FixedNames(tech, 0) == a + b + c
  {
    FixedNamesStep(tech, 0);
    FixedNamesStep(tech, 1);
    FixedNamesStep(tech, 2);
    FixedNamesStep(tech, 3);
    FixedNamesStep(tech, 4);
    ChainOfThree(a, b, c, FixedNames(tech, 0), FixedNames(tech, 1), FixedNames(tech, 2),
                 FixedNames(tech, 3), FixedNames(tech, 4), FixedNames(tech, 5));
  }

  /** A chain of five prefixes whose last two are empty adds up to the first three. */
  lemma ChainOfThree<T>(a: seq<T>, b: seq<T>, c: seq<T>, x0: seq<T>, x1: seq<T>, x2: seq<T>,
                        x3: seq<T>, x4: seq<T>, x5: seq<T>)
    requires x5 == [] && x4 == [] + x5 && x3 == [] + x4
    requires x2 == c + x3 && x1 == b + x2 && x0 == a + x1
    ensures x0 == a + b + c
  {
    assert x2 == c;
    assert a + (b + c) == a + b + c;
  }

  function OtherNames(tech: Categories): seq<string>
  {
    if |tech| == 0 then []
    else (if tech[0].0 !in FixedKeys then tech[0].1 else []) + OtherNames(tech[1..])
  }

  /** The fixed technical lists, the other technical lists, then soft skills, domains, certifications and methodologies. */
  function AllNames(d: SkillData): seq<string>
  {
    FixedNames(d.technical, 0) + OtherNames(d.technical)
    + d.soft + d.domains + d.certifications + d.methodologies
  }

  // ---------------------------------------------------------------------
  // Round trip: extracting from a built tree gives back the lists
  // ---------------------------------------------------------------------

  lemma {:induction false} SkillNamesAllAppend(a: seq<Node>, b: seq<Node>)
    ensures SkillNamesAll(a + b) == SkillNamesAll(a) + SkillNamesAll(b)
    decreases |a|
  {
    if |a| > 0 {
      assert (a + b)[1..] == a[1..] + b;
      SkillNamesAllAppend(a[1..], b);
    } else {
      assert a + b == b;
    }
  }

  lemma {:induction false} SkillNamesLeaves(names: seq<string>)
    ensures SkillNamesAll(Leaves(names)) == names
    decreases |names|
  {
    if |names| > 0 {
      SkillNamesLeaves(names[1..]);
      assert Leaves(names)[1..] == Leaves(names[1..]);
      assert SkillNames(Leaf(names[0])) == [names[0]];
    }
  }

  lemma SkillNamesOptional(title: string, names: seq<string>)
    ensures SkillNamesAll(Optional(title, names)) == names
  {
    if names != [] {
      SkillNamesLeaves(names);
      assert Optional(title, names)[1..] == [];
    }
  }

  lemma {:induction false} SkillNamesFixed(tech: Categories, k: nat)
    requires k <= |FixedKeys|
    ensures SkillNamesAll(FixedFrom(tech, k)) == FixedNames(tech, k)
    decreases |FixedKeys| - k
  {
    if k < |FixedKeys| {
      SkillNamesFixed(tech, k + 1);
      SkillNamesOptional(FixedTitles[k], Lookup(tech, FixedKeys[k]));
      SkillNamesAllAppend(Optional(FixedTitles[k], Lookup(tech, FixedKeys[k])), FixedFrom(tech, k + 1));
    }
  }

  lemma {:induction false} SkillNamesOthers(tech: Categories)
    ensures SkillNamesAll(OtherCategories(tech)) == OtherNames(tech)
    decreases |tech|
  {
    if |tech| > 0 {
      SkillNamesOthers(tech[1..]);
      var key := tech[0].0;
      var head := if key !in FixedKeys && tech[0].1 != [] then [Category(DisplayName(key), tech[0].1)] else [];
      assert OtherCategories(tech) == head + OtherCategories(tech[1..]);
      SkillNamesOptional(DisplayName(key), tech[0].1);
      assert SkillNamesAll(head) == (if key !in FixedKeys then tech[0].1 else []);
      SkillNamesAllAppend(head, OtherCategories(tech[1..]));
    }
  }

  lemma SkillNamesTechnical(tech: Categories)
    ensures SkillNamesAll(TechnicalPart(tech)) == FixedNames(tech, 0) + OtherNames(tech)
  {
    SkillNamesFixed(tech, 0);
    SkillNamesOthers(tech);
    SkillNamesAllAppend(FixedFrom(tech, 0), OtherCategories(tech));
    if TechnicalChildren(tech) != [] {
      assert TechnicalPart(tech)[1..] == [];
    }
  }

  /** The names the question generator collects from a built tree are the data's names, in category order. */
  lemma BuildSkillNames(d: SkillData)
    ensures SkillNames(Build(d)) == AllNames(d)
  {
    var t := TechnicalPart(d.technical);
    var s := Optional("Soft Skills", d.soft);
    var m := Optional("Domain Expertise", d.domains);
    var c := Optional("Certifications", d.certifications);
    var g := Optional("Methodologies & Techniques", d.methodologies);
    SkillNamesTechnical(d.technical);
    SkillNamesOptional("Soft Skills", d.soft);
    SkillNamesOptional("Domain Expertise", d.domains);
    SkillNamesOptional("Certifications", d.certifications);
    SkillNamesOptional("Methodologies & Techniques", d.methodologies);
    SkillNamesAllAppend(t, s);
    SkillNamesAllAppend(t + s, m);
    SkillNamesAllAppend(t + s + m, c);
    SkillNamesAllAppend(t + s + m + c, g);
  }

  /**
   * `extract_skills_from_tree(build_skill_tree(d))` is the lower-cased
   * concatenation of the data's lists in category order.
   */
  lemma BuildExtractRoundTrip(d: SkillData)
    ensures ExtractList(Build(d)) == LowerAll(AllNames(d))
  {
    BuildSkillNames(d);
    ExtractListSpec(Build(d));
  }

  // ---------------------------------------------------------------------
  // Shape of a built tree
  // ---------------------------------------------------------------------

  /** `xs` can be obtained from `ys` by deleting elements. */
  predicate IsSubsequence<T(==)>(xs: seq<T>, ys: seq<T>)
    decreases |ys|
  {
    |xs| == 0 || (|ys| > 0 && ((xs[0] == ys[0] && IsSubsequence(xs[1..], ys[1..])) || IsSubsequence(xs, ys[1..])))
  }

  function Pick(b: bool, title: string): seq<string>
  {
    if b then [title] else []
  }

  lemma PickSubsequence(b: bool, title: string, xs: seq<string>, ys: seq<string>)
    requires IsSubsequence(xs, ys)
    ensures IsSubsequence(Pick(b, title) + xs, [title] + ys)
  {
    if b {
      assert (Pick(b, title) + xs)[1..] == xs;
    } else {
      assert Pick(b, title) + xs == xs;
      assert ([title] + ys)[1..] == ys;
    }
  }

  lemma {:induction false} NamesOfAppend(a: seq<Node>, b: seq<Node>)
    ensures NamesOf(a + b) == NamesOf(a) + NamesOf(b)
  {
  }

  lemma NamesOfOptional(title: string, names: seq<string>)
    ensures NamesOf(Optional(title, names)) == Pick(names != [], title)
  {
  }

  /** The top-level categories, in the order the builder adds them. */
  const TopTitles: seq<string> := ["Technical Skills", "Soft Skills", "Domain Expertise", "Certifications", "Methodologies & Techniques"]

  lemma NamesOfTechnical(tech: Categories)
    ensures NamesOf(TechnicalPart(tech)) == Pick(TechnicalChildren(tech) != [], "Technical Skills")
  {
  }

  /** The titles of the root's children, as a function of which parts are non-empty. */
  lemma BuildTitles(d: SkillData)
    ensures NamesOf(Build(d).children) ==
      Pick(TechnicalChildren(d.technical) != [], "Technical Skills") + Pick(d.soft != [], "Soft Skills")
      + Pick(d.domains != [], "Domain Expertise") + Pick(d.certifications != [], "Certifications")
      + Pick(d.methodologies != [], "Methodologies & Techniques")
  {
    var t := TechnicalPart(d.technical);
    var s := Optional("Soft Skills", d.soft);
    var m := Optional("Domain Expertise", d.domains);
    var c := Optional("Certifications", d.certifications);
    var g := Optional("Methodologies & Techniques", d.methodologies);
    NamesOfTechnical(d.technical);
    NamesOfOptional("Soft Skills", d.soft);
    NamesOfOptional("Domain Expertise", d.domains);
    NamesOfOptional("Certifications", d.certifications);
    NamesOfOptional("Methodologies & Techniques", d.methodologies);
    NamesOfAppend(t, s);
    NamesOfAppend(t + s, m);
    NamesOfAppend(t + s + m, c);
    NamesOfAppend(t + s + m + c, g);
  }

  /** Picking from five titles in order gives a subsequence of the five. */
  lemma PicksInOrder(b1: bool, b2: bool, b3: bool, b4: bool, b5: bool,
                     t1: string, t2: string, t3: string, t4: string, t5: string)
    ensures IsSubsequence(Pick(b1, t1) + Pick(b2, t2) + Pick(b3, t3) + Pick(b4, t4) + Pick(b5, t5),
                          [t1, t2, t3, t4, t5])
  {
    var p1, p2, p3, p4, p5 := Pick(b1, t1), Pick(b2, t2), Pick(b3, t3), Pick(b4, t4), Pick(b5, t5);
    PicksInOrder4(b2, b3, b4, b5, t2, t3, t4, t5);
    PickSubsequence(b1, t1, p2 + (p3 + (p4 + p5)), [t2, t3, t4, t5]);
    assert [t1] + [t2, t3, t4, t5] == [t1, t2, t3, t4, t5];
    ConcatAssoc5(p1, p2, p3, p4, p5);
  }

  lemma PicksInOrder1(b5: bool, t5: string)
    ensures IsSubsequence(Pick(b5, t5), [t5])
  {
    PickSubsequence(b5, t5, [], []);
    assert Pick(b5, t5) + [] == Pick(b5, t5);
  }

  lemma PicksInOrder2(b4: bool, b5: bool, t4: string, t5: string)
    ensures IsSubsequence(Pick(b4, t4) + Pick(b5, t5), [t4, t5])
  {
    PicksInOrder1(b5, t5);
    PickSubsequence(b4, t4, Pick(b5, t5), [t5]);
  }

  lemma PicksInOrder3(b3: bool, b4: bool, b5: bool, t3: string, t4: string, t5: string)
    ensures IsSubsequence(Pick(b3, t3) + (Pick(b4, t4) + Pick(b5, t5)), [t3, t4, t5])
  {
    PicksInOrder2(b4, b5, t4, t5);
    PickSubsequence(b3, t3, Pick(b4, t4) + Pick(b5, t5), [t4, t5]);
    assert [t3] + [t4, t5] == [t3, t4, t5];
  }

  lemma PicksInOrder4(b2: bool, b3: bool, b4: bool, b5: bool, t2: string, t3: string, t4: string, t5: string)
    ensures IsSubsequence(Pick(b2, t2) + (Pick(b3, t3) + (Pick(b4, t4) + Pick(b5, t5))), [t2, t3, t4, t5])
  {
    PicksInOrder3(b3, b4, b5, t3, t4, t5);
    PickSubsequence(b2, t2, Pick(b3, t3) + (Pick(b4, t4) + Pick(b5, t5)), [t3, t4, t5]);
    assert [t2] + [t3, t4, t5] == [t2, t3, t4, t5];
  }

  lemma ConcatAssoc5<T>(p1: seq<T>, p2: seq<T>, p3: seq<T>, p4: seq<T>, p5: seq<T>)
    ensures p1 + p2 + p3 + p4 + p5 == p1 + (p2 + (p3 + (p4 + p5)))
  {
  }

  /** Each of five distinct titles occurs among the picks exactly when its flag is set. */
  lemma PicksPresent(b1: bool, b2: bool, b3: bool, b4: bool, b5: bool,
                     t1: string, t2: string, t3: string, t4: string, t5: string)
    requires t1 != t2 && t1 != t3 && t1 != t4 && t1 != t5 && t2 != t3
    requires t2 != t4 && t2 != t5 && t3 != t4 && t3 != t5 && t4 != t5
    ensures var p := Pick(b1, t1) + Pick(b2, t2) + Pick(b3, t3) + Pick(b4, t4) + Pick(b5, t5);
      && (t1 in p <==> b1) && (t2 in p <==> b2) && (t3 in p <==> b3) && (t4 in p <==> b4) && (t5 in p <==> b5)
  {
    PicksMembers(b1, b2, b3, b4, b5, t1, t2, t3, t4, t5);
  }

  lemma PicksMembers(b1: bool, b2: bool, b3: bool, b4: bool, b5: bool,
                     t1: string, t2: string, t3: string, t4: string, t5: string)
    ensures var p := Pick(b1, t1) + Pick(b2, t2) + Pick(b3, t3) + Pick(b4, t4) + Pick(b5, t5);
      forall x :: x in p <==> (b1 && x == t1) || (b2 && x == t2) || (b3 && x == t3) || (b4 && x == t4) || (b5 && x == t5)
  {
  }

  lemma TopTitlesDistinct()
    ensures forall i, j :: 0 <= i < j < |TopTitles| ==> TopTitles[i] != TopTitles[j]
  {
    assert |TopTitles[0]| == 16 && |TopTitles[1]| == 11 && |TopTitles[2]| == 16;
    assert |TopTitles[3]| == 14 && |TopTitles[4]| == 26;
    assert TopTitles[0][0] == 'T' && TopTitles[2][0] == 'D';
  }

  /**
   * The root is `Skills` with no type; its children come in the order
   * Technical Skills, Soft Skills, Domain Expertise, Certifications,
   * Methodologies & Techniques, each present exactly when its input is
   * non-empty.
   */
  lemma BuildShape(d: SkillData)
    ensures Build(d).name == "Skills" && Build(d).kind == None
    ensures IsSubsequence(NamesOf(Build(d).children), TopTitles)
    ensures "Technical Skills" in NamesOf(Build(d).children) <==> TechnicalChildren(d.technical) != []
    ensures "Soft Skills" in NamesOf(Build(d).children) <==> d.soft != []
    ensures "Domain Expertise" in NamesOf(Build(d).children) <==> d.domains != []
    ensures "Certifications" in NamesOf(Build(d).children) <==> d.certifications != []
    ensures "Methodologies & Techniques" in NamesOf(Build(d).children) <==> d.methodologies != []
  {
    BuildOrder(d);
    BuildPresence(d);
  }

  lemma BuildOrder(d: SkillData)
    ensures IsSubsequence(NamesOf(Build(d).children), TopTitles)
  {
    BuildTitles(d);
    PicksInOrder(TechnicalChildren(d.technical) != [], d.soft != [], d.domains != [],
                 d.certifications != [], d.methodologies != [],
                 TopTitles[0], TopTitles[1], TopTitles[2], TopTitles[3], TopTitles[4]);
  }

  lemma BuildPresence(d: SkillData)
    ensures "Technical Skills" in NamesOf(Build(d).children) <==> TechnicalChildren(d.technical) != []
    ensures "Soft Skills" in NamesOf(Build(d).children) <==> d.soft != []
    ensures "Domain Expertise" in NamesOf(Build(d).children) <==> d.domains != []
    ensures "Certifications" in NamesOf(Build(d).children) <==> d.certifications != []
    ensures "Methodologies & Techniques" in NamesOf(Build(d).children) <==> d.methodologies != []
  {
    BuildTitles(d);
    TopTitlesDistinct();
    PicksPresent(TechnicalChildren(d.technical) != [], d.soft != [], d.domains != [],
                 d.certifications != [], d.methodologies != [],
                 TopTitles[0], TopTitles[1], TopTitles[2], TopTitles[3], TopTitles[4]);
  }

  /** One step of the fixed categories: the `k`-th title if its list is non-empty, then the rest. */
  lemma FixedStep(tech: Categories, k: nat)
    requires k < |FixedKeys|
    ensures NamesOf(FixedFrom(tech, k)) == Pick(Lookup(tech, FixedKeys[k]) != [], FixedTitles[k]) + NamesOf(FixedFrom(tech, k + 1))
  {
    var head := Optional(FixedTitles[k], Lookup(tech, FixedKeys[k]));
    NamesOfAppend(head, FixedFrom(tech, k + 1));
    NamesOfOptional(FixedTitles[k], Lookup(tech, FixedKeys[k]));
  }

  lemma FixedEnd(tech: Categories)
    ensures NamesOf(FixedFrom(tech, |FixedKeys|)) == []
  {
  }

  lemma {:induction false} FixedTitlesOrder(tech: Categories, k: nat)
    requires k <= |FixedKeys|
    ensures IsSubsequence(NamesOf(FixedFrom(tech, k)), FixedTitles[k..])
    decreases |FixedKeys| - k
  {
    if k < |FixedKeys| {
      FixedTitlesOrder(tech, k + 1);
      FixedStep(tech, k);
      PickSliceSubsequence(Lookup(tech, FixedKeys[k]) != [], FixedTitles, k, NamesOf(FixedFrom(tech, k + 1)));
    } else {
      FixedEnd(tech);
    }
  }

  lemma PickSliceSubsequence(b: bool, titles: seq<string>, k: nat, xs: seq<string>)
    requires k < |titles| && IsSubsequence(xs, titles[k + 1..])
    ensures IsSubsequence(Pick(b, titles[k]) + xs, titles[k..])
  {
    assert titles[k..] == [titles[k]] + titles[k + 1..];
    PickSubsequence(b, titles[k], xs, titles[k + 1..]);
  }

  /** The five fixed titles are pairwise distinct. */
  lemma FixedTitlesDistinct(i: nat, j: nat)
    requires i < j < |FixedTitles|
    ensures FixedTitles[i] != FixedTitles[j]
  {
    assert FixedTitles[0][0] == 'P' && FixedTitles[1][0] == 'F' && FixedTitles[2][0] == 'T';
    assert FixedTitles[3][0] == 'D' && FixedTitles[4][0] == 'C';
  }

  lemma {:induction false} FixedTitlesPresent(tech: Categories, k: nat, j: nat)
    requires k <= j < |FixedKeys|
    ensures FixedTitles[j] in NamesOf(FixedFrom(tech, k)) <==> Lookup(tech, FixedKeys[j]) != []
    decreases |FixedKeys| - k
  {
    FixedStep(tech, k);
    if j == k {
      if k + 1 < |FixedKeys| {
        FixedTitlesAbsent(tech, k + 1, k);
      } else {
        FixedEnd(tech);
      }
    } else {
      FixedTitlesDistinct(k, j);
      FixedTitlesPresent(tech, k + 1, j);
    }
  }

  /** A title before position `k` is not among the categories from `k` on. */
  lemma {:induction false} FixedTitlesAbsent(tech: Categories, k: nat, j: nat)
    requires j < k <= |FixedKeys|
    ensures FixedTitles[j] !in NamesOf(FixedFrom(tech, k))
    decreases |FixedKeys| - k
  {
    if k < |FixedKeys| {
      FixedStep(tech, k);
      FixedTitlesDistinct(j, k);
      FixedTitlesAbsent(tech, k + 1, j);
    } else {
      FixedEnd(tech);
    }
  }

  /**
   * Under `Technical Skills`, the fixed sub-categories come first in the
   * order Programming Languages, Frameworks, Tools, Databases, Cloud
   * Platforms, each present exactly when its list is non-empty; then one
   * category per other key with a non-empty list, in key order.
   */
  lemma TechnicalShape(tech: Categories)
    ensures TechnicalChildren(tech) == FixedFrom(tech, 0) + OtherCategories(tech)
    ensures IsSubsequence(NamesOf(FixedFrom(tech, 0)), FixedTitles)
    ensures forall j :: 0 <= j < |FixedKeys| ==>
      (FixedTitles[j] in NamesOf(FixedFrom(tech, 0)) <==> Lookup(tech, FixedKeys[j]) != [])
    ensures forall c :: c in OtherCategories(tech) <==>
      exists i :: 0 <= i < |tech| && tech[i].0 !in FixedKeys && tech[i].1 != [] &&
        c == Category(DisplayName(tech[i].0), tech[i].1)
  {
    FixedTitlesOrder(tech, 0);
    forall j | 0 <= j < |FixedKeys|
      ensures FixedTitles[j] in NamesOf(FixedFrom(tech, 0)) <==> Lookup(tech, FixedKeys[j]) != []
    {
      FixedTitlesPresent(tech, 0, j);
    }
  }

  /** Every node is a `skill` leaf or an untyped group of such nodes. */
  predicate Shaped(n: Node)
  {
    if n.kind == Some(Skill) then n.children == []
    else n.kind == None && forall i :: 0 <= i < |n.children| ==> Shaped(n.children[i])
  }

  lemma CategoryShaped(title: string, names: seq<string>)
    ensures Shaped(Category(title, names))
  {
    var c := Category(title, names);
    forall i | 0 <= i < |c.children|
      ensures Shaped(c.children[i])
    {
      assert c.children[i] == Leaf(names[i]);
    }
  }

  predicate AllShaped(cs: seq<Node>)
  {
    forall i :: 0 <= i < |cs| ==> Shaped(cs[i])
  }

  lemma AllShapedAppend(a: seq<Node>, b: seq<Node>)
    requires AllShaped(a) && AllShaped(b)
    ensures AllShaped(a + b)
  {
    forall i | 0 <= i < |a + b|
      ensures Shaped((a + b)[i])
    {
      if i >= |a| {
        assert (a + b)[i] == b[i - |a|];
      }
    }
  }

  lemma OptionalShaped(title: string, names: seq<string>)
    ensures AllShaped(Optional(title, names))
  {
    CategoryShaped(title, names);
  }

  lemma {:induction false} FixedShaped(tech: Categories, k: nat)
    requires k <= |FixedKeys|
    ensures AllShaped(FixedFrom(tech, k))
    decreases |FixedKeys| - k
  {
    if k < |FixedKeys| {
      FixedShaped(tech, k + 1);
      OptionalShaped(FixedTitles[k], Lookup(tech, FixedKeys[k]));
      AllShapedAppend(Optional(FixedTitles[k], Lookup(tech, FixedKeys[k])), FixedFrom(tech, k + 1));
    }
  }

  lemma {:induction false} OthersShaped(tech: Categories)
    ensures AllShaped(OtherCategories(tech))
    decreases |tech|
  {
    if |tech| > 0 {
      OthersShaped(tech[1..]);
      var key := tech[0].0;
      var head := if key !in FixedKeys && tech[0].1 != [] then [Category(DisplayName(key), tech[0].1)] else [];
      assert OtherCategories(tech) == head + OtherCategories(tech[1..]);
      CategoryShaped(DisplayName(key), tech[0].1);
      AllShapedAppend(head, OtherCategories(tech[1..]));
    }
  }

  lemma TechnicalShaped(tech: Categories)
    ensures AllShaped(TechnicalPart(tech))
  {
    FixedShaped(tech, 0);
    OthersShaped(tech);
    AllShapedAppend(FixedFrom(tech, 0), OtherCategories(tech));
  }

  /** Every leaf of a built tree has type `skill`, and every other node is an untyped group. */
  lemma BuildShaped(d: SkillData)
    ensures Shaped(Build(d))
  {
    var t := TechnicalPart(d.technical);
    var s := Optional("Soft Skills", d.soft);
    var m := Optional("Domain Expertise", d.domains);
    var c := Optional("Certifications", d.certifications);
    var g := Optional("Methodologies & Techniques", d.methodologies);
    TechnicalShaped(d.technical);
    OptionalShaped("Soft Skills", d.soft);
    OptionalShaped("Domain Expertise", d.domains);
    OptionalShaped("Certifications", d.certifications);
    OptionalShaped("Methodologies & Techniques", d.methodologies);
    AllShapedAppend(t, s);
    AllShapedAppend(t + s, m);
    AllShapedAppend(t + s + m, c);
    AllShapedAppend(t + s + m + c, g);
  }

  // ---------------------------------------------------------------------
  // _render_tree_html
  // ---------------------------------------------------------------------

  /** `"  " * level` */
  function Indent(level: nat): string
  {
    if level == 0 then "" else "  " + Indent(level - 1)
  }

  /** The indentation of a level is two spaces per level. */
  lemma {:induction false} IndentSpaces(level: nat)
    ensures |Indent(level)| == 2 * level
    ensures forall i :: 0 <= i < |Indent(level)| ==> Indent(level)[i] == ' '
  {
    if level > 0 {
      IndentSpaces(level - 1);
      var r := Indent(level);
      assert r == "  " + Indent(level - 1);
      forall i | 2 <= i < |r|
        ensures r[i] == ' '
      {
        assert r[i] == Indent(level - 1)[i - 2];
      }
    }
  }

  function OpenHtml(level: nat): string
  {
    Indent(level) + "<div class='skill-node'>\n"
  }

  function TitleHtml(name: string, level: nat): string
  {
    Indent(level) + "  <div class='skill-node-name'>" + name + "</div>\n"
  }

  function CloseHtml(level: nat): string
  {
    Indent(level) + "</div>\n"
  }

  function ItemHtml(name: string, level: nat): string
  {
    Indent(level) + "  <span class='skill-item'>" + name + "<span class='skill-type'>(skill)</span></span>\n"
  }

  /**
   * `_render_tree_html(node, level)`: an opening `skill-node` div, a name
   * div, each `skill` child as an inline span and every other child
   * rendered one level deeper, then the closing div.
   */
  function RenderHtml(n: Node, level: nat): string
  {
    OpenHtml(level) + TitleHtml(n.name, level) + RenderChildren(n.children, level) + CloseHtml(level)
  }

  function RenderChildren(cs: seq<Node>, level: nat): string
  {
    if |cs| == 0 then ""
    else
      (if cs[0].kind == Some(Skill) then ItemHtml(cs[0].name, level) else RenderHtml(cs[0], level + 1))
      + RenderChildren(cs[1..], level)
  }

  /** The renderer's output, one line at a time. */
  datatype Line = Open(level: nat) | Title(level: nat, name: string) | Item(level: nat, name: string) | Close(level: nat)

  function LineText(l: Line): string
  {
    match l
    case Open(k) => OpenHtml(k)
    case Title(k, name) => TitleHtml(name, k)
    case Item(k, name) => ItemHtml(name, k)
    case Close(k) => CloseHtml(k)
  }

  /** The texts `f` gives the items, written one after the other, as the renderer's `+=` does. */
  function CatMap<T>(f: T -> string, ls: seq<T>): string
  {
    if |ls| == 0 then "" else f(ls[0]) + CatMap(f, ls[1..])
  }

  function Concat(ls: seq<Line>): string
  {
    CatMap(LineText, ls)
  }

  function Lines(n: Node, level: nat): (r: seq<Line>)
    ensures |r| >= 3 && r[0] == Open(level) && r[|r| - 1] == Close(level)
  {
    [Open(level), Title(level, n.name)] + ChildLines(n.children, level) + [Close(level)]
  }

  function ChildLines(cs: seq<Node>, level: nat): seq<Line>
  {
    if |cs| == 0 then []
    else
      (if cs[0].kind == Some(Skill) then [Item(level, cs[0].name)] else Lines(cs[0], level + 1))
      + ChildLines(cs[1..], level)
  }

  lemma {:induction false} CatMapAppend<T>(f: T -> string, a: seq<T>, b: seq<T>)
    ensures CatMap(f, a + b) == CatMap(f, a) + CatMap(f, b)
    decreases |a|
  {
    if |a| > 0 {
      CatMapAppend(f, a[1..], b);
      assert (a + b)[1..] == a[1..] + b;
      StringAssoc(f(a[0]), CatMap(f, a[1..]), CatMap(f, b));
    } else {
      assert a + b == b;
    }
  }

  lemma ConcatAppend(a: seq<Line>, b: seq<Line>)
    ensures Concat(a + b) == Concat(a) + Concat(b)
  {
    CatMapAppend(LineText, a, b);
  }

  lemma StringAssoc(a: string, b: string, c: string)
    ensures a + (b + c) == a + b + c
  {
  }

  lemma CatMapOne<T>(f: T -> string, x: T)
    ensures CatMap(f, [x]) == f(x)
  {
    assert [x][1..] == [];
    assert CatMap(f, [x]) == f(x) + "";
  }

  lemma ConcatOne(x: Line)
    ensures Concat([x]) == LineText(x)
  {
    CatMapOne(LineText, x);
  }

  lemma ConcatTwo(x: Line, y: Line)
    ensures Concat([x, y]) == LineText(x) + LineText(y)
  {
    assert [x, y] == [x] + [y];
    ConcatAppend([x], [y]);
    ConcatOne(x);
    ConcatOne(y);
  }

  /** The HTML string is the concatenation of the structured lines' texts. */
  lemma {:induction false} RenderAsLines(n: Node, level: nat)
    ensures RenderHtml(n, level) == Concat(Lines(n, level))
  {
    var head := [Open(level), Title(level, n.name)];
    var mid := ChildLines(n.children, level);
    RenderChildrenAsLines(n.children, level);
    ConcatAppend(head + mid, [Close(level)]);
    ConcatAppend(head, mid);
    ConcatOne(Close(level));
    ConcatTwo(Open(level), Title(level, n.name));
  }

  lemma {:induction false} RenderChildrenAsLines(cs: seq<Node>, level: nat)
    ensures RenderChildren(cs, level) == Concat(ChildLines(cs, level))
  {
    if |cs| > 0 {
      RenderChildrenAsLines(cs[1..], level);
      var head := if cs[0].kind == Some(Skill) then [Item(level, cs[0].name)] else Lines(cs[0], level + 1);
      ConcatAppend(head, ChildLines(cs[1..], level));
      if cs[0].kind == Some(Skill) {
        ConcatOne(Item(level, cs[0].name));
      } else {
        RenderAsLines(cs[0], level + 1);
      }
    }
  }

  /** Opening divs minus closing divs. */
  function Depth(ls: seq<Line>): int
  {
    if |ls| == 0 then 0
    else (match ls[0] case Open(_) => 1 case Close(_) => -1 case _ => 0) + Depth(ls[1..])
  }

  lemma {:induction false} DepthAppend(a: seq<Line>, b: seq<Line>)
    ensures Depth(a + b) == Depth(a) + Depth(b)
    decreases |a|
  {
    if |a| > 0 {
      assert (a + b)[1..] == a[1..] + b;
      DepthAppend(a[1..], b);
    } else {
      assert a + b == b;
    }
  }

  /** The opening and closing `skill-node` divs of one call balance out. */
  lemma {:induction false} LinesBalanced(n: Node, level: nat)
    ensures Depth(Lines(n, level)) == 0
  {
    var head := [Open(level), Title(level, n.name)];
    var mid := ChildLines(n.children, level);
    ChildLinesBalanced(n.children, level);
    DepthAppend(head + mid, [Close(level)]);
    DepthAppend(head, mid);
    assert head[1..][1..] == [];
    assert [Close(level)][1..] == [];
  }

  lemma {:induction false} ChildLinesBalanced(cs: seq<Node>, level: nat)
    ensures Depth(ChildLines(cs, level)) == 0
  {
    if |cs| > 0 {
      var head := if cs[0].kind == Some(Skill) then [Item(level, cs[0].name)] else Lines(cs[0], level + 1);
      ChildLinesBalanced(cs[1..], level);
      DepthAppend(head, ChildLines(cs[1..], level));
      if cs[0].kind == Some(Skill) {
        assert head[1..] == [];
      } else {
        LinesBalanced(cs[0], level + 1);
      }
    }
  }

  lemma PrefixOfAppend(a: seq<Line>, b: seq<Line>, k: nat)
    requires |a| <= k <= |a| + |b|
    ensures (a + b)[..k] == a + b[..k - |a|]
  {
  }

  /**
   * The divs nest: every non-empty proper prefix of one call's output has
   * more opening than closing divs, so the closing div of the call is the
   * one that matches its opening div.
   */
  lemma {:induction false} LinesNested(n: Node, level: nat, k: nat)
    requires 0 < k < |Lines(n, level)|
    ensures Depth(Lines(n, level)[..k]) >= 1
  {
    var head := [Open(level), Title(level, n.name)];
    var mid := ChildLines(n.children, level);
    var ls := Lines(n, level);
    assert ls == head + mid + [Close(level)];
    if k <= 2 {
      assert ls[..k] == head[..k];
      assert head[..k][1..] == head[1..k];
      assert Depth(head[1..k]) == 0;
    } else {
      assert ls[..k] == head + mid[..k - 2];
      ChildLinesPrefix(n.children, level, k - 2);
      DepthAppend(head, mid[..k - 2]);
      assert head[1..][1..] == [];
    }
  }

  lemma {:induction false} ChildLinesPrefix(cs: seq<Node>, level: nat, k: nat)
    requires k <= |ChildLines(cs, level)|
    ensures Depth(ChildLines(cs, level)[..k]) >= 0
  {
    if |cs| > 0 && k > 0 {
      var head := if cs[0].kind == Some(Skill) then [Item(level, cs[0].name)] else Lines(cs[0], level + 1);
      var rest := ChildLines(cs[1..], level);
      assert ChildLines(cs, level) == head + rest;
      if k <= |head| {
        assert (head + rest)[..k] == head[..k];
        if cs[0].kind == Some(Skill) {
          assert head[..k] == head;
          assert head[1..] == [];
        } else if k == |head| {
          LinesBalanced(cs[0], level + 1);
          assert head[..k] == head;
        } else {
          LinesNested(cs[0], level + 1, k);
        }
      } else {
        PrefixOfAppend(head, rest, k);
        ChildLinesPrefix(cs[1..], level, k - |head|);
        DepthAppend(head, rest[..k - |head|]);
        if cs[0].kind == Some(Skill) {
          assert head[1..] == [];
        } else {
          LinesBalanced(cs[0], level + 1);
        }
      }
    }
  }

  /** The names shown as inline `skill-item` spans, in output order. */
  function ItemNames(ls: seq<Line>): seq<string>
  {
    if |ls| == 0 then []
    else (if ls[0].Item? then [ls[0].name] else []) + ItemNames(ls[1..])
  }

  lemma {:induction false} ItemNamesAppend(a: seq<Line>, b: seq<Line>)
    ensures ItemNames(a + b) == ItemNames(a) + ItemNames(b)
    decreases |a|
  {
    if |a| > 0 {
      assert (a + b)[1..] == a[1..] + b;
      ItemNamesAppend(a[1..], b);
    } else {
      assert a + b == b;
    }
  }

  /** In a shaped tree the spans are exactly the skill names, in pre-order. */
  lemma {:induction false} LinesItems(n: Node, level: nat)
    requires Shaped(n) && n.kind == None
    ensures ItemNames(Lines(n, level)) == SkillNamesAll(n.children)
  {
    var head := [Open(level), Title(level, n.name)];
    var mid := ChildLines(n.children, level);
    ChildLinesItems(n.children, level);
    ItemNamesAppend(head + mid, [Close(level)]);
    ItemNamesAppend(head, mid);
    assert head[1..][1..] == [];
    assert [Close(level)][1..] == [];
  }

  lemma {:induction false} ChildLinesItems(cs: seq<Node>, level: nat)
    requires forall i :: 0 <= i < |cs| ==> Shaped(cs[i])
    ensures ItemNames(ChildLines(cs, level)) == SkillNamesAll(cs)
  {
    if |cs| > 0 {
      var head := if cs[0].kind == Some(Skill) then [Item(level, cs[0].name)] else Lines(cs[0], level + 1);
      assert forall i :: 0 <= i < |cs[1..]| ==> cs[1..][i] == cs[i + 1];
      ChildLinesItems(cs[1..], level);
      ItemNamesAppend(head, ChildLines(cs[1..], level));
      assert Shaped(cs[0]);
      if cs[0].kind == Some(Skill) {
        assert head[1..] == [];
        assert SkillNames(cs[0]) == [cs[0].name];
      } else {
        LinesItems(cs[0], level + 1);
        assert SkillNames(cs[0]) == SkillNamesAll(cs[0].children);
      }
    }
  }

  /** Rendering a built tree shows every skill of the data as a span, in category order. */
  lemma RenderBuiltTree(d: SkillData)
    ensures ItemNames(Lines(Build(d), 0)) == AllNames(d)
    ensures Depth(Lines(Build(d), 0)) == 0
  {
    BuildShaped(d);
    LinesItems(Build(d), 0);
    BuildSkillNames(d);
    LinesBalanced(Build(d), 0);
  }
}

=== FILE: wrappers.dfy ===
/** The option type shared by every module of the model. */
module Wrappers {

  /** A value that may be missing: JSON's absent key, `null` and `undefined` all map to `None`. */
  datatype Option<+T> = None | Some(value: T) {

    /** The wrapped value, or `default` when it is missing. */
    function GetOr(default: T): T
    {
      match this
      case Some(v) => v
      case None => default
    }
  }
}
